=== FILE: README.md ===
# deffcode core, modelled in Dafny

deffcode decodes video frames by driving FFmpeg as a subprocess. This project
models the logic deffcode runs around that subprocess:

- **`Sourcer`** validates a source (file, image sequence, URL or camera-device
  index), builds the FFmpeg probe command, and reads stream metadata out of
  FFmpeg's text output with regular expressions.
- **`FFdecoder`** turns that metadata and the user's parameters into an FFmpeg
  decode command. It then cuts FFmpeg's raw output into frames of the right
  size and shape.
- **The helpers** parse FFmpeg's listings of decoders, pixel formats, demuxers,
  protocols and devices. They also check image sequences and URLs, interpret
  subprocess results, and flatten parameter dictionaries into argv lists.

Everything outside the process boundary becomes a parameter:

- what the FFmpeg binary prints for each query: a `Captured(retcode, stdout, stderr)`;
- the platform name;
- the filesystem answers, such as "is a file", the absolute path and the parent directory listing;
- the bytes FFmpeg writes to the pipe.

Python values are the `Py.Value` datatype, because the code branches on
`isinstance`. Dictionaries are insertion-ordered entry lists. Exceptions are
`Err` values of `Results.Result`.

Modules:

- `Text`: `strip`, `split`, `startswith`, `int()` and related string operations.
- `Py`: dynamic values and dictionaries.
- `Results`: results and errors.
- `Scan`: every regular expression the code uses, as deterministic matchers with leftmost-first `search`/`findall`.
- `Utils`: `deffcode/utils.py`.
- `FFhelper`: `deffcode/ffhelper.py`.
- `Extract`: the metadata extractors of `deffcode/sourcer.py`.
- `Sourcer`: the rest of `deffcode/sourcer.py`.
- `FFdecoder`: `deffcode/ffdecoder.py`.
- `Frames`: the byte and array layer of frame decoding (`numpy.frombuffer`, `reshape`, `transpose`).
- `Findings`: the discrepancies listed below.

Each discrepancy under "## Findings" has two definitions: the code as written
and the evident intent. The decoder's main path (`FFdecoder.ProbeFor`,
`NewDecoder`, `FrameLayout`, `Plan`, `Formulate` and `FetchFrame`) is built
from the intended ones, and "## Left out" names each place where it therefore
differs from the code as written.

## Model

| member | source | states |
|---|---|---|
| Utils.Dict2ArgsAppend | deffcode/utils.py:89-115 | Flattening a dictionary is compositional: the arguments of two entry lists joined are the two argument lists joined. |
| Utils.Dict2ArgsOrdinary | deffcode/utils.py:108-114 | Without `-clones`/`-core*` keys the argument list alternates key and `str(value)`, two per entry, in key order. |
| Utils.Dict2ArgsSpliced | deffcode/utils.py:100-107 | A `-clones`/`-core*` key contributes only its list's items, never itself, and a non-list value under it contributes nothing. |
| Utils.Dict2ArgsLength | deffcode/utils.py:89-115 | The argument count is two per ordinary key plus the lengths of the spliced lists. |
| Utils.ValidateDeviceIndex | deffcode/utils.py:137-163 | Integers are always accepted and non-text non-integers never are; text is accepted exactly when it is an unpadded integer numeral without a `+` sign. |
| Utils.ValidateDeviceIndexPrinted | deffcode/utils.py:137-163 | Every printed integer is an accepted device index and reads back as that integer. |
| Utils.ValidateDeviceIndexRejects | deffcode/utils.py:152-163 | Empty text, a lone minus sign and a space-padded numeral are rejected. |
| FFhelper.CheckSpOutput | deffcode/ffhelper.py:647-691 | A non-zero return code raises `CalledProcessError` exactly when stderr was not requested. Otherwise the result is stderr when requested and non-empty, and stdout in every other case. |
| FFhelper.StderrText | deffcode/ffhelper.py:676-691 | A query asking for stderr never raises. |
| FFhelper.ParseVdecoders | deffcode/ffhelper.py:316-328 | The decoder names are, one per `findall` match and in order, the name columns of the row matches in the kept `V` lines. Each name is a single space-free word. |
| FFhelper.DecoderNamesAll | deffcode/ffhelper.py:324-328 | The decoder names pair off with the row matches: one name per match, in order, each the last space piece of its match. |
| FFhelper.GetSupportedVdecoders | deffcode/ffhelper.py:304-328 | The decoder list fails exactly when the FFmpeg query fails, and otherwise is the listing's parse. |
| FFhelper.RowNameSplit | deffcode/ffhelper.py:324-328 | The last space-separated piece of a decoder row match is the name column when the flags are followed by a plain space, and the whole match otherwise. |
| FFhelper.ParsePixfmts | deffcode/ffhelper.py:283-301 | The table parse fails with `IndexError` exactly when no line holds `-----`. Otherwise it holds, one per `findall` match and in order, the name, component and bit-count groups of the row matches in the non-blank lines after the separator. Every row has a space-free name, one component digit 0-4 and a numeral bit count. |
| FFhelper.PixfmtRowsAll | deffcode/ffhelper.py:293-301 | The table rows pair off with the row matches: one row per match, in order, each holding its match's three groups. |
| FFhelper.PixfmtsSkipHeader | deffcode/ffhelper.py:283-289 | Header lines before the separator line have no effect on the parsed pixel-format table. |
| FFhelper.GetSupportedPixfmts | deffcode/ffhelper.py:272-301 | A failed query raises `CalledProcessError`; otherwise the result is the table parse. |
| FFhelper.DemuxerToken | deffcode/ffhelper.py:346-350 | A demuxer token has no comma and no surrounding whitespace, and without commas it is the stripped row. |
| FFhelper.DemuxerTokenLastAlias | deffcode/ffhelper.py:346-350 | Every demuxer token is the stripped text after the last comma of its row, the last alias listed. |
| FFhelper.ParseDemuxers | deffcode/ffhelper.py:340-350 | The demuxer parse fails with `ValueError` exactly when no stripped line is `--`. Otherwise it yields, one per `findall` match and in order, the token of each row match in the lines after `--`, except the last. No token holds a comma. |
| FFhelper.DemuxerTokensAll | deffcode/ffhelper.py:346-350 | The demuxer names pair off with the row matches: one token per match, in order, each the stripped match or its last alias. |
| FFhelper.GetSupportedDemuxers | deffcode/ffhelper.py:331-350 | A failed query raises `CalledProcessError`; otherwise the result is the demuxer parse. |
| FFhelper.QuotedGroups | deffcode/ffhelper.py:418-419 | Every quoted DirectShow name is non-empty, has no line break before its last character and does not end in a backslash. |
| FFhelper.NonMonikers | deffcode/ffhelper.py:420-422 | The device names kept are exactly the groups that do not start with `@device`. |
| FFhelper.DShowIgnoresAudio | deffcode/ffhelper.py:412-422 | Nothing after the `DirectShow audio` heading affects the DirectShow video device list. |
| FFhelper.AVFoundationIgnoresAudio | deffcode/ffhelper.py:497-508 | Nothing after the `AVFoundation audio` heading affects the AVFoundation video device list. |
| FFhelper.IndexedGroups | deffcode/ffhelper.py:504-506 | Every `[n]`-indexed AVFoundation device name lies within one line. |
| FFhelper.ExtractDeviceNDemuxer | deffcode/ffhelper.py:353-536 | An unknown platform is a `ValueError`. A demuxer FFmpeg lacks is an `AssertionError` for an exact platform name and a `KeyError` for a padded one. An empty device list is a `RuntimeError`. Success returns a non-empty device list and the platform's demuxer, which FFmpeg lists. |
| FFhelper.PaddedPlatformUnsupported | deffcode/ffhelper.py:392-399 | `" Windows"` still gets `dshow`, but when FFmpeg lacks it the failure is a `KeyError`, while `"Windows"` gets the `AssertionError`. |
| FFhelper.UnsupportedDemuxer | deffcode/ffhelper.py:392-399 | A supported platform whose demuxer FFmpeg lacks always fails, whatever the device listing says. |
| FFhelper.ValidateImgseqdir | deffcode/ffhelper.py:539-564 | The check never passes for a missing parent directory. |
| FFhelper.ImgseqdirThree | deffcode/ffhelper.py:556-564 | The directory check passes exactly when the directory exists and three distinct entries carry the extension. |
| FFhelper.ImgseqdirMissing | deffcode/ffhelper.py:553-564 | A missing parent directory fails the check for every extension. |
| FFhelper.SplitExt | deffcode/ffhelper.py:590 | The stem and extension rejoin to the path. The extension is empty or one point followed by point-free, slash-free text, and when there is an extension the stem's last component has a character other than a point. |
| FFhelper.SplitExtOfName | deffcode/ffhelper.py:590 | A stem whose last component has a non-point character, a point and a plain extension split back into that stem and extension. |
| FFhelper.PipeFormats | deffcode/ffhelper.py:585-589 | The image formats read from `*_pipe` demuxer names never contain an underscore. |
| FFhelper.IsValidImageSeq | deffcode/ffhelper.py:567-606 | A missing or empty source is `False`. A failed query raises. A listed extension gives `True` when the directory check passes and falls through to `None` when it fails. An unlisted extension is `False`. |
| FFhelper.ListedProtocols | deffcode/ffhelper.py:628-633 | The protocol list fails with `ValueError` exactly when no stripped line is `Output:`. |
| FFhelper.IsValidUrl | deffcode/ffhelper.py:609-644 | A missing or empty URL is `False`. A failed query raises. With both listings readable the call succeeds, and it is `True` exactly when the scheme is non-empty and either listed as a protocol or `rtsp` with an `rtsp` demuxer. |
| FFhelper.UrlScheme | deffcode/ffhelper.py:627 | The scheme is exactly the text before the first `://`. |
| Extract.SelectIndex | deffcode/sourcer.py:592-596 | A stream position is always one of the existing stream lines. |
| Extract.SelectedStream | deffcode/sourcer.py:585-596 | A stream is selected exactly when some line mentions all the identifiers, and it is one of those lines. |
| Extract.BitrateReading | deffcode/sourcer.py:601-605 | A bitrate reads exactly when both separators are plain spaces, and then it is a numeral without leading zeros followed by `k` or `M`. |
| Extract.BitrateBothSpaces | deffcode/sourcer.py:601-605 | With space separators the string surgery yields the integer and the first letter of the unit. |
| Extract.BitrateLateTab | deffcode/sourcer.py:601-605 | A tab after the number makes the unit piece non-numeric text, so `int()` raises `ValueError`. |
| Extract.BitrateEarlyTab | deffcode/sourcer.py:601-605 | A tab before the number puts the number and unit in one piece, so `int()` raises `ValueError`. |
| Extract.VideoBitrateMatch | deffcode/sourcer.py:597-605 | Splitting a video bitrate match and converting its pieces gives the direct reading of the matched fields. |
| Extract.AudioBitrateMatch | deffcode/sourcer.py:696-708 | Splitting an audio bitrate match and converting its pieces gives the direct reading of the matched fields. |
| Extract.ExtractVideoBitrate | deffcode/sourcer.py:576-607 | No video line or no bitrate match gives `""`. Otherwise the result is the direct reading of the first match on the selected line, a well-formed bitrate or the error `int()` raises. |
| Extract.SampleRateMatch | deffcode/sourcer.py:709-716 | Splitting a sample-rate match at comma-space gives the direct reading of its digits and `Hz`. |
| Extract.AudioIn | deffcode/sourcer.py:690-718 | The audio parameters exist exactly when both readings do. A bitrate error surfaces first. |
| Extract.ExtractAudio | deffcode/sourcer.py:674-718 | No parameters exactly when no audio stream line exists. Otherwise the parameters are the selected line's bitrate and sample-rate readings, or the bitrate reading's error. The bitrate is well formed or empty. |
| Extract.CodecMatch | deffcode/sourcer.py:631-635 | The last space-separated piece of a codec match is the direct reading and contains no space. |
| Extract.ExtractVideoDecoder | deffcode/sourcer.py:609-636 | `""` without a video line or codec match. Otherwise the space-free codec name after `Video:` in the first match on the selected line. |
| Extract.PixfmtMatch | deffcode/sourcer.py:660-670 | The last space-separated piece of a pixel-format match is the direct reading and contains no space. |
| Extract.ExtractVideoPixfmt | deffcode/sourcer.py:638-672 | `""` without a video line or match. Otherwise the space-free pixel-format name of the first match on the selected line. |
| Extract.ResolutionIn | deffcode/sourcer.py:754-776 | A resolution is found exactly when the pattern matches. The first match is exactly the width and height printed around an `x`, both at least 10. |
| Extract.ResolutionPrinted | deffcode/sourcer.py:775-776 | `int()` of each group of a resolution match prints back as that group, so the match is the two numbers around the `x`. |
| Extract.RateMatch | deffcode/sourcer.py:758-770 | `float()` of the text a rate match keeps is the direct decimal reading of its digits. |
| Extract.FramerateIn | deffcode/sourcer.py:758-775 | The frame rate comes from `fps` when present and from `tbr` otherwise, and is absent exactly when neither matches. |
| Extract.ExtractResolutionFramerate | deffcode/sourcer.py:720-778 | Geometry is reported exactly when both the resolution and a frame rate are found on the selected video line. It is then that line's width, height and frame rate, the rate taken from `fps` before `tbr`. |
| Extract.DurationMatch | deffcode/sourcer.py:795-807 | Splitting a clock at its colons and weighting the reversed fields by powers of sixty gives h·3600 + m·60 + s. |
| Extract.ExtractDuration | deffcode/sourcer.py:780-809 | A duration exists exactly when the first `Duration:` line holds a clock, and it is that clock's seconds. |
| Sourcer.Sanitise | deffcode/sourcer.py:102-107 | The sanitised dictionary has unique keys. |
| Sourcer.SanitiseGet | deffcode/sourcer.py:102-107 | Looking a key up after sanitising finds the cleaned value of the last entry whose stripped key is that key. |
| Sourcer.DefaultDemuxerNormal | deffcode/sourcer.py:160-172 | A chosen demuxer is always stripped and lower-case. |
| Sourcer.DefaultDemuxerStable | deffcode/sourcer.py:160-172 | Passing the chosen demuxer back in chooses the same demuxer again. |
| Sourcer.ForceValidate | deffcode/sourcer.py:110-115 | Validation is forced exactly when the last `-force_validate_source` is the boolean `True`. |
| Sourcer.NewReader | deffcode/sourcer.py:72-187 | Without an FFmpeg executable the constructor raises `RuntimeError`. Otherwise it fails exactly when the demuxer choice fails, and keeps the unconsumed parameters and the forced flag. |
| Sourcer.IntOfValue | deffcode/sourcer.py:444 | `int()` keeps integers, parses optionally signed ASCII numerals within whitespace (`ValueError` otherwise), truncates floats toward zero (the result lies between zero and the float, less than one away), and raises `TypeError` on anything else. |
| Sourcer.IntOfValueTruncates | deffcode/sourcer.py:444 | `int(2.5)` and `int(2.99)` are 2, `int(-2.5)` is -2 and `int(-0.5)` is 0: truncation, not rounding. |
| Sourcer.DeviceSource | deffcode/sourcer.py:465-481 | The device source is `video=<name>` on Windows, the index as text on macOS, and the node path on Linux (`AttributeError` for a named entry there). |
| Sourcer.ResolveAuto | deffcode/sourcer.py:442-504 | A resolved index is in range for the device list, negative indexes counting from the end. Any index outside `-n … n-1` is a `ValueError`, and parse and listing errors pass through. |
| Sourcer.CheckDemuxer | deffcode/sourcer.py:442-512 | No demuxer passes unchanged, `auto` passes exactly when the index resolves, and any other demuxer passes exactly when FFmpeg lists it. |
| Sourcer.Classify | deffcode/sourcer.py:522-539 | Forced sources pass, and otherwise an existing file is a file. Failing that, an approved image sequence is accepted as one, and failing that an approved URL is accepted as one. Each helper's error passes through, and a source failing every test is a `ValueError`. |
| Sourcer.ProbeCommand | deffcode/sourcer.py:541-560 | The probe is the executable, `-hide_banner` unless verbose, `-t 0.0001` when there are parameters, the prefixes, `-f <demuxer>` for a non-empty demuxer, then `-i <source>`. With parameters it ends with them and `-f null -`. |
| Sourcer.SplitOutput | deffcode/sourcer.py:571-572 | Text without `Output #` is all input. One marker splits the text into two marker-free parts that rejoin to it. More markers make unpacking raise `ValueError`. |
| Sourcer.ValidateSource | deffcode/sourcer.py:429-574 | Demuxer errors pass through, and a non-text or empty source is an `AssertionError`. On success the classification, probe command and output split are those of the checked source, and a file is replaced by its absolute path. |
| Sourcer.StreamFlags | deffcode/sourcer.py:294-309 | Video is present when there is a bitrate or both a frame rate and a resolution, and audio when there is an audio bitrate or sample rate. Neither is a `ValueError`. |
| Sourcer.StreamIndexes | deffcode/sourcer.py:233-238 | Stream indexes are accepted exactly as a two-item list or tuple of integers, else `AssertionError`. |
| Sourcer.ReadStreams | deffcode/sourcer.py:279-309 | The stream readings are the extractors' results, with duration `0` when none is found, and a successful read has at least one stream. |
| Sourcer.FrameCount | deffcode/sourcer.py:310-314 | With a non-zero frame rate and duration, the approximate frame count is their product rounded half to even; otherwise it stays `""`. |
| Sourcer.ProbeStream | deffcode/sourcer.py:225-320 | Bad indexes are an `AssertionError`, and validation errors pass through. The geometry, pixel format and decoder come from the selected video stream. An image sequence has no bitrate, audio or frame count. |
| Sourcer.NframesEntry | deffcode/sourcer.py:362-366 | A falsy frame count is reported as `None`, and any other count as itself. |
| Sourcer.InputEntry | deffcode/sourcer.py:344-353 | The metadata records the demuxer when one was used and the file extension otherwise. |
| Sourcer.RetrieveMetadata | deffcode/sourcer.py:322-406 | Before probing it is an `AssertionError`. Otherwise the metadata lists the binary, the source, the input entry, the twelve source readings, and the output readings when there is an output section. The missing dictionary holds the other input key and, without output, the output keys. |
| Sourcer.MetaKeys | deffcode/sourcer.py:339-395 | The metadata's keys are, in order, the head keys, the input key, the source keys and, with output, the output keys. |
| Sourcer.MissingKeys | deffcode/sourcer.py:343-395 | The missing dictionary's keys are the other input key and, without output, the output keys. |
| Sourcer.MetadataPartition | deffcode/sourcer.py:339-406 | Metadata and missing metadata together report every metadata key exactly once. |
| FFdecoder.OpMode | deffcode/ffdecoder.py:151-171 | An image sequence is checked first. Audio-Video requires video, audio and pass-through; video alone is Video-Only. No video is a `ValueError`, and a flag the decision reaches but the metadata lacks is a `KeyError`. |
| FFdecoder.DecoderParams | deffcode/ffdecoder.py:102-219 | The parameters left after the constructor hold none of the consumed keys, and every other key keeps its last sanitised value. |
| FFdecoder.ReaderOptions | deffcode/ffdecoder.py:110-118 | The reader gets the custom options with `-ffmpeg_download_path` set from the decoder's own parameter, empty by default. |
| FFdecoder.IndexesOption | deffcode/ffdecoder.py:121-129 | The probe's stream indexes are the user's list or tuple, and `(0, 0)` for anything else. |
| FFdecoder.FramerateOption | deffcode/ffdecoder.py:184-193 | The user frame rate is kept exactly when it is a positive number, and is otherwise `0.0`. |
| FFdecoder.ResolutionOption | deffcode/ffdecoder.py:201-207 | A custom resolution is kept exactly when it is a list or tuple of two items. |
| FFdecoder.ReaderCallAsWritten | deffcode/ffdecoder.py:132-141 | As written the reader call always carries a stray empty `ffmpeg_path` parameter, and options named like the call's own keywords are a `TypeError`. |
| FFdecoder.ReaderCallFor | deffcode/ffdecoder.py:132-141 | As intended the decoder's `custom_ffmpeg` reaches the reader, and every other option passes through unchanged. |
| FFdecoder.ProbeFor | deffcode/ffdecoder.py:132-141 | The decoder's probe is the reader's probe on the reader that the corrected call builds from its options. |
| FFdecoder.Configure | deffcode/ffdecoder.py:144-219 | A configured decoder is initialising with no pipeline and is not terminated. Its metadata is the probe's plus `operational_mode`. The mode, frame rate, resolution, prefixes, postfixes and remaining parameters are those the option readers give. |
| FFdecoder.NewDecoder | deffcode/ffdecoder.py:46-219 | Probe errors pass through unchanged, and otherwise the decoder is configured from the probe. |
| FFdecoder.ModeKept | deffcode/ffdecoder.py:173-175 | Recording the mode in the metadata does not change the mode decision or any other key. |
| FFdecoder.DefaultDecoder | deffcode/ffdecoder.py:233-238 | The default decoder is the source's decoder when the build supports it and `unknown` otherwise. A missing key is a `KeyError`. |
| FFdecoder.Rename | deffcode/ffdecoder.py:239-242 | Renaming moves the value to the new key, removes the old key, and leaves every other key unchanged. |
| FFdecoder.Consume | deffcode/ffdecoder.py:239-288 | After a choice consumes its keys neither key is left, and every other key is unchanged. |
| FFdecoder.PickDecoder | deffcode/ffdecoder.py:244-278 | An image sequence or an explicit `None` gets no decoder. A supported request is used, and an unsupported one falls back to a known default. Any other decoder the build lacks is a `RuntimeError`. |
| FFdecoder.PickFrames | deffcode/ffdecoder.py:281-288 | A frame count becomes an output parameter exactly when it is positive. A non-number is a `TypeError`. |
| FFdecoder.ChoosePixfmt | deffcode/ffdecoder.py:291-315 | The default is `rgb24` when supported and the source's format otherwise. The frame format is used when supported and the default otherwise. |
| FFdecoder.Conversions | deffcode/ffdecoder.py:318-323 | A format with no row gives no conversion. Otherwise the first conversion is the first matching row's, and a matching row always yields one. |
| FFdecoder.RowOf | deffcode/ffdecoder.py:318-323 | The components and bits per pixel come from the first row named by the format. A format without a row is an `IndexError`. |
| FFdecoder.FloorDiv | deffcode/ffdecoder.py:324 | Integer division rounds down for either sign of divisor. A zero divisor is a `ZeroDivisionError`. |
| FFdecoder.SampleType | deffcode/ffdecoder.py:325-333 | 4- and 8-bit components are one byte. 16-bit ones take their byte order from an `le`/`be` suffix. Other sizes have no type. |
| FFdecoder.LayoutAsWritten | deffcode/ffdecoder.py:318-342 | As written a rejected format falls back to the default with one-byte samples, but keeps the rejected format's component count. |
| FFdecoder.ChooseLayout | deffcode/ffdecoder.py:318-342 | As intended the fallback takes the default format's own component count from its table row. |
| FFdecoder.FrameLayout | deffcode/ffdecoder.py:291-343 | The chosen format keeps its own row's depth and the sample type its bits per component give. An unsupported component size falls back to the default format with one-byte samples, and with the corrected depth of the default format's own row. |
| FFdecoder.ResolutionFor | deffcode/ffdecoder.py:346-350 | The frame resolution is the custom one when given, otherwise the source's (`KeyError` when missing). |
| FFdecoder.Dimensions | deffcode/ffdecoder.py:351-354 | The size text is `WxH` for two integers, and otherwise fails with the first indexing error. |
| FFdecoder.FramerateText | deffcode/ffdecoder.py:357-362 | The output frame rate is the user's positive rate, otherwise the source's. |
| FFdecoder.FrameNumAsWritten | deffcode/ffdecoder.py:368-373 | As written the frame count is read from the input parameters, otherwise the source's non-zero estimate. |
| FFdecoder.FrameNum | deffcode/ffdecoder.py:368-373 | As intended the frame count is the user's `-frames:v` from the output parameters, otherwise the source's non-zero estimate. |
| FFdecoder.Texts | deffcode/ffdecoder.py:544 | Joining the command succeeds exactly when every word is text. |
| FFdecoder.CommandValues | deffcode/ffdecoder.py:533-542 | The command's words are FFmpeg, the prefixes, the input arguments at their offsets, the postfixes, `-i` and the source, the output arguments, then `-f rawvideo -`. |
| FFdecoder.Launch | deffcode/ffdecoder.py:533-544 | For argument lists already built, the argv is FFmpeg, the prefixes, the input arguments, the postfixes, `-i` and the source, the output arguments, `-f rawvideo -`. Building it fails with a `TypeError` exactly when some word is not text. |
| FFdecoder.Command | deffcode/ffdecoder.py:527-544 | The launched argv has that shape, with the input and output dictionaries flattened to arguments and the source taken from the metadata. It fails exactly when some word is not text. A source missing from the metadata is a `KeyError`. |
| FFdecoder.InputStage | deffcode/ffdecoder.py:229-289 | The input stage consumes `-c:v`/`-vcodec` and `-vframes`/`-frames:v`. It picks the decoder from the request and default, and the frame count from the request. |
| FFdecoder.OutputStage | deffcode/ffdecoder.py:291-365 | The output parameters hold the layout's pixel format, the size and the frame rate unless the user's leftover parameters override them. The frame count is included, and every leftover parameter keeps its last value. |
| FFdecoder.Plan | deffcode/ffdecoder.py:221-380 | The first `formulate` derives the input, layout, resolution, frame count and argv from the two stages. The frame count is the corrected one, so a user `-frames:v` becomes the pipeline's count. |
| FFdecoder.Formulate | deffcode/ffdecoder.py:221-387 | A second call changes nothing. The first call fails with the decoder query's error or launches the planned pipeline (with the corrected frame count and layout), leaving the settings other than the parameters unchanged. |
| FFdecoder.FrameDims | deffcode/ffdecoder.py:398-402 | The frame's width and height are the resolution's first two items, which must be integers. |
| FFdecoder.SizeFactor | deffcode/ffdecoder.py:398-402 | `depth * res[0] * res[1]` under Python's `*`. It is an integer exactly when both items are integers. It is a non-integer value exactly for a float beside a number, or text or a list beside an integer. Any other pair is a `TypeError`, raised before the second item is indexed when the first cannot be multiplied. |
| FFdecoder.SizeFactorKinds | deffcode/ffdecoder.py:398-414 | `[640.0, 480.0]` and `["640", 480]` form sizes the read rejects. `["640", "480"]` is a `TypeError`. `[640, 480]` at depth 3 is 921600 samples. |
| FFdecoder.Arrange | deffcode/ffdecoder.py:428-458 | A sample count that does not fit the shape is a `ValueError`. A gray frame is every D-th sample. A planar frame is gathered from its planes. A packed frame flattens back to exactly its samples. |
| FFdecoder.ShapeFrame | deffcode/ffdecoder.py:421-460 | As intended the frame is arranged as gray, planar (`yuv…444p`) or packed by its format's name. A non-text format is an `AttributeError`. |
| FFdecoder.ShapeFrameAsWritten | deffcode/ffdecoder.py:439-449 | As written no format is ever arranged as planar. |
| FFdecoder.NeverPlanar | deffcode/ffdecoder.py:439-441 | No pixel-format name satisfies the written planar test. |
| FFdecoder.FrameSize | deffcode/ffdecoder.py:398-402 | A frame has components × width × height samples. |
| FFdecoder.FetchFrame | deffcode/ffdecoder.py:389-460 | Fetching before `formulate` is an `AssertionError`. A frame size that cannot be formed raises its own error, outside the `try`. A non-integer size fails the read inside it and becomes a `RuntimeError`. A frame consumes exactly one frame's bytes from the stream and is shaped by the corrected dispatch. A short read yields `None` and empties the stream. Nothing else in the decoder changes. |
| FFdecoder.FrameRoundTrip | deffcode/ffdecoder.py:398-458 | A packed frame re-encoded is exactly the bytes it was read from, followed by the rest of the stream. |
| FFdecoder.FrameLimit | deffcode/ffdecoder.py:467-475 | A missing or falsy count reads until the stream ends. An integer count is a `range`, and a truthy non-integer is a `TypeError`. |
| FFdecoder.Drain | deffcode/ffdecoder.py:462-480 | The generator yields at most the limit. A run that stops early without error has terminated the stream, and exhausted it unless it was already terminated. |
| FFdecoder.DrainBytes | deffcode/ffdecoder.py:398-419 | Every yielded frame took one frame's worth of bytes from the stream. |
| FFdecoder.GenerateFrames | deffcode/ffdecoder.py:462-480 | `generateFrame` is the drain over the pipeline's frame limit. A count that is not a range is a `TypeError` on the first pull. |
| FFdecoder.Terminate | deffcode/ffdecoder.py:556-572 | After `terminate` the stream is flagged. A running process is dropped and an exited one is kept. |
| FFdecoder.TerminateStops | deffcode/ffdecoder.py:467-480 | After `terminate` an unbounded generator yields nothing. A bounded one reads the closed pipeline and raises `AssertionError`. |
| FFdecoder.SetMetadata | deffcode/ffdecoder.py:504-515 | A non-empty dictionary updates the metadata, later entries winning. Anything else is a `ValueError`. |
| Frames.Decode | deffcode/ffdecoder.py:407-412 | Decoding bytes yields one sample per item size, each below the type's bound, in the stated byte order. |
| Frames.DecodeEncode | deffcode/ffdecoder.py:407-412 | Decoding the encoding of in-range samples gives the samples back. |
| Frames.EncodeDecode | deffcode/ffdecoder.py:407-412 | Encoding the samples decoded from whole bytes gives the bytes back. |
| Frames.FlattenReshape | deffcode/ffdecoder.py:452-458 | Flattening a reshaped frame gives its samples back. |
| Frames.ReshapeFlatten | deffcode/ffdecoder.py:452-458 | Reshaping a flattened array gives the array back. |
| Frames.FirstComponent | deffcode/ffdecoder.py:432-438 | Taking the first component fails exactly for a zero-depth array, and otherwise holds `t[h][w][0]` at every pixel. |
| Frames.Taken | deffcode/ffdecoder.py:408-410 | A read never returns more bytes than remain, and returns exactly the request when enough remain. |
| Frames.ReadFrame | deffcode/ffdecoder.py:398-419 | With a full frame available the samples are returned and the stream is their encoding plus the rest. Otherwise nothing is returned, and the stream is consumed or `frombuffer` fails on a partial item. |
| Scan.FindFirst | deffcode/ffhelper.py:324 | A search returns the leftmost match, with no match at any earlier position. |
| Scan.FindAll | deffcode/ffhelper.py:324 | `findall` returns non-overlapping matches in order, starting with the leftmost. |
| Findings.InputHasNoCount | deffcode/ffdecoder.py:244-289 | The input parameters `formulate` builds never hold `-frames:v`. |
| Findings.FrameNumIgnoresUser | deffcode/ffdecoder.py:285-289 | As written the generator's frame count never depends on the user's `-frames:v`. |
| Findings.FrameNumCounterexample | deffcode/ffdecoder.py:368-371 | For a 100-frame source read with `-frames:v 5`, the count is 100 as written and 5 as intended. |
| Findings.FrameNumHonoured | deffcode/ffdecoder.py:285-289 | As intended a positive user `-frames:v` is exactly the formulated pipeline's frame count. |
| Findings.LayoutCounterexample | deffcode/ffdecoder.py:334-342 | For `gray10le` falling back to `rgb24`, the depth is 1 as written and 3 as intended. |
| Findings.PlanarCounterexample | deffcode/ffdecoder.py:439-449 | A `yuv444p` frame is read as packed pixels as written and gathered from its planes as intended. |
| Findings.StrayFfmpegPath | deffcode/ffdecoder.py:132-141 | As written the reader always receives a stray `ffmpeg_path` FFmpeg parameter that survives its sanitising, and no custom FFmpeg path. |
| Findings.NoStrayParams | deffcode/ffdecoder.py:132-141 | As intended, with no options the reader gets the decoder's `custom_ffmpeg` and no FFmpeg parameters. |

## Left out

- Python's `\d`, `\w`, `str.isnumeric()` and `str.lower()` are Unicode-aware. `Scan`, `Text.IsNumeric` and `Text.Lower` use their ASCII subsets. `\s` and `strip()` do use Python's full whitespace set.
- Utils.ValidateDeviceIndex: the iff is stated against `IsNumeric`, which is ASCII digits only. Python's `isnumeric()` also accepts non-ASCII numerals such as `"½"`, which `int()` rejects, and `int()` accepts underscores such as `"1_0"`, which `isnumeric()` rejects. On those inputs Python and the model part ways.
- FFhelper.SplitExt: models POSIX `os.path.splitext` only. On Windows `ntpath` also treats `\` as a separator.
- `str()` and `repr()` of floats are approximated by `Py.FloatText`, exact for short terminating decimals. IEEE floats are modelled as `real`, so rounding is not modelled.
- Decoding FFmpeg's output as UTF-8 is left out. Text is given as already decoded, and decode errors are not modelled.
- FFhelper.ExtractDeviceNDemuxer: Linux device discovery through `v4l2-ctl` (ffhelper.py:423-491) is the parameter `linuxDevices`, because it runs another program and parses its output.
- `get_valid_ffmpeg_path`, `download_ffmpeg_binaries` and `validate_ffmpeg` (ffhelper.py:65-269) are outside the core. The executable they find is the parameter `ffmpeg`, and an empty one stands for failure.
- `Sourcer.enumerate_devices` (sourcer.py:409-427) only re-keys the device list that `ResolveAuto` returns, so it is not modelled separately.
- The JSON (`pretty_json`) forms of `retrieve_metadata` and of the `metadata` getter are left out. They format the same dictionaries.
- Logging, `verbose` messages and warnings have no effect on results and are left out.
- FFdecoder's sanitiser turns tuples and `None` into text, so a `-vcodec` of `None` from the public API arrives as `"None"`. `PickDecoder` still models the `None` branch (ffdecoder.py:248-253) for direct callers.
- `__enter__`/`__exit__` (ffdecoder.py:482-492) are left out: `__exit__` calls a `close()` the class does not define.
- The decoder's state after a failed `formulate` or a failed fetch is not modelled, because the error is returned instead of raised mid-update.
- `subprocess.Popen` failures when launching the pipeline are left out. The pipe's bytes are the parameter `stdout`.
- FFdecoder.GenerateFrames: the lazy generator is modelled as `wanted` pulls on it, not as an unbounded stream.
- FFdecoder.FrameDims: gives the dimensions for integer items only. For any other item it and `FFdecoder.FrameSize` report a `TypeError`, and they are used only where the items are integers. The error Python actually raises for such items (a `TypeError` from `*`, or a `RuntimeError` from the failed read) is stated by `FFdecoder.SizeFactor` and `FFdecoder.FetchFrame`.
- Sourcer.IntOfValue: text goes through `Text.PyInt`, which takes ASCII digits only. Python's `int()` also accepts underscore separators such as `"1_0"` and non-ASCII digits, which the model rejects with `ValueError`.
- FFdecoder.ProbeFor: builds the reader with the corrected call `FFdecoder.ReaderCallFor`, not `FFdecoder.ReaderCallAsWritten`, so the probe lacks the stray `ffmpeg_path ""` parameter that ffdecoder.py:133-137 always passes. The as-written call is stated in the findings.
- FFdecoder.NewDecoder: configures from `FFdecoder.ProbeFor`, so it inherits the corrected reader call.
- FFdecoder.FrameLayout: uses the corrected `FFdecoder.ChooseLayout`, so after a fallback the depth is the default format's own. ffdecoder.py:334-342 keeps the rejected format's depth, which `FFdecoder.LayoutAsWritten` models.
- FFdecoder.Plan: uses the corrected `FFdecoder.FrameNum` over the output parameters, so a user `-frames:v` bounds the frames. ffdecoder.py:368-373 reads the input parameters and ignores it, which `FFdecoder.FrameNumAsWritten` models.
- FFdecoder.Formulate: launches `FFdecoder.Plan`'s pipeline, so it inherits the corrected frame count and layout.
- FFdecoder.FetchFrame: shapes frames with the corrected `FFdecoder.ShapeFrame`, so `yuv…444p` frames are planar. ffdecoder.py:439-441 never takes the planar branch, which `FFdecoder.ShapeFrameAsWritten` models.
- Linux device entries are printed with `Sourcer.DeviceText` in the shape `str()` gives a one-entry dictionary.

## Findings

| source | as written | input that shows it | evidently intended | confidence | as-written member | corrected member |
|---|---|---|---|---|---|---|
| deffcode/ffdecoder.py:368-369 | The generator's frame count is read from `input_params["-frames:v"]`, but lines 285-288 only ever put the user's count in `output_params`. | A source of about 100 frames opened with `-frames:v 5`: `generateFrame` loops 100 times, so after FFmpeg stops at 5 the loop ends on a short read, not on the count. | Read the count from `output_params`, so the user's `-frames:v` bounds the generator. | not executed | FFdecoder.FrameNumAsWritten (Findings.FrameNumCounterexample, Findings.FrameNumIgnoresUser) | FFdecoder.FrameNum (Findings.FrameNumHonoured) |
| deffcode/ffdecoder.py:334-342 | When the chosen format's component size is unsupported, the pixel format falls back to the default, but `__raw_frame_depth` keeps the rejected format's component count. | `frame_format="gray10le"` (1 component, 10 bits) with `rgb24` available: frames of `rgb24` are read with depth 1, a third of each frame. | Take the fallback format's own component count from the table. | not executed | FFdecoder.LayoutAsWritten (Findings.LayoutCounterexample) | FFdecoder.ChooseLayout |
| deffcode/ffdecoder.py:439-441 | The planar branch requires the name to start with both `yuv` and `444p`, which no name can. | `yuv444p`: the planes are read as interleaved pixels. | `startswith("yuv") and endswith("444p")`. | not executed | FFdecoder.ShapeFrameAsWritten (Findings.PlanarCounterexample) | FFdecoder.ShapeFrame |
| deffcode/ffdecoder.py:132-141 | `Sourcer` is called with `ffmpeg_path=self.__ffmpeg`. That is not a `Sourcer` parameter, so it joins the FFmpeg parameters, and the decoder's `custom_ffmpeg` is never forwarded. | Any decoder with a `custom_ffmpeg`: the reader searches the default locations instead, and its probe gets a stray `ffmpeg_path ""` argument. | `custom_ffmpeg=custom_ffmpeg`, forwarding the constructor's own argument (`self.__ffmpeg` is still `""` at that point). | not executed | FFdecoder.ReaderCallAsWritten (Findings.StrayFfmpegPath) | FFdecoder.ReaderCallFor (Findings.NoStrayParams) |

=== FILE: extract.dfy ===
/**
  The probing extractors of the source reader: each one keeps the stripped
  lines of FFmpeg's diagnostic text that mention a stream kind, picks the
  requested stream (or the first one), and reads one field out of that line
  with a regular expression followed by string surgery.

  Every extractor is stated two ways: the string surgery `sourcer.py` performs
  on the matched text (`split`, slicing, `int()`, `float()`), and a direct
  reading of the same field from the positions the scanner found. The lemmas
  show the two agree, which also pins down exactly when the surgery fails.
 */
module Extract {
  import opened Results
  import opened Text
  import opened Scan

  const VideoIds: seq<string> := ["Video:", "Stream #"]
  const AudioIds: seq<string> := ["Audio:", "Stream #"]
  const DurationIds: seq<string> := ["Duration:"]

  // ---------------------------------------------------------------------------
  // Stream lines and stream selection

  /** The line mentions every one of the identifiers. */
  predicate HasAll(line: string, ids: seq<string>) {
    forall k :: 0 <= k < |ids| ==> Contains(line, ids[k])
  }

  /** The lines that mention every identifier, each stripped, in their original order. */
  function Matching(lines: seq<string>, ids: seq<string>): (r: seq<string>)
    ensures |r| <= |lines|
    ensures forall k :: 0 <= k < |r| ==> Strip(r[k]) == r[k]
    decreases |lines|
  {
    if |lines| == 0 then []
    else
      StripIdempotent(lines[0]);
      (if HasAll(lines[0], ids) then [Strip(lines[0])] else []) + Matching(lines[1..], ids)
  }

  /** The stripped lines of `text` that mention every identifier, in order. */
  function StreamLines(text: string, ids: seq<string>): seq<string> {
    Matching(Split(text, "\n"), ids)
  }

  /** A first line is kept, stripped, exactly when it mentions every identifier; the rest is read on its own. */
  lemma StreamLinesCons(line: string, rest: string, ids: seq<string>)
    requires '\n' !in line
    ensures StreamLines(line + "\n" + rest, ids)
         == (if HasAll(line, ids) then [Strip(line)] else []) + StreamLines(rest, ids)
  {
    SplitAtChar(line, '\n', rest);
    assert ([line] + Split(rest, "\n"))[1..] == Split(rest, "\n");
  }

  /** The requested stream position when it is a valid positive position, otherwise the first stream. */
  function SelectIndex(k: int, n: nat): (i: nat)
    requires n > 0
    ensures i < n
  {
    if 0 < k < n then k else 0
  }

  /** The selected stream line, stripped once more as every extractor does before searching it. */
  function SelectedStream(text: string, ids: seq<string>, k: int): (r: Option<string>)
    ensures r.Some? <==> |StreamLines(text, ids)| > 0
    ensures r.Some? ==> r.value in StreamLines(text, ids)
  {
    var lines := StreamLines(text, ids);
    if |lines| == 0 then None else Some(Strip(lines[SelectIndex(k, |lines|)]))
  }

  // ---------------------------------------------------------------------------
  // Bitrates

  /** A bitrate as reported: a decimal number without leading zeros, then `k` or `M`. */
  predicate IsBitrateText(t: string) {
    |t| >= 2 && (t[|t| - 1] == 'k' || t[|t| - 1] == 'M')
    && IsNumeral(t[..|t| - 1]) && (|t| > 2 ==> t[0] != '0')
  }

  /** The number of the listing and the first letter of its unit. */
  function BitrateOf(digits: string, unit: char): (t: string)
    requires IsNumeral(digits)
    ensures IsBitrateText(t)
  {
    var n := NatToString(DigitsValue(digits));
    var t := n + (if unit == 'k' then "k" else "M");
    assert t[..|t| - 1] == n;
    t
  }

  /**
    The bitrate text made from a match: the second and third space-separated
    pieces are the number and the unit; the number is printed back as an
    integer and the unit becomes `k` when its stripped piece starts with `k`,
    `M` otherwise. Too few pieces raise `IndexError`, a number piece that is
    not an integer raises `ValueError`.
   */
  function BitrateText(m: string): Result<string> {
    var x := PySlice(Split(m, " "), 1, 3);
    if |x| == 0 then Err(IndexError)
    else
      match PyInt(Strip(x[0]))
      case None => Err(ValueError)
      case Some(n) =>
        if |x| < 2 then Err(IndexError)
        else Ok(IntToString(n) + (if StartsWith(Strip(x[1]), "k") then "k" else "M"))
  }

  /** The four characters after a bitrate number and its whitespace: two word characters and `/s`. */
  predicate IsUnitTail(u: string) {
    |u| == 4 && IsWord(u[0]) && IsWord(u[1]) && u[2] == '/' && u[3] == 's'
  }

  /** A unit tail holds no whitespace, strips to itself and is not an integer. */
  lemma UnitTailWord(u: string)
    requires IsUnitTail(u)
    ensures ' ' !in u && Strip(u) == u && PyInt(u) == None
  {
    assert u == [u[0], u[1], '/', 's'];
    StripNoEdge(u);
  }

  /** A numeral holds no whitespace and strips to itself. */
  lemma NumeralWord(digits: string)
    requires IsNumeral(digits)
    ensures ' ' !in digits && Strip(digits) == digits
  {
    StripNoSpace(digits);
  }

  /**
    The bitrate read directly from its fields: the whitespace before the
    number, the number, the whitespace after it, and the unit tail.
    Only plain spaces on both sides give a value.
   */
  function BitrateReading(w1: char, digits: string, w2: char, u: string): (r: Result<string>)
    requires IsNumeral(digits) && IsUnitTail(u)
    ensures r.Ok? <==> w1 == ' ' && w2 == ' '
    ensures r.Ok? ==> IsBitrateText(r.value)
  {
    if w1 == ' ' && w2 == ' ' then Ok(BitrateOf(digits, u[0]))
    else if w1 != ' ' && w2 != ' ' then Err(IndexError)
    else Err(ValueError)
  }

  /** The string surgery on a bitrate match agrees with the direct reading. */
  lemma BitrateOfMatch(p: string, w1: char, digits: string, w2: char, u: string)
    requires ' ' !in p && IsNumeral(digits) && IsUnitTail(u)
    ensures BitrateText(p + ([w1] + (digits + ([w2] + u)))) == BitrateReading(w1, digits, w2, u)
  {
    if w1 == ' ' && w2 == ' ' {
      BitrateBothSpaces(p, digits, u);
    } else if w1 == ' ' {
      BitrateLateTab(p, digits, w2, u);
    } else if w2 == ' ' {
      BitrateEarlyTab(p, w1, digits, u);
    } else {
      UnitTailWord(u);
      NumeralWord(digits);
      SplitNoChar(p + ([w1] + (digits + ([w2] + u))), ' ');
    }
  }

  lemma BitrateBothSpaces(p: string, digits: string, u: string)
    requires ' ' !in p && IsNumeral(digits) && IsUnitTail(u)
    ensures BitrateText(p + ([' '] + (digits + ([' '] + u)))) == Ok(BitrateOf(digits, u[0]))
  {
    UnitTailWord(u);
    NumeralWord(digits);
    SplitAtCharR(p, ' ', digits + ([' '] + u));
    SplitAtCharR(digits, ' ', u);
    SplitNoChar(u, ' ');
    var parts := Split(p + ([' '] + (digits + ([' '] + u))), " ");
    assert parts == [p, digits, u];
    assert PySlice(parts, 1, 3) == [digits, u];
    assert PyInt(digits) == Some(DigitsValue(digits));
    assert StartsWith(u, "k") <==> u[0] == 'k' by {
      assert u[..1] == [u[0]];
    }
  }

  lemma BitrateLateTab(p: string, digits: string, w2: char, u: string)
    requires ' ' !in p && w2 != ' ' && IsNumeral(digits) && IsUnitTail(u)
    ensures BitrateText(p + ([' '] + (digits + ([w2] + u)))) == Err(ValueError)
  {
    UnitTailWord(u);
    NumeralWord(digits);
    var rest := digits + ([w2] + u);
    assert ' ' !in rest;
    SplitAtCharR(p, ' ', rest);
    SplitNoChar(rest, ' ');
    assert PySlice(Split(p + ([' '] + rest), " "), 1, 3) == [rest];
    assert rest[0] == digits[0] && rest[|rest| - 1] == 's' && rest[|rest| - 2] == '/';
    PyIntSlash(rest);
  }

  lemma BitrateEarlyTab(p: string, w1: char, digits: string, u: string)
    requires ' ' !in p && w1 != ' ' && IsNumeral(digits) && IsUnitTail(u)
    ensures BitrateText(p + ([w1] + (digits + ([' '] + u)))) == Err(ValueError)
  {
    UnitTailWord(u);
    NumeralWord(digits);
    var head := p + [w1] + digits;
    assert p + ([w1] + (digits + ([' '] + u))) == head + ([' '] + u);
    assert ' ' !in head;
    SplitAtCharR(head, ' ', u);
    SplitNoChar(u, ' ');
    assert PySlice(Split(head + ([' '] + u), " "), 1, 3) == [u];
  }

  /** A word ending in `/` and one more letter is not an integer, stripped or not. */
  lemma PyIntSlash(t: string)
    requires |t| >= 2 && t[|t| - 2] == '/' && t[|t| - 1] == 's'
    requires IsDigit(t[0]) || IsWord(t[0])
    ensures PyInt(Strip(t)) == None
  {
    StripNoEdge(t);
    StripNoEdge(Strip(t));
  }

  /** A bitrate tail at `j`: whitespace, digits up to `d`, whitespace, then a unit tail. */
  lemma BitrateTailShape(s: string, j: nat, d: nat, e: nat)
    requires j <= |s| && BitrateTail(s, j) == Some(e) && d == RunEnd(s, j + 1, Digit)
    ensures j + 1 < d && e == d + 5 && e <= |s|
    ensures IsNumeral(s[j + 1..d]) && IsUnitTail(s[d + 1..e])
  {
    forall k | j + 1 <= k < d
      ensures IsDigit(s[k])
    {
      assert InClass(s[k], Digit);
    }
    NumeralSlice(s, j + 1, d);
    assert s[d + 1..e][3] == 's';
  }

  /** A slice cut after a prefix ending at `j`, then at `j + 1`, `d` and `d + 1`, grouped to the right. */
  lemma TailConcat(s: string, st: nat, j: nat, d: nat, e: nat)
    requires st <= j < d < e <= |s|
    ensures s[st..e] == s[st..j] + ([s[j]] + (s[j + 1..d] + ([s[d]] + s[d + 1..e])))
  {
    SliceConcat(s, st, j, e);
    SliceCons(s, j, e);
    SliceConcat(s, j + 1, d, e);
    SliceCons(s, d, e);
  }

  /** The direct reading of the bitrate tail that starts with the whitespace at `j`; `""` when there is none. */
  function TailReading(s: string, j: nat): (r: Result<string>)
    ensures r.Ok? && r.value != "" ==> IsBitrateText(r.value)
  {
    if j > |s| then Ok("")
    else match BitrateTail(s, j)
      case None => Ok("")
      case Some(e) =>
        var d := RunEnd(s, j + 1, Digit);
        BitrateTailShape(s, j, d, e);
        BitrateReading(s[j], s[j + 1..d], s[d], s[d + 1..e])
  }

  /** A bitrate tail at `j` after text without spaces: the string surgery agrees with the direct reading. */
  lemma PrefixedTail(s: string, st: nat, j: nat, e: nat)
    requires st <= j <= |s| && BitrateTail(s, j) == Some(e) && ' ' !in s[st..j]
    ensures BitrateText(s[st..e]) == TailReading(s, j)
  {
    var d := RunEnd(s, j + 1, Digit);
    BitrateTailShape(s, j, d, e);
    TailConcat(s, st, j, d, e);
    BitrateOfMatch(s[st..j], s[j], s[j + 1..d], s[d], s[d + 1..e]);
  }

  /** A video bitrate match is a comma followed by a bitrate tail. */
  lemma VideoBitrateAt(s: string, st: nat, e: nat)
    requires st <= |s| && MatchAt(VideoBitrate, s, st) == Some(e)
    ensures st < |s| && s[st..st + 1] == "," && BitrateTail(s, st + 1) == Some(e)
  {
  }

  /** An audio bitrate match is `fltp,` followed by a bitrate tail. */
  lemma AudioBitrateAt(s: string, st: nat, e: nat)
    requires st <= |s| && MatchAt(AudioBitrate, s, st) == Some(e)
    ensures st + 5 <= |s| && s[st..st + 5] == "fltp," && BitrateTail(s, st + 5) == Some(e)
  {
  }

  /** A video bitrate match at `st`: the string surgery agrees with the direct reading. */
  lemma VideoBitrateMatch(s: string, st: nat, e: nat)
    requires st <= |s| && MatchAt(VideoBitrate, s, st) == Some(e)
    ensures st < |s| && BitrateTail(s, st + 1).Some?
    ensures BitrateText(s[st..e]) == TailReading(s, st + 1)
  {
    VideoBitrateAt(s, st, e);
    PrefixedTail(s, st, st + 1, e);
  }

  /** An audio bitrate match at `st`: the string surgery agrees with the direct reading. */
  lemma AudioBitrateMatch(s: string, st: nat, e: nat)
    requires st <= |s| && MatchAt(AudioBitrate, s, st) == Some(e)
    ensures st + 5 <= |s| && BitrateTail(s, st + 5).Some?
    ensures BitrateText(s[st..e]) == TailReading(s, st + 5)
  {
    AudioBitrateAt(s, st, e);
    PrefixedTail(s, st, st + 5, e);
  }

  /** The video bitrate of one stream line: the first match's reading, or `""` without a match. */
  function VideoBitrateIn(sel: string): (r: Result<string>)
    ensures FindFirst(VideoBitrate, sel, 0).None? ==> r == Ok("")
    ensures r.Ok? && r.value != "" ==> IsBitrateText(r.value)
  {
    match FindFirst(VideoBitrate, sel, 0)
    case None => Ok("")
    case Some(m) =>
      VideoBitrateMatch(sel, m.start, m.end);
      BitrateText(sel[m.start..m.end])
  }

  /** With a first video bitrate match, the string surgery gives the direct reading of its tail. */
  lemma VideoBitrateFirst(sel: string, m: Span)
    requires FindFirst(VideoBitrate, sel, 0) == Some(m)
    ensures VideoBitrateIn(sel) == TailReading(sel, m.start + 1)
  {
    VideoBitrateMatch(sel, m.start, m.end);
  }

  /**
    `__extract_video_bitrate`: `""` when no video stream line or no bitrate is
    found, otherwise the number and the first letter of its unit.
   */
  function ExtractVideoBitrate(text: string, k: int): (r: Result<string>)
    ensures SelectedStream(text, VideoIds, k).None? ==> r == Ok("")
    ensures SelectedStream(text, VideoIds, k).Some? && FindFirst(VideoBitrate, SelectedStream(text, VideoIds, k).value, 0).None?
      ==> r == Ok("")
    ensures r.Ok? && r.value != "" ==> IsBitrateText(r.value)
    ensures SelectedStream(text, VideoIds, k).Some? && FindFirst(VideoBitrate, SelectedStream(text, VideoIds, k).value, 0).Some? ==>
      r == TailReading(SelectedStream(text, VideoIds, k).value,
                       FindFirst(VideoBitrate, SelectedStream(text, VideoIds, k).value, 0).value.start + 1)
  {
    match SelectedStream(text, VideoIds, k)
    case None => Ok("")
    case Some(sel) =>
      match FindFirst(VideoBitrate, sel, 0)
      case None => VideoBitrateIn(sel)
      case Some(m) =>
        VideoBitrateFirst(sel, m);
        VideoBitrateIn(sel)
  }

  // ---------------------------------------------------------------------------
  // Audio bitrate and sample rate

  /** The second piece of the match when split at comma-space; `IndexError` when there is none. */
  function SampleRateText(m: string): Result<string> {
    var parts := Split(m, ", ");
    if |parts| < 2 then Err(IndexError) else Ok(parts[1])
  }

  /** A sample-rate match at `st`: a comma, whitespace, digits up to `d`, whitespace, `Hz`. */
  lemma SampleRateShape(s: string, st: nat, d: nat, e: nat)
    requires st <= |s| && SampleRateAt(s, st) == Some(e) && st + 2 <= |s| && d == RunEnd(s, st + 2, Digit)
    ensures st + 2 < d && e == d + 3 && e <= |s|
    ensures s[st] == ',' && IsSpace(s[st + 1]) && IsSpace(s[d]) && s[d + 1] == 'H' && s[d + 2] == 'z'
    ensures forall k :: st + 2 <= k < d ==> IsDigit(s[k])
  {
    forall k | st + 2 <= k < d
      ensures IsDigit(s[k])
    {
      assert InClass(s[k], Digit);
    }
  }

  /** The sample rate read directly: the digits, the whitespace and `Hz` after a comma and a plain space. */
  function SampleRateReading(s: string, st: nat, e: nat): (r: Result<string>)
    requires st <= e <= |s| && SampleRateAt(s, st) == Some(e)
    ensures r.Ok? <==> s[st + 1] == ' '
    ensures r.Ok? ==> |r.value| >= 4 && IsDigit(r.value[0]) && EndsWith(r.value, "Hz")
  {
    SampleRateShape(s, st, RunEnd(s, st + 2, Digit), e);
    if s[st + 1] == ' ' then
      assert s[st + 2..e][0] == s[st + 2];
      assert s[st + 2..e][e - st - 4..] == s[e - 2..e];
      Ok(s[st + 2..e])
    else Err(IndexError)
  }

  /** Text that starts with a comma and holds no other splits at `", "` only when a space follows that comma. */
  lemma SplitLeadingComma(m: string)
    requires |m| >= 2 && m[0] == ',' && ',' !in m[1..]
    ensures m[1] == ' ' ==> Split(m, ", ") == ["", m[2..]]
    ensures m[1] != ' ' ==> Split(m, ", ") == [m]
  {
    assert ',' !in m[2..] by {
      forall k | 0 <= k < |m| - 2
        ensures m[2..][k] != ','
      {
        assert m[2..][k] == m[1..][k + 1];
      }
    }
    NotContainsHead(m[2..], ", ");
    if m[1] == ' ' {
      assert m[0..2] == ", ";
      SplitAtStart(m, ", ");
      SplitWithout(m[2..], ", ");
    } else {
      forall j | 0 <= j
        ensures !OccursAt(m, ", ", j)
      {
        if 0 < j && j + 2 <= |m| {
          assert m[j..j + 2][0] == m[1..][j - 1];
        }
      }
      ContainsIff(m, ", ");
      SplitWithout(m, ", ");
    }
  }

  /** After its comma, a sample-rate match holds no other comma. */
  lemma SampleRateOneComma(s: string, st: nat, e: nat)
    requires st <= |s| && SampleRateAt(s, st) == Some(e)
    ensures st + 2 <= e && s[st] == ',' && ',' !in s[st + 1..e]
  {
    var d := RunEnd(s, st + 2, Digit);
    SampleRateShape(s, st, d, e);
    forall k | st + 1 <= k < e
      ensures s[k] != ','
    {
      if st + 1 < k < d {
        assert IsDigit(s[k]);
      }
    }
    NoCharSlice(s, st + 1, e, ',');
  }

  /** A sample-rate match at `st`: splitting at comma-space agrees with the direct reading. */
  lemma SampleRateMatch(s: string, st: nat, e: nat)
    requires st <= e <= |s| && SampleRateAt(s, st) == Some(e)
    ensures SampleRateText(s[st..e]) == SampleRateReading(s, st, e)
  {
    SampleRateOneComma(s, st, e);
    var m := s[st..e];
    assert m[0] == s[st] && m[1] == s[st + 1] && m[1..] == s[st + 1..e] && m[2..] == s[st + 2..e];
    SplitLeadingComma(m);
  }

  /** The audio parameters of one stream line; either may be `""` when not found. */
  datatype AudioParams = AudioParams(bitrate: string, samplerate: string)

  /** The audio bitrate of one stream line: the first match's reading, or `""` without a match. */
  function AudioBitrateIn(sel: string): (r: Result<string>)
    ensures FindFirst(AudioBitrate, sel, 0).None? ==> r == Ok("")
    ensures r.Ok? && r.value != "" ==> IsBitrateText(r.value)
  {
    match FindFirst(AudioBitrate, sel, 0)
    case None => Ok("")
    case Some(m) =>
      AudioBitrateMatch(sel, m.start, m.end);
      BitrateText(sel[m.start..m.end])
  }

  /** With a first audio bitrate match, the string surgery gives the direct reading of its tail. */
  lemma AudioBitrateFirst(sel: string, m: Span)
    requires FindFirst(AudioBitrate, sel, 0) == Some(m)
    ensures AudioBitrateIn(sel) == TailReading(sel, m.start + 5)
  {
    AudioBitrateMatch(sel, m.start, m.end);
  }

  /** The sample rate of one stream line: the first match's reading, or `""` without a match. */
  function SampleRateIn(sel: string): (r: Result<string>)
    ensures FindFirst(SampleRate, sel, 0).None? ==> r == Ok("")
    ensures FindFirst(SampleRate, sel, 0).Some? ==>
      r == SampleRateReading(sel, FindFirst(SampleRate, sel, 0).value.start, FindFirst(SampleRate, sel, 0).value.end)
  {
    match FindFirst(SampleRate, sel, 0)
    case None => Ok("")
    case Some(m) =>
      assert MatchAt(SampleRate, sel, m.start) == Some(m.end);
      SampleRateMatch(sel, m.start, m.end);
      SampleRateText(sel[m.start..m.end])
  }

  /** Both audio parameters of one stream line; a bitrate that cannot be read raises first. */
  function AudioIn(sel: string): (r: Result<AudioParams>)
    ensures r.Ok? <==> AudioBitrateIn(sel).Ok? && SampleRateIn(sel).Ok?
    ensures AudioBitrateIn(sel).Err? ==> r == Err(AudioBitrateIn(sel).error)
    ensures r.Ok? ==> r.value == AudioParams(AudioBitrateIn(sel).value, SampleRateIn(sel).value)
  {
    var bitrate :- AudioBitrateIn(sel);
    var samplerate :- SampleRateIn(sel);
    Ok(AudioParams(bitrate, samplerate))
  }

  /**
    `__extract_audio_bitrate_nd_samplerate`: no parameters when there is no
    audio stream line, otherwise both (each possibly `""`). A bitrate that
    cannot be read raises before the sample rate is looked at.
   */
  function ExtractAudio(text: string, k: int): (r: Result<Option<AudioParams>>)
    ensures r == Ok(None) <==> SelectedStream(text, AudioIds, k).None?
    ensures r.Ok? && r.value.Some? ==> IsBitrateText(r.value.value.bitrate) || r.value.value.bitrate == ""
    ensures SelectedStream(text, AudioIds, k).Some? ==>
      var a := AudioIn(SelectedStream(text, AudioIds, k).value);
      && (a.Ok? ==> r == Ok(Some(a.value)))
      && (a.Err? ==> r == Err(a.error))
  {
    match SelectedStream(text, AudioIds, k)
    case None => Ok(None)
    case Some(sel) =>
      var a :- AudioIn(sel);
      Ok(Some(a))
  }

  // ---------------------------------------------------------------------------
  // Decoder and pixel format

  /** A codec match at `st` (`Video:`, one whitespace, a name): the name after a plain space, or the whole match. */
  function CodecReading(s: string, st: nat, e: nat): string
    requires st <= e <= |s| && MatchAt(VideoCodec, s, st) == Some(e)
  {
    if s[st + 6] == ' ' then s[st + 7..e] else s[st..e]
  }

  /** The last space-separated piece of a codec match agrees with the direct reading, and holds no space. */
  lemma CodecMatch(s: string, st: nat, e: nat)
    requires st <= e <= |s| && MatchAt(VideoCodec, s, st) == Some(e)
    ensures Last(Split(s[st..e], " ")) == CodecReading(s, st, e)
    ensures ' ' !in CodecReading(s, st, e)
  {
    NameRunNoSpace(s, st + 7, e);
    assert s[st..st + 6] == "Video:";
    assert s[st..e] == s[st..st + 6] + [s[st + 6]] + s[st + 7..e];
    LastWord(s[st..st + 6], s[st + 6], s[st + 7..e]);
  }

  /** A pixel-format match at `st` (a comma, one whitespace, a name): the name after a plain space, or the whole match. */
  function PixfmtReading(s: string, st: nat, e: nat): string
    requires st <= e <= |s| && MatchAt(PixelFormat, s, st) == Some(e)
  {
    if s[st + 1] == ' ' then s[st + 2..e] else s[st..e]
  }

  lemma PixfmtMatch(s: string, st: nat, e: nat)
    requires st <= e <= |s| && MatchAt(PixelFormat, s, st) == Some(e)
    ensures Last(Split(s[st..e], " ")) == PixfmtReading(s, st, e)
    ensures ' ' !in PixfmtReading(s, st, e)
  {
    NameRunNoSpace(s, st + 3, e);
    assert s[st + 2..e] == [s[st + 2]] + s[st + 3..e];
    assert s[st..e] == [','] + [s[st + 1]] + s[st + 2..e];
    LastWord([','], s[st + 1], s[st + 2..e]);
  }

  /** A `[a-z0-9_-]*` run holds no space. */
  lemma NameRunNoSpace(s: string, i: nat, e: nat)
    requires i <= |s| && RunEnd(s, i, Name) == e
    ensures ' ' !in s[i..e]
  {
    forall k | i <= k < e
      ensures s[k] != ' '
    {
      assert InClass(s[k], Name);
    }
    NoCharSlice(s, i, e, ' ');
  }

  /** The decoder name of one stream line, or `""`. */
  function DecoderIn(sel: string): (name: string)
    ensures ' ' !in name
    ensures FindFirst(VideoCodec, sel, 0).None? ==> name == ""
    ensures FindFirst(VideoCodec, sel, 0).Some? ==>
      name == CodecReading(sel, FindFirst(VideoCodec, sel, 0).value.start, FindFirst(VideoCodec, sel, 0).value.end)
  {
    match FindFirst(VideoCodec, sel, 0)
    case None => ""
    case Some(m) =>
      CodecMatch(sel, m.start, m.end);
      Last(Split(sel[m.start..m.end], " "))
  }

  /** `__extract_video_decoder`: the codec name of the selected video stream, or `""`. */
  function ExtractVideoDecoder(text: string, k: int): (name: string)
    ensures ' ' !in name
    ensures SelectedStream(text, VideoIds, k).None? ==> name == ""
    ensures SelectedStream(text, VideoIds, k).Some? && FindFirst(VideoCodec, SelectedStream(text, VideoIds, k).value, 0).None?
      ==> name == ""
    ensures SelectedStream(text, VideoIds, k).Some? && FindFirst(VideoCodec, SelectedStream(text, VideoIds, k).value, 0).Some? ==>
      var sel := SelectedStream(text, VideoIds, k).value;
      var m := FindFirst(VideoCodec, sel, 0).value;
      name == CodecReading(sel, m.start, m.end)
  {
    match SelectedStream(text, VideoIds, k)
    case None => ""
    case Some(sel) => DecoderIn(sel)
  }

  /** The pixel format of one stream line, or `""`. */
  function PixfmtIn(sel: string): (name: string)
    ensures ' ' !in name
    ensures FindFirst(PixelFormat, sel, 0).None? ==> name == ""
    ensures FindFirst(PixelFormat, sel, 0).Some? ==>
      name == PixfmtReading(sel, FindFirst(PixelFormat, sel, 0).value.start, FindFirst(PixelFormat, sel, 0).value.end)
  {
    match FindFirst(PixelFormat, sel, 0)
    case None => ""
    case Some(m) =>
      PixfmtMatch(sel, m.start, m.end);
      Last(Split(sel[m.start..m.end], " "))
  }

  /** `__extract_video_pixfmt`, on the input or the output part of the metadata. */
  function ExtractVideoPixfmt(text: string, k: int): (name: string)
    ensures ' ' !in name
    ensures SelectedStream(text, VideoIds, k).None? ==> name == ""
    ensures SelectedStream(text, VideoIds, k).Some? && FindFirst(PixelFormat, SelectedStream(text, VideoIds, k).value, 0).None?
      ==> name == ""
    ensures SelectedStream(text, VideoIds, k).Some? && FindFirst(PixelFormat, SelectedStream(text, VideoIds, k).value, 0).Some? ==>
      var sel := SelectedStream(text, VideoIds, k).value;
      var m := FindFirst(PixelFormat, sel, 0).value;
      name == PixfmtReading(sel, m.start, m.end)
  {
    match SelectedStream(text, VideoIds, k)
    case None => ""
    case Some(sel) => PixfmtIn(sel)
  }

  // ---------------------------------------------------------------------------
  // Resolution and frame rate

  /** A numeral whose first digit is not zero is at least ten to the power of its length less one. */
  lemma {:induction false} DigitsValueLower(s: string)
    requires IsNumeral(s) && s[0] != '0'
    ensures DigitsValue(s) >= Pow10(|s| - 1)
    decreases |s|
  {
    if |s| > 1 {
      var h := s[..|s| - 1];
      assert h[0] == s[0];
      DigitsValueLower(h);
    }
  }

  /** A numeral without a leading zero is how `str()` prints its own value. */
  lemma {:induction false} NumeralPrinted(s: string)
    requires IsNumeral(s) && s[0] != '0'
    ensures NatToString(DigitsValue(s)) == s
    decreases |s|
  {
    if |s| > 1 {
      var h := s[..|s| - 1];
      assert h[0] == s[0];
      NumeralPrinted(h);
      DigitsValueLower(h);
      var n := DigitsValue(s);
      assert n == DigitsValue(h) * 10 + DigitValue(s[|s| - 1]);
      assert n / 10 == DigitsValue(h) && n % 10 == DigitValue(s[|s| - 1]);
      assert s == h + [s[|s| - 1]];
    }
  }

  /**
    The width and height of the first `WIDTHxHEIGHT` group on the line, each
    at least two digits without a leading zero: the group is exactly the two
    numbers printed around an `x`.
   */
  function ResolutionIn(sel: string): (r: Option<(nat, nat)>)
    ensures r.Some? <==> FindFirst(Resolution, sel, 0).Some?
    ensures r.Some? ==> r.value.0 >= 10 && r.value.1 >= 10
    ensures r.Some? ==>
      var m := FindFirst(Resolution, sel, 0).value;
      sel[m.start..m.end] == NatToString(r.value.0) + "x" + NatToString(r.value.1)
  {
    match FindFirst(Resolution, sel, 0)
    case None => None
    case Some(m) =>
      var a := RunEnd(sel, m.start + 1, Digit);
      ResolutionGroups(sel, m.start, a, m.end);
      ResolutionPrinted(sel, m.start, a, m.end);
      Some((DigitsValue(sel[m.start..a]), DigitsValue(sel[a + 1..m.end])))
  }

  /** A resolution match reads back as its two printed numbers around the `x`. */
  lemma ResolutionPrinted(s: string, st: nat, a: nat, e: nat)
    requires st <= |s| && ResolutionAt(s, st) == Some(e) && a == RunEnd(s, st + 1, Digit)
    ensures st + 2 <= a && a + 3 <= e <= |s|
    ensures s[st..e] == NatToString(DigitsValue(s[st..a])) + "x" + NatToString(DigitsValue(s[a + 1..e]))
  {
    ResolutionGroups(s, st, a, e);
    assert s[st..a][0] == s[st] && s[a + 1..e][0] == s[a + 1];
    NumeralPrinted(s[st..a]);
    NumeralPrinted(s[a + 1..e]);
    assert s[st..e] == s[st..a] + [s[a]] + s[a + 1..e];
  }

  /** The two groups of a resolution match are numerals of two or more digits, the first not zero. */
  lemma ResolutionGroups(s: string, st: nat, a: nat, e: nat)
    requires st <= |s| && ResolutionAt(s, st) == Some(e) && a == RunEnd(s, st + 1, Digit)
    ensures st + 2 <= a && a + 3 <= e <= |s| && s[a] == 'x'
    ensures IsNumeral(s[st..a]) && IsNumeral(s[a + 1..e])
    ensures DigitsValue(s[st..a]) >= 10 && DigitsValue(s[a + 1..e]) >= 10
  {
    assert s[st..a][0] == s[st] && s[a + 1..e][0] == s[a + 1];
    DigitsValueLower(s[st..a]);
    DigitsValueLower(s[a + 1..e]);
    assert Pow10(1) == 10;
    Pow10Grows(|s[st..a]| - 1);
    Pow10Grows(|s[a + 1..e]| - 1);
  }

  lemma {:induction false} Pow10Grows(n: nat)
    requires n >= 1
    ensures Pow10(n) >= 10
  {
    if n > 1 {
      Pow10Grows(n - 1);
    }
  }

  /** The first run of digits and points in the match; a match that starts with a digit begins with that run. */
  function RateText(m: string): string {
    m[..RunEnd(m, 0, DigitDot)]
  }

  /** The rate read directly: the digits before the unit, with the optional fraction. */
  function RateReading(s: string, st: nat): (v: real)
    requires st <= |s|
    ensures v >= 0.0
  {
    var a := RunEnd(s, st, Digit);
    var f := FractionEnd(s, a);
    DecimalValue(s[st..a], if f > a then s[a + 1..f] else "")
  }

  /** A rate match at `st`: digits up to `a`, an optional fraction up to `f`, whitespace at `f`. */
  lemma RateShape(unit: string, s: string, st: nat, a: nat, f: nat, e: nat)
    requires st <= |s| && RateAt(unit, s, st) == Some(e)
    requires a == RunEnd(s, st, Digit) && f == FractionEnd(s, a)
    ensures st < a <= f < e <= |s| && IsSpace(s[f]) && !InClass(s[f], DigitDot)
    ensures forall k :: st <= k < a ==> IsDigit(s[k])
    ensures f > a ==> f > a + 1 && s[a] == '.' && forall k :: a < k < f ==> IsDigit(s[k])
  {
    forall k | st <= k < a
      ensures IsDigit(s[k])
    {
      assert InClass(s[k], Digit);
    }
    if f > a {
      assert InClass(s[a + 1], Digit);
      forall k | a < k < f
        ensures IsDigit(s[k])
      {
        assert InClass(s[k], Digit);
      }
    }
  }

  /** The numeric prefix the rate pattern's `findall` keeps is everything before the whitespace. */
  lemma RateTextAt(s: string, st: nat, a: nat, f: nat, e: nat)
    requires st < a <= f < e <= |s| && !InClass(s[f], DigitDot)
    requires forall k :: st <= k < a ==> IsDigit(s[k])
    requires f > a ==> s[a] == '.' && forall k :: a < k < f ==> IsDigit(s[k])
    ensures RateText(s[st..e]) == s[st..f]
  {
    var m := s[st..e];
    forall k | 0 <= k < f - st
      ensures InClass(m[k], DigitDot)
    {
      assert m[k] == s[st + k];
      if st + k != a {
        assert IsDigit(s[st + k]);
      }
    }
    assert m[f - st] == s[f];
    RunEndIs(m, 0, f - st, DigitDot);
  }

  /** `float()` of the numeric prefix kept from digits up to `a` and a fraction up to `f`. */
  lemma RateFloat(s: string, st: nat, a: nat, f: nat, e: nat)
    requires st < a <= f < e <= |s| && !InClass(s[f], DigitDot)
    requires forall k :: st <= k < a ==> IsDigit(s[k])
    requires f > a ==> f > a + 1 && s[a] == '.' && forall k :: a < k < f ==> IsDigit(s[k])
    ensures PyFloat(RateText(s[st..e])) == Some(DecimalValue(s[st..a], if f > a then s[a + 1..f] else ""))
  {
    RateTextAt(s, st, a, f, e);
    PyFloatSlice(s, st, a, f);
  }

  /** `float()` of the numeric prefix of a rate match is the direct reading. */
  lemma RateMatch(unit: string, s: string, st: nat, e: nat)
    requires st <= |s| && RateAt(unit, s, st) == Some(e)
    ensures PyFloat(RateText(s[st..e])) == Some(RateReading(s, st))
  {
    var a := RunEnd(s, st, Digit);
    var f := FractionEnd(s, a);
    RateShape(unit, s, st, a, f, e);
    RateFloat(s, st, a, f, e);
    RateReadingIs(PyFloat(RateText(s[st..e])), s, st, a, f);
  }

  lemma RateReadingIs(v: Option<real>, s: string, st: nat, a: nat, f: nat)
    requires st <= a <= f <= |s| && a == RunEnd(s, st, Digit) && f == FractionEnd(s, a)
    requires v == Some(DecimalValue(s[st..a], if f > a then s[a + 1..f] else ""))
    ensures v == Some(RateReading(s, st))
  {
  }

  /** The frame rate of one stream line: from `fps` when present, otherwise from `tbr`. */
  function FramerateIn(sel: string): (r: Option<real>)
    ensures r.Some? ==> r.value >= 0.0
    ensures FindFirst(Rate("fps"), sel, 0).Some? ==>
      r == Some(RateReading(sel, FindFirst(Rate("fps"), sel, 0).value.start))
    ensures FindFirst(Rate("fps"), sel, 0).None? && FindFirst(Rate("tbr"), sel, 0).Some? ==>
      r == Some(RateReading(sel, FindFirst(Rate("tbr"), sel, 0).value.start))
    ensures r.None? <==> FindFirst(Rate("fps"), sel, 0).None? && FindFirst(Rate("tbr"), sel, 0).None?
  {
    match FindFirst(Rate("fps"), sel, 0)
    case Some(m) =>
      RateMatch("fps", sel, m.start, m.end);
      PyFloat(RateText(sel[m.start..m.end]))
    case None =>
      match FindFirst(Rate("tbr"), sel, 0)
      case Some(m) =>
        RateMatch("tbr", sel, m.start, m.end);
        PyFloat(RateText(sel[m.start..m.end]))
      case None => None
  }

  /** Frame size and frame rate of a video stream. */
  datatype Geometry = Geometry(width: nat, height: nat, framerate: real)

  /**
    `__extract_resolution_framerate`: both the resolution and a frame rate, or
    nothing at all when either is missing.
   */
  function ExtractResolutionFramerate(text: string, k: int): (r: Option<Geometry>)
    ensures r.Some? ==> r.value.width >= 10 && r.value.height >= 10 && r.value.framerate >= 0.0
    ensures r.Some? <==> (SelectedStream(text, VideoIds, k).Some?
      && ResolutionIn(SelectedStream(text, VideoIds, k).value).Some?
      && FramerateIn(SelectedStream(text, VideoIds, k).value).Some?)
    ensures r.Some? ==>
      var sel := SelectedStream(text, VideoIds, k).value;
      r.value == Geometry(ResolutionIn(sel).value.0, ResolutionIn(sel).value.1, FramerateIn(sel).value)
  {
    match SelectedStream(text, VideoIds, k)
    case None => None
    case Some(sel) =>
      var res := ResolutionIn(sel);
      var fr := FramerateIn(sel);
      if res.Some? && fr.Some? then Some(Geometry(res.value.0, res.value.1, fr.value)) else None
  }

  // ---------------------------------------------------------------------------
  // Duration

  function Reversed<T>(xs: seq<T>): (r: seq<T>)
    ensures |r| == |xs|
    decreases |xs|
  {
    if |xs| == 0 then [] else [xs[|xs| - 1]] + Reversed(xs[..|xs| - 1])
  }

  /** `v` times sixty to the power `i`. */
  function Scale60(v: real, i: nat): real
  {
    if i == 0 then v else 60.0 * Scale60(v, i - 1)
  }

  /** Applies `f` to every element, in order. */
  function MapSeq<A, B>(f: A -> B, xs: seq<A>): (r: seq<B>)
    ensures |r| == |xs| && forall k :: 0 <= k < |xs| ==> r[k] == f(xs[k])
  {
    seq(|xs|, k requires 0 <= k < |xs| => f(xs[k]))
  }

  lemma Map3<A, B>(f: A -> B, a: A, b: A, c: A)
    ensures MapSeq(f, [a, b, c]) == [f(a), f(b), f(c)]
  {
  }

  /** The sum of the values, the one at position `p` weighted by sixty to the power `i + p`; `None` when some value could not be read. */
  function WeightedSum(vs: seq<Option<real>>, i: nat): Option<real>
    decreases |vs|
  {
    if |vs| == 0 then Some(0.0)
    else
      match (vs[0], WeightedSum(vs[1..], i + 1))
      case (Some(a), Some(b)) => Some(Scale60(a, i) + b)
      case _ => None
  }

  /** A clock reading `HH:MM:SS[.f]`. */
  datatype Clock = Clock(hours: nat, minutes: nat, seconds: real)

  /** The clock read directly from a duration match at `st`. */
  function ClockAt(s: string, st: nat): (c: Clock)
    requires st <= |s| && DurationAt(s, st).Some?
    ensures c.hours < 24 && c.minutes < 60 && c.seconds >= 0.0
  {
    var a := RunEnd(s, st + 7, Digit);
    var f := FractionEnd(s, a);
    TwoDigits(s[st..st + 2]);
    TwoDigits(s[st + 3..st + 5]);
    Clock(DigitsValue(s[st..st + 2]), DigitsValue(s[st + 3..st + 5]),
          DecimalValue(s[st + 6..a], if f > a then s[a + 1..f] else ""))
  }

  lemma TwoDigits(t: string)
    requires |t| == 2 && IsDigit(t[0]) && IsDigit(t[1])
    ensures DigitsValue(t) == DigitValue(t[0]) * 10 + DigitValue(t[1])
  {
    var h := t[..1];
    assert h[0] == t[0] && h[..0] == [];
    assert DigitsValue(h) == DigitValue(t[0]);
  }

  function ClockSeconds(c: Clock): real {
    c.hours as real * 3600.0 + c.minutes as real * 60.0 + c.seconds
  }

  /** A duration match at `st`: two clock fields, then seconds from `st + 6` with digits up to `a` and a fraction up to `e`. */
  lemma DurationShape(s: string, st: nat, a: nat, e: nat)
    requires st <= |s| && DurationAt(s, st) == Some(e) && st + 7 <= |s| && a == RunEnd(s, st + 7, Digit)
    ensures st + 7 < a <= e <= |s| && e == FractionEnd(s, a)
    ensures s[st + 2] == ':' && s[st + 5] == ':'
    ensures IsDigit(s[st]) && IsDigit(s[st + 1]) && IsDigit(s[st + 3]) && IsDigit(s[st + 4])
    ensures forall k :: st + 6 <= k < a ==> IsDigit(s[k])
    ensures e > a ==> e > a + 1 && s[a] == '.' && forall k :: a < k < e ==> IsDigit(s[k])
  {
    forall k | st + 7 <= k < a
      ensures IsDigit(s[k])
    {
      assert InClass(s[k], Digit);
    }
    if e > a {
      assert InClass(s[a + 1], Digit);
      forall k | a < k < e
        ensures IsDigit(s[k])
      {
        assert InClass(s[k], Digit);
      }
    }
  }

  /** A duration match splits at its two colons into hours, minutes and seconds. */
  lemma DurationParts(s: string, st: nat, e: nat)
    requires st + 6 <= e <= |s| && s[st + 2] == ':' && s[st + 5] == ':'
    requires s[st] != ':' && s[st + 1] != ':' && s[st + 3] != ':' && s[st + 4] != ':'
    requires ':' !in s[st + 6..e]
    ensures Split(s[st..e], ":") == [s[st..st + 2], s[st + 3..st + 5], s[st + 6..e]]
  {
    var hh, mm, ss := s[st..st + 2], s[st + 3..st + 5], s[st + 6..e];
    assert hh == [s[st], s[st + 1]] && mm == [s[st + 3], s[st + 4]];
    SliceConcat(s, st, st + 2, e);
    SliceCons(s, st + 2, e);
    SliceConcat(s, st + 3, st + 5, e);
    SliceCons(s, st + 5, e);
    SplitAtCharR(hh, ':', mm + ([':'] + ss));
    SplitAtCharR(mm, ':', ss);
    SplitNoChar(ss, ':');
  }

  lemma Reversed3<T>(x: T, y: T, z: T)
    ensures Reversed([x, y, z]) == [z, y, x]
  {
    assert [x][..0] == [];
    assert Reversed([x]) == [x];
    assert [x, y][..1] == [x];
    assert Reversed([x, y]) == [y, x];
    assert [x, y, z][..2] == [x, y];
  }

  /** Seconds, minutes and hours weighted by increasing powers of sixty. */
  lemma WeightedSum3(vs: seq<Option<real>>, sec: real, m: real, h: real)
    requires |vs| == 3 && vs[0] == Some(sec) && vs[1] == Some(m) && vs[2] == Some(h)
    ensures WeightedSum(vs, 0) == Some(h * 3600.0 + m * 60.0 + sec)
  {
    assert vs[1..][0] == vs[1] && vs[1..][1..][0] == vs[2] && vs[1..][1..][1..] == [];
    assert Scale60(m, 1) == 60.0 * m;
    assert Scale60(h, 1) == 60.0 * h;
    assert Scale60(h, 2) == 3600.0 * h;
    assert WeightedSum(vs[1..][1..], 2) == Some(h * 3600.0);
    assert WeightedSum(vs[1..], 1) == Some(m * 60.0 + h * 3600.0);
  }

  /** A numeral reads as the integer it spells. */
  lemma NumeralFloat(t: string)
    requires IsNumeral(t)
    ensures PyFloat(t) == Some(DigitsValue(t) as real)
  {
    PyFloatWhole(t);
    assert FracValue("") == 0.0;
  }

  /** Three fields that all read as numbers. */
  lemma FloatsClock(hh: string, mm: string, ss: string, h: real, m: real, sec: real)
    requires PyFloat(hh) == Some(h) && PyFloat(mm) == Some(m) && PyFloat(ss) == Some(sec)
    ensures MapSeq(PyFloat, [ss, mm, hh]) == [Some(sec), Some(m), Some(h)]
  {
    Map3(PyFloat, ss, mm, hh);
  }

  lemma WeightedSumLit(sec: real, m: real, h: real)
    ensures WeightedSum([Some(sec), Some(m), Some(h)], 0) == Some(h * 3600.0 + m * 60.0 + sec)
  {
    WeightedSum3([Some(sec), Some(m), Some(h)], sec, m, h);
  }

  /** Hours, minutes and seconds fields, reversed, read and weighted by powers of sixty. */
  lemma WeightedClock(hh: string, mm: string, ss: string, h: real, m: real, sec: real)
    requires PyFloat(hh) == Some(h) && PyFloat(mm) == Some(m) && PyFloat(ss) == Some(sec)
    ensures WeightedSum(MapSeq(PyFloat, Reversed([hh, mm, ss])), 0) == Some(h * 3600.0 + m * 60.0 + sec)
  {
    Reversed3(hh, mm, ss);
    FloatsClock(hh, mm, ss, h, m, sec);
    WeightedSumLit(sec, m, h);
  }

  /** A duration match splits at its colons into the two clock fields and the seconds. */
  lemma DurationFields(s: string, st: nat, e: nat)
    requires st <= |s| && DurationAt(s, st) == Some(e)
    ensures st + 7 < e <= |s|
    ensures Split(s[st..e], ":") == [s[st..st + 2], s[st + 3..st + 5], s[st + 6..e]]
  {
    var a := RunEnd(s, st + 7, Digit);
    DurationShape(s, st, a, e);
    forall k | st + 6 <= k < e
      ensures s[k] != ':'
    {
      if k != a {
        assert IsDigit(s[k]);
      }
    }
    NoCharSlice(s, st + 6, e, ':');
    DurationParts(s, st, e);
  }

  /** The seconds of the clock at a duration match are read from digits up to `a` and the fraction up to the match's end. */
  lemma ClockSecondsAt(s: string, st: nat, a: nat, e: nat)
    requires st + 7 < a <= e <= |s| && DurationAt(s, st) == Some(e) && a == RunEnd(s, st + 7, Digit)
    ensures ClockAt(s, st).seconds == DecimalValue(s[st + 6..a], if e > a then s[a + 1..e] else "")
  {
  }

  /** The seconds field of a duration match reads as the clock's seconds. */
  lemma DurationSeconds(s: string, st: nat, e: nat)
    requires st <= |s| && DurationAt(s, st) == Some(e)
    ensures st + 6 <= e <= |s| && PyFloat(s[st + 6..e]) == Some(ClockAt(s, st).seconds)
  {
    var a := RunEnd(s, st + 7, Digit);
    DurationShape(s, st, a, e);
    ClockSecondsAt(s, st, a, e);
    PyFloatSlice(s, st + 6, a, e);
  }

  /** The hours field of a duration match reads as the clock's hours. */
  lemma DurationHours(s: string, st: nat)
    requires st <= |s| && DurationAt(s, st).Some?
    ensures st + 2 <= |s| && PyFloat(s[st..st + 2]) == Some(ClockAt(s, st).hours as real)
  {
    NumeralSlice(s, st, st + 2);
    NumeralFloat(s[st..st + 2]);
  }

  /** The minutes field of a duration match reads as the clock's minutes. */
  lemma DurationMinutes(s: string, st: nat)
    requires st <= |s| && DurationAt(s, st).Some?
    ensures st + 5 <= |s| && PyFloat(s[st + 3..st + 5]) == Some(ClockAt(s, st).minutes as real)
  {
    NumeralSlice(s, st + 3, st + 5);
    NumeralFloat(s[st + 3..st + 5]);
  }

  /** Text that splits at its colons into fields reading as a clock's hours, minutes and seconds. */
  lemma ClockFields(parts: seq<string>, hh: string, mm: string, ss: string, c: Clock)
    requires parts == [hh, mm, ss]
    requires PyFloat(hh) == Some(c.hours as real) && PyFloat(mm) == Some(c.minutes as real) && PyFloat(ss) == Some(c.seconds)
    ensures WeightedSum(MapSeq(PyFloat, Reversed(parts)), 0) == Some(ClockSeconds(c))
  {
    WeightedClock(hh, mm, ss, c.hours as real, c.minutes as real, c.seconds);
    ClockSecondsSum(WeightedSum(MapSeq(PyFloat, Reversed(parts)), 0), c);
  }

  lemma ClockSecondsSum(ws: Option<real>, c: Clock)
    requires ws == Some(c.hours as real * 3600.0 + c.minutes as real * 60.0 + c.seconds)
    ensures ws == Some(ClockSeconds(c))
  {
  }

  /** Splitting a duration match at its colons and weighting the reversed fields by powers of sixty gives the clock's seconds. */
  lemma DurationMatch(s: string, st: nat, e: nat)
    requires st <= |s| && DurationAt(s, st) == Some(e)
    ensures WeightedSum(MapSeq(PyFloat, Reversed(Split(s[st..e], ":"))), 0) == Some(ClockSeconds(ClockAt(s, st)))
  {
    DurationFields(s, st, e);
    DurationSeconds(s, st, e);
    DurationHours(s, st);
    DurationMinutes(s, st);
    ClockFields(Split(s[st..e], ":"), s[st..st + 2], s[st + 3..st + 5], s[st + 6..e], ClockAt(s, st));
  }

  /** The duration in seconds found on one line, if there is one. */
  function DurationIn(line: string): (r: Option<real>)
    ensures r.None? <==> FindFirst(Duration, line, 0).None?
    ensures r.Some? ==> r.value == ClockSeconds(ClockAt(line, FindFirst(Duration, line, 0).value.start))
  {
    match FindFirst(Duration, line, 0)
    case None => None
    case Some(m) =>
      DurationMatch(line, m.start, m.end);
      WeightedSum(MapSeq(PyFloat, Reversed(Split(line[m.start..m.end], ":"))), 0)
  }

  /**
    `__extract_duration`: the seconds of the first `HH:MM:SS` clock on the first
    line mentioning `Duration:`; `None` stands for the integer `0` returned when
    there is no such line or no clock on it.
   */
  function ExtractDuration(text: string): (r: Option<real>)
    ensures r.Some? <==> (|StreamLines(text, DurationIds)| > 0
      && FindFirst(Duration, StreamLines(text, DurationIds)[0], 0).Some?)
    ensures r.Some? ==> r.value == ClockSeconds(ClockAt(StreamLines(text, DurationIds)[0],
      FindFirst(Duration, StreamLines(text, DurationIds)[0], 0).value.start))
  {
    var lines := StreamLines(text, DurationIds);
    if |lines| == 0 then None else DurationIn(lines[0])
  }
}

=== FILE: ffdecoder.dfy ===
/**
  The frame decoder (`ffdecoder.py`): the constructor's parameter handling
  and mode choice, `formulate` (decoder, pixel format, sample type,
  resolution, frame rate, frame count and the FFmpeg command), reading and
  shaping frames, the frame generator, `terminate` and the metadata setter.

  The running FFmpeg process is its standard output, a byte sequence handed
  to `Formulate`; whether the process has exited is a parameter of
  `Terminate`.
 */
module FFdecoder {
  import opened Results
  import opened Text
  import opened Py
  import opened Utils
  import opened FFhelper
  import opened Sourcer
  import opened Frames

  /** `d[key]`: the value under the key, or `KeyError`. */
  function Lookup(d: Dict, key: string): (r: Result<Value>)
    ensures r.Ok? <==> Has(d, key)
    ensures r.Ok? ==> Get(d, key) == Some(r.value)
    ensures r.Err? ==> r.error == KeyError
  {
    match Get(d, key)
    case Some(v) => Ok(v)
    case None => Err(KeyError)
  }

  /** `v[i]` for a non-negative index: list and tuple items, characters of text; other values cannot be indexed by a number. */
  function Item(v: Value, i: nat): (r: Result<Value>)
    ensures (v.List? || v.Tuple?) ==> (r.Ok? <==> i < |v.items|) && (r.Ok? ==> r.value == v.items[i])
    ensures v.Str? ==> (r.Ok? <==> i < |v.s|) && (r.Ok? ==> r.value == Str([v.s[i]]))
    ensures r.Err? && (v.List? || v.Tuple? || v.Str?) ==> r.error == IndexError
    ensures v.DictV? ==> r == Err(KeyError)
    ensures v.NoneV? || IsNumber(v) ==> r == Err(TypeError)
  {
    match v
    case List(items) => if i < |items| then Ok(items[i]) else Err(IndexError)
    case Tuple(items) => if i < |items| then Ok(items[i]) else Err(IndexError)
    case Str(s) => if i < |s| then Ok(Str([s[i]])) else Err(IndexError)
    case DictV(_) => Err(KeyError)
    case _ => Err(TypeError)
  }

  // ---------------------------------------------------------------------------
  // Construction

  /** The modes of operation: an image sequence, video with audio passed through, video only. */
  datatype Mode = ImageSequenceMode | AudioVideo | VideoOnly

  /** The mode's name as the metadata reports it under `operational_mode`. */
  function ModeName(m: Mode): string {
    match m
    case ImageSequenceMode => "Image-Sequence"
    case AudioVideo => "Audio-Video"
    case VideoOnly => "Video-Only"
  }

  /** Whether the metadata holds a truthy value under the key. */
  predicate MetaFlag(meta: Dict, key: string) {
    Get(meta, key).Some? && Truthy(Get(meta, key).value)
  }

  /**
    The mode of operation: an image sequence first, then video with audio
    when audio is to be passed through, then video alone; a source without
    video is a `ValueError`. Only the flags the decision reaches are looked
    up.
   */
  function OpMode(meta: Dict, passthrough: bool): (r: Result<Mode>)
    ensures r == Ok(ImageSequenceMode) <==> MetaFlag(meta, "source_has_image_sequence")
    ensures r == Ok(AudioVideo) <==>
      Has(meta, "source_has_image_sequence") && !MetaFlag(meta, "source_has_image_sequence")
      && MetaFlag(meta, "source_has_video") && MetaFlag(meta, "source_has_audio") && passthrough
    ensures r == Ok(VideoOnly) <==>
      Has(meta, "source_has_image_sequence") && !MetaFlag(meta, "source_has_image_sequence")
      && MetaFlag(meta, "source_has_video") && Has(meta, "source_has_audio")
      && !(MetaFlag(meta, "source_has_audio") && passthrough)
    ensures r == Err(ValueError) <==>
      Has(meta, "source_has_image_sequence") && !MetaFlag(meta, "source_has_image_sequence")
      && Has(meta, "source_has_video") && !MetaFlag(meta, "source_has_video")
    ensures r.Err? ==> r.error == ValueError || r.error == KeyError
  {
    var images :- Lookup(meta, "source_has_image_sequence");
    if Truthy(images) then Ok(ImageSequenceMode)
    else
      var video :- Lookup(meta, "source_has_video");
      if !Truthy(video) then Err(ValueError)
      else
        var audio :- Lookup(meta, "source_has_audio");
        if Truthy(audio) && passthrough then Ok(AudioVideo) else Ok(VideoOnly)
  }

  /** The keys the constructor consumes; the rest are FFmpeg output parameters. */
  const ConsumedKeys: seq<string> := [
    "-custom_sourcer_params", "-ffmpeg_download_path", "-default_stream_indexes", "-passthrough_audio",
    "-framerate", "-s", "-custom_resolution", "-ffprefixes", "-ffpostfixes"]

  /** The sanitised parameters without the consumed keys: every other key keeps its last given value. */
  function DecoderParams(extra: Dict): (rest: Dict)
    ensures forall key :: key in ConsumedKeys ==> !Has(rest, key)
    ensures forall key :: key !in ConsumedKeys ==> Get(rest, key) == LastClean(extra, key, false)
  {
    DecoderParamsKeep(extra);
    PopAll(Sanitise(extra, false), ConsumedKeys)
  }

  lemma DecoderParamsKeep(extra: Dict)
    ensures var rest := PopAll(Sanitise(extra, false), ConsumedKeys);
      (forall key :: key in ConsumedKeys ==> !Has(rest, key))
      && (forall key :: key !in ConsumedKeys ==> Get(rest, key) == LastClean(extra, key, false))
  {
    var clean := Sanitise(extra, false);
    forall key
      ensures key in ConsumedKeys ==> !Has(PopAll(clean, ConsumedKeys), key)
      ensures key !in ConsumedKeys ==> Get(PopAll(clean, ConsumedKeys), key) == LastClean(extra, key, false)
    {
      GetPopAll(clean, ConsumedKeys, key);
      SanitiseGet(extra, key, false);
    }
  }

  /**
    The reader's options: `-custom_sourcer_params` when it is a dictionary
    and empty otherwise, with `-ffmpeg_download_path` set from the decoder's
    own parameter (empty when absent).
   */
  function ReaderOptions(clean: Dict): (opts: Dict)
    ensures Get(opts, "-ffmpeg_download_path") == Some(PopValue(clean, "-ffmpeg_download_path", Str("")))
    ensures forall key :: key != "-ffmpeg_download_path" ==> Get(opts, key) == Get(CustomOptions(clean), key)
  {
    var custom := CustomOptions(clean);
    var v := PopValue(clean, "-ffmpeg_download_path", Str(""));
    ReaderOptionsKeep(custom, v);
    Set(custom, "-ffmpeg_download_path", v)
  }

  /** `-custom_sourcer_params` when it is a dictionary, empty otherwise. */
  function CustomOptions(clean: Dict): Dict {
    match Get(clean, "-custom_sourcer_params")
    case Some(DictV(es)) => es
    case _ => []
  }

  lemma ReaderOptionsKeep(custom: Dict, v: Value)
    ensures Get(Set(custom, "-ffmpeg_download_path", v), "-ffmpeg_download_path") == Some(v)
    ensures forall key :: key != "-ffmpeg_download_path" ==>
      Get(Set(custom, "-ffmpeg_download_path", v), key) == Get(custom, key)
  {
    forall key | key != "-ffmpeg_download_path"
      ensures Get(Set(custom, "-ffmpeg_download_path", v), key) == Get(custom, key)
    {
      GetSet(custom, "-ffmpeg_download_path", v, key);
    }
    GetSet(custom, "-ffmpeg_download_path", v, "-ffmpeg_download_path");
  }

  /** `isinstance(v, (list, tuple))`. */
  predicate IsSequence(v: Value) {
    v.List? || v.Tuple?
  }

  /** The value under the key, when it is a list or a tuple. */
  predicate SequenceAt(clean: Dict, key: string) {
    Get(clean, key).Some? && IsSequence(Get(clean, key).value)
  }

  /** The stream indexes for the probe: a list or tuple as given, `(0, 0)` otherwise. */
  function IndexesOption(clean: Dict): (v: Value)
    ensures IsSequence(v)
    ensures SequenceAt(clean, "-default_stream_indexes") ==> v == Get(clean, "-default_stream_indexes").value
    ensures !SequenceAt(clean, "-default_stream_indexes") ==> v == Tuple([Int(0), Int(0)])
  {
    match Get(clean, "-default_stream_indexes")
    case Some(List(xs)) => List(xs)
    case Some(Tuple(xs)) => Tuple(xs)
    case _ => Tuple([Int(0), Int(0)])
  }

  /** The user's frame rate: a positive number as a float, `0.0` for anything else. */
  function FramerateOption(clean: Dict): (fr: real)
    ensures fr >= 0.0
    ensures fr > 0.0 <==> Get(clean, "-framerate").Some? && GreaterThanZero(Get(clean, "-framerate").value) == Some(true)
    ensures fr > 0.0 ==> fr == NumberOf(Get(clean, "-framerate").value)
  {
    match Get(clean, "-framerate")
    case Some(v) => if IsNumber(v) && NumberOf(v) > 0.0 then NumberOf(v) else 0.0
    case None => 0.0
  }

  /** The user's resolution: a list or tuple of exactly two items, `None` otherwise. */
  function ResolutionOption(clean: Dict): (res: Option<Value>)
    ensures res.Some? <==> SequenceAt(clean, "-custom_resolution") && |Get(clean, "-custom_resolution").value.items| == 2
    ensures res.Some? ==> res.value == Get(clean, "-custom_resolution").value
  {
    match Get(clean, "-custom_resolution")
    case Some(v) => if IsSequence(v) && |v.items| == 2 then Some(v) else None
    case None => None
  }

  /** How the reader's constructor is called: its demuxer, its custom FFmpeg location, and its keyword parameters. */
  datatype ReaderCall = ReaderCall(demuxer: Value, customFfmpeg: Value, params: Dict)

  /** Binding the options to the reader's parameters: named ones bind, the rest is collected in order. */
  function BindOptions(opts: Dict, named: seq<Entry>): (r: ReaderCall)
  {
    var all := named + opts;
    ReaderCall(PopValue(all, "source_demuxer", NoneV), PopValue(all, "custom_ffmpeg", Str("")),
               PopAll(all, ["source_demuxer", "custom_ffmpeg"]))
  }

  /**
    The reader's call as written: besides the source and `verbose` the decoder
    passes `ffmpeg_path`, which is not one of the reader's parameters, so it
    is collected among the FFmpeg parameters as an empty value. A `source`,
    `verbose` or `ffmpeg_path` among the options is a second value for a
    keyword, a `TypeError`.
   */
  function ReaderCallAsWritten(opts: Dict): (r: Result<ReaderCall>)
    ensures r.Err? <==> Has(opts, "source") || Has(opts, "verbose") || Has(opts, "ffmpeg_path")
    ensures r.Err? ==> r.error == TypeError
    ensures r.Ok? ==> |r.value.params| > 0 && r.value.params[0] == Entry("ffmpeg_path", Str(""))
  {
    if Has(opts, "source") || Has(opts, "verbose") || Has(opts, "ffmpeg_path") then Err(TypeError)
    else
      var named := [Entry("ffmpeg_path", Str(""))];
      PopAllFront(named[0], opts, ["source_demuxer", "custom_ffmpeg"]);
      Ok(BindOptions(opts, named))
  }

  /** Popping keys other than an entry's own keeps that entry at the front. */
  lemma {:induction false} PopAllFront(e: Entry, d: Dict, keys: seq<string>)
    requires e.key !in keys
    ensures PopAll([e] + d, keys) == [e] + PopAll(d, keys)
    decreases |keys|
  {
    if |keys| > 0 {
      assert ([e] + d)[0] == e && ([e] + d)[1..] == d;
      assert Pop([e] + d, keys[0]) == [e] + Pop(d, keys[0]);
      PopAllFront(e, Pop(d, keys[0]), keys[1..]);
    }
  }

  /**
    The reader's call as intended: the decoder's own `custom_ffmpeg` is
    forwarded under the reader's parameter of that name, and nothing else
    joins the FFmpeg parameters.
   */
  function ReaderCallFor(opts: Dict, customFfmpeg: Value): (r: Result<ReaderCall>)
    ensures r.Err? <==> Has(opts, "source") || Has(opts, "verbose") || Has(opts, "custom_ffmpeg")
    ensures r.Err? ==> r.error == TypeError
    ensures r.Ok? ==> r.value.customFfmpeg == customFfmpeg
    ensures r.Ok? ==> forall key :: key != "source_demuxer" && key != "custom_ffmpeg" ==>
      Get(r.value.params, key) == Get(opts, key)
  {
    if Has(opts, "source") || Has(opts, "verbose") || Has(opts, "custom_ffmpeg") then Err(TypeError)
    else
      var named := [Entry("custom_ffmpeg", customFfmpeg)];
      var call := BindOptions(opts, named);
      CustomBinds(opts, customFfmpeg);
      Ok(call)
  }

  lemma CustomBinds(opts: Dict, customFfmpeg: Value)
    ensures var all := [Entry("custom_ffmpeg", customFfmpeg)] + opts;
      PopValue(all, "custom_ffmpeg", Str("")) == customFfmpeg
      && forall key :: key != "source_demuxer" && key != "custom_ffmpeg" ==>
           Get(PopAll(all, ["source_demuxer", "custom_ffmpeg"]), key) == Get(opts, key)
  {
    var all := [Entry("custom_ffmpeg", customFfmpeg)] + opts;
    GetCons(Entry("custom_ffmpeg", customFfmpeg), opts, "custom_ffmpeg");
    forall key | key != "source_demuxer" && key != "custom_ffmpeg"
      ensures Get(PopAll(all, ["source_demuxer", "custom_ffmpeg"]), key) == Get(opts, key)
    {
      GetPopAll(all, ["source_demuxer", "custom_ffmpeg"], key);
      GetCons(Entry("custom_ffmpeg", customFfmpeg), opts, key);
    }
  }

  /** The decoder's settings after construction. */
  datatype Settings = Settings(
    verbose: bool,
    frameFormat: Value,
    extra: Dict,
    metadata: Dict,
    ffmpeg: string,
    mode: Mode,
    framerate: real,
    customResolution: Option<Value>,
    prefixes: seq<Value>,
    postfixes: seq<Value>)

  /**
    What `formulate` fixes: the input and output FFmpeg parameters, the frame
    layout and resolution, the number of frames to generate when known, and
    the command launched.
   */
  datatype Pipeline = Pipeline(
    input: Dict,
    output: Dict,
    layout: Layout,
    resolution: Value,
    frameNum: Option<Value>,
    argv: seq<string>)

  /** A decoder: its settings, whether `formulate` is still to run, its pipeline, the process's unread output, and the stop flag. */
  datatype Decoder = Decoder(
    settings: Settings,
    initializing: bool,
    pipeline: Option<Pipeline>,
    process: Option<seq<Byte>>,
    terminated: bool)

  /** The reader the constructor builds from the sanitised parameters, and its probe. */
  function ProbeFor(source: Value, customFfmpeg: Value, verbose: Value, clean: Dict, host: Host, ffmpeg: string)
    : (r: Result<Probed>)
    ensures ReaderCallFor(ReaderOptions(clean), customFfmpeg).Err? ==> r == Err(TypeError)
    ensures r.Ok? ==>
      var call := ReaderCallFor(ReaderOptions(clean), customFfmpeg);
      && call.Ok?
      && NewReader(source, call.value.demuxer, ffmpeg, verbose, call.value.params).Ok?
      && r == ProbeStream(NewReader(source, call.value.demuxer, ffmpeg, verbose, call.value.params).value, host,
                          IndexesOption(clean))
  {
    var call :- ReaderCallFor(ReaderOptions(clean), customFfmpeg);
    var reader :- NewReader(source, call.demuxer, ffmpeg, verbose, call.params);
    ProbeStream(reader, host, IndexesOption(clean))
  }

  /**
    The constructor after the probe: the metadata gains the mode of
    operation, and the decoder's own parameters are popped with their
    defaults.
   */
  function Configure(probed: Probed, frameFormat: Value, verbose: Value, extra: Dict): (r: Result<Decoder>)
    ensures r.Ok? ==> r.value.initializing && r.value.pipeline.None? && r.value.process.None? && !r.value.terminated
    ensures r.Ok? ==>
      && r.value.settings.ffmpeg == probed.ffmpeg
      && Get(r.value.settings.metadata, "operational_mode") == Some(Str(ModeName(r.value.settings.mode)))
      && forall key :: key != "operational_mode" ==>
           Get(r.value.settings.metadata, key) == Get(RetrieveMetadata(Some(probed), false).value.0, key)
    ensures r.Err? ==> OpMode(RetrieveMetadata(Some(probed), false).value.0, PopBool(Sanitise(extra, false), "-passthrough_audio")) == Err(r.error)
    ensures r.Ok? ==>
      var s := r.value.settings;
      var clean := Sanitise(extra, false);
      && OpMode(s.metadata, PopBool(clean, "-passthrough_audio")) == Ok(s.mode)
      && s.extra == DecoderParams(extra)
      && s.framerate == FramerateOption(clean)
      && s.customResolution == ResolutionOption(clean)
      && s.prefixes == PopList(clean, "-ffprefixes") && s.postfixes == PopList(clean, "-ffpostfixes")
      && s.verbose == (verbose == Bool(true)) && s.frameFormat == frameFormat
  {
    var clean := Sanitise(extra, false);
    var meta := RetrieveMetadata(Some(probed), false).value.0;
    var passthrough := PopBool(clean, "-passthrough_audio");
    var mode :- OpMode(meta, passthrough);
    var metadata := Set(meta, "operational_mode", Str(ModeName(mode)));
    ModeKept(meta, passthrough, mode);
    var settings := Settings(Flag(verbose), frameFormat, DecoderParams(extra), metadata, probed.ffmpeg, mode,
                             FramerateOption(clean), ResolutionOption(clean),
                             PopList(clean, "-ffprefixes"), PopList(clean, "-ffpostfixes"));
    Ok(Decoder(settings, true, None, None, false))
  }

  /**
    The constructor. The parameters are sanitised (tuples turned into text),
    the reader is built from the options and probed, then the decoder is
    configured from the probe. `ffmpeg` is what the FFmpeg lookup found for
    the reader.
   */
  function NewDecoder(source: Value, frameFormat: Value, customFfmpeg: Value, verbose: Value, extra: Dict,
                      host: Host, ffmpeg: string): (r: Result<Decoder>)
    ensures ProbeFor(source, customFfmpeg, verbose, Sanitise(extra, false), host, ffmpeg).Err? ==>
      r == Err(ProbeFor(source, customFfmpeg, verbose, Sanitise(extra, false), host, ffmpeg).error)
    ensures ProbeFor(source, customFfmpeg, verbose, Sanitise(extra, false), host, ffmpeg).Ok? ==>
      r == Configure(ProbeFor(source, customFfmpeg, verbose, Sanitise(extra, false), host, ffmpeg).value,
                     frameFormat, verbose, extra)
  {
    var probed :- ProbeFor(source, customFfmpeg, verbose, Sanitise(extra, false), host, ffmpeg);
    Configure(probed, frameFormat, verbose, extra)
  }

  /** Recording the mode in the metadata does not change the flags it was chosen from. */
  lemma ModeKept(meta: Dict, passthrough: bool, mode: Mode)
    requires OpMode(meta, passthrough) == Ok(mode)
    ensures OpMode(Set(meta, "operational_mode", Str(ModeName(mode))), passthrough) == Ok(mode)
    ensures Get(Set(meta, "operational_mode", Str(ModeName(mode))), "operational_mode") == Some(Str(ModeName(mode)))
    ensures forall key :: key != "operational_mode" ==>
      Get(Set(meta, "operational_mode", Str(ModeName(mode))), key) == Get(meta, key)
  {
    forall key | key != "operational_mode"
      ensures Get(Set(meta, "operational_mode", Str(ModeName(mode))), key) == Get(meta, key)
    {
      GetSet(meta, "operational_mode", Str(ModeName(mode)), key);
    }
    GetSet(meta, "operational_mode", Str(ModeName(mode)), "operational_mode");
    GetSet(meta, "operational_mode", Str(ModeName(mode)), "source_has_image_sequence");
    GetSet(meta, "operational_mode", Str(ModeName(mode)), "source_has_video");
    GetSet(meta, "operational_mode", Str(ModeName(mode)), "source_has_audio");
  }

  // ---------------------------------------------------------------------------
  // Formulating the pipeline: the video decoder

  /** The source's decoder when the FFmpeg build supports it, `unknown` otherwise. */
  function DefaultDecoder(meta: Dict, supported: seq<string>): (r: Result<string>)
    ensures r.Err? <==> !Has(meta, "source_video_decoder")
    ensures r.Err? ==> r.error == KeyError
    ensures r.Ok? ==> (r.value in supported && Get(meta, "source_video_decoder") == Some(Str(r.value)))
                      || (r.value == "unknown" && !InNames(Get(meta, "source_video_decoder").value, supported))
  {
    var v :- Lookup(meta, "source_video_decoder");
    if InNames(v, supported) then Ok(v.s) else Ok("unknown")
  }

  /** The decoder the user asked for: `-c:v` takes precedence over `-vcodec`. */
  function RequestedDecoder(extra: Dict): Option<Value> {
    if Has(extra, "-c:v") then Get(extra, "-c:v") else Get(extra, "-vcodec")
  }

  /** The parameters left after a choice consumed its keys, and the parameters chosen. */
  datatype Split = Split(rest: Dict, chosen: Dict)

  /** `d[to] = d.pop(from)` when `from` is present: the value moves to `to`, other keys keep theirs. */
  function Rename(d: Dict, from: string, to: string): (r: Dict)
    requires from != to
    ensures !Has(r, from)
    ensures Get(r, to) == (if Has(d, from) then Get(d, from) else Get(d, to))
    ensures forall key :: key != from && key != to ==> Get(r, key) == Get(d, key)
  {
    if Has(d, from) then
      var v := Get(d, from).value;
      RenameKeeps(d, from, to);
      Set(Pop(d, from), to, v)
    else d
  }

  lemma RenameKeeps(d: Dict, from: string, to: string)
    requires from != to && Has(d, from)
    ensures var r := Set(Pop(d, from), to, Get(d, from).value);
      && Get(r, to) == Get(d, from)
      && !Has(r, from)
      && forall key :: key != from && key != to ==> Get(r, key) == Get(d, key)
  {
    var v := Get(d, from).value;
    GetSet(Pop(d, from), to, v, from);
    GetSet(Pop(d, from), to, v, to);
    GetPop(d, from, from);
    forall key | key != from && key != to
      ensures Get(Set(Pop(d, from), to, v), key) == Get(d, key)
    {
      GetSet(Pop(d, from), to, v, key);
      GetPop(d, from, key);
    }
  }

  /** Renaming `from` to `to`, then popping `to`: neither key is left, every other key keeps its value. */
  function Consume(d: Dict, from: string, to: string): (r: Dict)
    requires from != to
    ensures !Has(r, from) && !Has(r, to)
    ensures forall key :: key != from && key != to ==> Get(r, key) == Get(d, key)
  {
    var renamed := Rename(d, from, to);
    PopKeeps(renamed, to);
    assert Get(Pop(renamed, to), from) == Get(renamed, from);
    Pop(renamed, to)
  }

  /** `d.pop(key)` as a quantified statement. */
  lemma PopKeeps(d: Dict, key: string)
    ensures !Has(Pop(d, key), key)
    ensures forall other :: other != key ==> Get(Pop(d, key), other) == Get(d, other)
  {
    forall other | other != key
      ensures Get(Pop(d, key), other) == Get(d, other)
    {
      GetPop(d, key, other);
    }
    GetPop(d, key, key);
  }

  /** The value popped from the key that `-c:v` or `-vframes` was renamed to. */
  function Requested(d: Dict, from: string, to: string): Option<Value> {
    if Has(d, from) then Get(d, from) else Get(d, to)
  }

  /**
    The input decoder for the requested one: an image sequence and an
    explicit `None` go without one; otherwise the requested decoder, or the
    default when none was requested or the requested one is unsupported while
    the default is known. A decoder the build does not support is a
    `RuntimeError`.
   */
  function PickDecoder(asked: Option<Value>, images: bool, default: string, supported: seq<string>): (r: Result<Dict>)
    ensures images ==> r == Ok([])
    ensures !images && asked == Some(NoneV) ==> r == Ok([])
    ensures r.Ok? && !images && asked != Some(NoneV) ==>
      |r.value| == 1 && r.value[0].key == "-vcodec" && InNames(r.value[0].val, supported)
    ensures !images && asked.Some? && InNames(asked.value, supported) ==> r == Ok([Entry("-vcodec", asked.value)])
    ensures !images && asked.None? && default in supported ==> r == Ok([Entry("-vcodec", Str(default))])
    ensures !images && asked.Some? && asked != Some(NoneV) && !InNames(asked.value, supported) && default != "unknown"
      ==> (r == Ok([Entry("-vcodec", Str(default))]) <==> default in supported)
    ensures r.Err? <==>
      && !images && asked != Some(NoneV)
      && !(asked.Some? && InNames(asked.value, supported))
      && !(default in supported && (asked.None? || default != "unknown"))
    ensures r.Err? ==> r.error == RuntimeError
  {
    if images || asked == Some(NoneV) then Ok([])
    else
      var v := match asked case Some(v) => v case None => Str(default);
      var vcodec := if default != "unknown" && !InNames(v, supported) then Str(default) else v;
      if !InNames(vcodec, supported) then Err(RuntimeError) else Ok([Entry("-vcodec", vcodec)])
  }

  // ---------------------------------------------------------------------------
  // The frame count

  /**
    The output frame count for the requested one: a positive count becomes
    an output parameter; a count that is not a number cannot be compared
    with zero, a `TypeError`.
   */
  function PickFrames(asked: Option<Value>): (r: Result<Dict>)
    ensures r.Ok? && r.value != [] <==> asked.Some? && GreaterThanZero(asked.value) == Some(true)
    ensures r.Ok? && r.value != [] ==> r.value == [Entry("-frames:v", asked.value)]
    ensures r.Err? <==> asked.Some? && asked != Some(NoneV) && !IsNumber(asked.value)
    ensures r.Err? ==> r.error == TypeError
  {
    match asked
    case None => Ok([])
    case Some(v) =>
      if v == NoneV then Ok([])
      else match GreaterThanZero(v)
        case None => Err(TypeError)
        case Some(positive) => Ok(if positive then [Entry("-frames:v", v)] else [])
  }

  // ---------------------------------------------------------------------------
  // The pixel format and the sample type

  /** The names of the pixel-format table's rows. */
  function Names(rows: seq<PixFmt>): (names: seq<string>)
    ensures |names| == |rows| && forall i :: 0 <= i < |rows| ==> names[i] == rows[i].name
  {
    seq(|rows|, i requires 0 <= i < |rows| => rows[i].name)
  }

  /** The default and the chosen output pixel format. */
  datatype PixfmtChoice = PixfmtChoice(default: Value, chosen: Value)

  /**
    The output pixel format: `rgb24` when the build supports it and the
    source's format otherwise is the default; the frame format is chosen
    when the build supports it, the default otherwise.
   */
  function ChoosePixfmt(frameFormat: Value, names: seq<string>, meta: Dict): (r: Result<PixfmtChoice>)
    ensures "rgb24" in names ==> r.Ok? && r.value.default == Str("rgb24")
    ensures "rgb24" !in names ==> (r.Ok? <==> Has(meta, "source_video_pixfmt"))
    ensures "rgb24" !in names && r.Ok? ==> r.value.default == Get(meta, "source_video_pixfmt").value
    ensures r.Err? ==> r.error == KeyError
    ensures r.Ok? && InNames(frameFormat, names) ==> r.value.chosen == frameFormat
    ensures r.Ok? && !InNames(frameFormat, names) ==> r.value.chosen == r.value.default
  {
    var default :- if "rgb24" in names then Ok(Str("rgb24")) else Lookup(meta, "source_video_pixfmt");
    Ok(PixfmtChoice(default, if frameFormat != NoneV && InNames(frameFormat, names) then frameFormat else default))
  }

  /** The components and bits per pixel of every row named `chosen`, converted in order. */
  function Conversions(rows: seq<PixFmt>, chosen: Value): (r: Result<seq<(int, int)>>)
    ensures (forall i :: 0 <= i < |rows| ==> Str(rows[i].name) != chosen) ==> r == Ok([])
    ensures r.Ok? && |r.value| > 0 ==> exists i :: 0 <= i < |rows| && FirstRow(rows, chosen, i) && Converts(rows[i], r.value[0])
    ensures r.Ok? && (exists i :: 0 <= i < |rows| && Str(rows[i].name) == chosen) ==> |r.value| > 0
    decreases |rows|
  {
    if |rows| == 0 then Ok([])
    else if Str(rows[0].name) == chosen then
      var d :- IntOfValue(Str(rows[0].components));
      var b :- IntOfValue(Str(rows[0].bpp));
      var more :- Conversions(rows[1..], chosen);
      ShiftFirstRow(rows, chosen);
      assert FirstRow(rows, chosen, 0) && Converts(rows[0], (d, b));
      Ok([(d, b)] + more)
    else
      var more :- Conversions(rows[1..], chosen);
      if |more| > 0 then
        FirstRowLater(rows, chosen, more[0]);
        Ok(more)
      else
        Ok(more)
  }

  /** A first match past a non-matching head row is a first match of the whole table. */
  lemma FirstRowLater(rows: seq<PixFmt>, chosen: Value, pair: (int, int))
    requires |rows| > 0 && Str(rows[0].name) != chosen
    requires exists i :: 0 <= i < |rows[1..]| && FirstRow(rows[1..], chosen, i) && Converts(rows[1..][i], pair)
    ensures exists i :: 0 <= i < |rows| && FirstRow(rows, chosen, i) && Converts(rows[i], pair)
  {
    var i :| 0 <= i < |rows[1..]| && FirstRow(rows[1..], chosen, i) && Converts(rows[1..][i], pair);
    ShiftFirstRow(rows, chosen);
    assert FirstRow(rows, chosen, i + 1) && rows[i + 1] == rows[1..][i];
  }

  /** `(int(row[1]), int(row[2]))` gives `pair`. */
  predicate Converts(row: PixFmt, pair: (int, int)) {
    IntOfValue(Str(row.components)) == Ok(pair.0) && IntOfValue(Str(row.bpp)) == Ok(pair.1)
  }

  /** Row `i` is the first one named `chosen`. */
  predicate FirstRow(rows: seq<PixFmt>, chosen: Value, i: nat)
    requires i < |rows|
  {
    Str(rows[i].name) == chosen && forall j :: 0 <= j < i ==> Str(rows[j].name) != chosen
  }

  lemma ShiftFirstRow(rows: seq<PixFmt>, chosen: Value)
    requires |rows| > 0
    ensures Str(rows[0].name) == chosen ==> FirstRow(rows, chosen, 0)
    ensures Str(rows[0].name) != chosen ==> forall i :: 0 <= i < |rows| - 1 && FirstRow(rows[1..], chosen, i) ==> FirstRow(rows, chosen, i + 1)
  {
  }

  /**
    The first row named `chosen`, as `(components, bits per pixel)`; every
    matching row is converted, and a format with no row is an `IndexError`.
   */
  function RowOf(rows: seq<PixFmt>, chosen: Value): (r: Result<(int, int)>)
    ensures (forall i :: 0 <= i < |rows| ==> Str(rows[i].name) != chosen) ==> r == Err(IndexError)
    ensures r.Ok? ==> exists i :: 0 <= i < |rows| && FirstRow(rows, chosen, i) && Converts(rows[i], r.value)
  {
    var all :- Conversions(rows, chosen);
    if |all| == 0 then Err(IndexError) else Ok(all[0])
  }

  /** Python's `a // b`: the quotient rounded down, `ZeroDivisionError` for a zero divisor. */
  function FloorDiv(a: int, b: int): (r: Result<int>)
    ensures r.Err? <==> b == 0
    ensures r.Err? ==> r.error == ZeroDivisionError
    ensures r.Ok? && b > 0 ==> r.value * b <= a < r.value * b + b
    ensures r.Ok? && b < 0 ==> r.value * b >= a > r.value * b + b
  {
    if b == 0 then Err(ZeroDivisionError)
    else
      var q := if b > 0 then a / b else (-a) / (-b);
      FloorDivBounds(a, b, q);
      Ok(q)
  }

  lemma FloorDivBounds(a: int, b: int, q: int)
    requires b != 0 && q == (if b > 0 then a / b else (-a) / (-b))
    ensures b > 0 ==> q * b <= a < q * b + b
    ensures b < 0 ==> q * b >= a > q * b + b
  {
    if b > 0 {
      assert a == b * (a / b) + a % b;
    } else {
      assert -a == (-b) * ((-a) / (-b)) + (-a) % (-b);
      assert q * b == -((-b) * q);
    }
  }

  /** The frame layout: the output pixel format, its number of components, and the sample type. */
  datatype Layout = Layout(pixfmt: Value, depth: int, dtype: DType)

  /** The sample type for a number of bits per component; a 16-bit format's byte order comes from its name. */
  function SampleType(pixfmt: string, bpc: int): (t: Option<DType>)
    ensures t == Some(U1) <==> bpc == 4 || bpc == 8
    ensures t.Some? && bpc == 16 ==> t.value == (if EndsWith(pixfmt, "le") then U2LE else if EndsWith(pixfmt, "be") then U2BE else NoDtype)
    ensures t.None? <==> bpc != 4 && bpc != 8 && bpc != 16
  {
    if bpc == 4 || bpc == 8 then Some(U1)
    else if bpc == 16 then Some(if EndsWith(pixfmt, "le") then U2LE else if EndsWith(pixfmt, "be") then U2BE else NoDtype)
    else None
  }

  /**
    The layout as written: a format whose components have an unsupported
    size falls back to the default format with one-byte samples, but keeps
    the rejected format's number of components.
   */
  function LayoutAsWritten(chosen: string, depth: int, bpp: int, default: Value): (r: Result<Layout>)
    ensures r.Ok? ==> r.value.depth == depth
    ensures depth == 0 ==> r == Err(ZeroDivisionError)
    ensures r.Ok? ==> var t := SampleType(chosen, FloorDiv(bpp, depth).value);
      (t.Some? ==> r.value == Layout(Str(chosen), depth, t.value)) && (t.None? ==> r.value == Layout(default, depth, U1))
  {
    var bpc :- FloorDiv(bpp, depth);
    match SampleType(chosen, bpc)
    case Some(t) => Ok(Layout(Str(chosen), depth, t))
    case None => Ok(Layout(default, depth, U1))
  }

  /**
    The layout as intended: on the fallback the default format's own row
    gives the number of components.
   */
  function ChooseLayout(chosen: string, depth: int, bpp: int, default: Value, rows: seq<PixFmt>): (r: Result<Layout>)
    ensures depth == 0 ==> r == Err(ZeroDivisionError)
    ensures r.Ok? ==> depth != 0 && var t := SampleType(chosen, FloorDiv(bpp, depth).value);
      && (t.Some? ==> r.value == Layout(Str(chosen), depth, t.value))
      && (t.None? ==> RowOf(rows, default).Ok? && r.value == Layout(default, RowOf(rows, default).value.0, U1))
    ensures depth != 0 && SampleType(chosen, FloorDiv(bpp, depth).value).None? ==>
      (r.Err? <==> RowOf(rows, default).Err?)
  {
    var bpc :- FloorDiv(bpp, depth);
    match SampleType(chosen, bpc)
    case Some(t) => Ok(Layout(Str(chosen), depth, t))
    case None =>
      var row :- RowOf(rows, default);
      Ok(Layout(default, row.0, U1))
  }

  /**
    The frame layout: the chosen pixel format's row gives the number of
    components and bits per pixel; a format with an unsupported component
    size falls back to the default format.
   */
  function FrameLayout(frameFormat: Value, meta: Dict, rows: seq<PixFmt>): (r: Result<Layout>)
    ensures r.Ok? ==> exists i :: 0 <= i < |rows| && FirstRow(rows, r.value.pixfmt, i)
                                  && IntOfValue(Str(rows[i].components)) == Ok(r.value.depth)
    ensures r.Ok? ==> var choice := ChoosePixfmt(frameFormat, Names(rows), meta);
      choice.Ok? && (r.value.pixfmt == choice.value.chosen || r.value.pixfmt == choice.value.default)
    ensures ChoosePixfmt(frameFormat, Names(rows), meta).Err? ==> r == Err(KeyError)
    ensures r.Ok? ==>
      var choice := ChoosePixfmt(frameFormat, Names(rows), meta).value;
      && RowOf(rows, choice.chosen).Ok? && RowOf(rows, choice.chosen).value.0 != 0
      && var row := RowOf(rows, choice.chosen).value;
         var t := SampleType(if choice.chosen.Str? then choice.chosen.s else "", FloorDiv(row.1, row.0).value);
         && (t.Some? ==> r.value.pixfmt == choice.chosen && r.value.dtype == t.value)
         && (t.None? ==> r.value.pixfmt == choice.default && r.value.dtype == U1)
  {
    var choice :- ChoosePixfmt(frameFormat, Names(rows), meta);
    var row :- RowOf(rows, choice.chosen);
    var name := if choice.chosen.Str? then choice.chosen.s else "";
    ChooseLayout(name, row.0, row.1, choice.default, rows)
  }

  // ---------------------------------------------------------------------------
  // Resolution, frame rate and frame count

  /** The frame resolution: the user's when given, the source's otherwise. */
  function ResolutionFor(custom: Option<Value>, meta: Dict): (r: Result<Value>)
    ensures custom.Some? ==> r == Ok(custom.value)
    ensures custom.None? ==> r == Lookup(meta, "source_video_resolution")
  {
    if custom.Some? then Ok(custom.value) else Lookup(meta, "source_video_resolution")
  }

  /** `"{}x{}".format(res[0], res[1])`: the first failing index raises. */
  function Dimensions(res: Value): (r: Result<string>)
    ensures r.Ok? <==> Item(res, 0).Ok? && Item(res, 1).Ok?
    ensures Item(res, 0).Err? ==> r == Err(Item(res, 0).error)
    ensures Item(res, 0).Ok? && Item(res, 1).Err? ==> r == Err(Item(res, 1).error)
    ensures (res.List? || res.Tuple?) && |res.items| >= 2 && res.items[0].Int? && res.items[1].Int? ==>
      r == Ok(IntToString(res.items[0].i) + "x" + IntToString(res.items[1].i))
  {
    var w :- Item(res, 0);
    var h :- Item(res, 1);
    Ok(PyStr(w) + "x" + PyStr(h))
  }

  /** The output frame rate as text: the user's positive rate, the source's otherwise. */
  function FramerateText(input: real, meta: Dict): (r: Result<string>)
    ensures input > 0.0 ==> r == Ok(FloatText(input))
    ensures input <= 0.0 ==> (r.Ok? <==> Has(meta, "source_video_framerate"))
    ensures input <= 0.0 && r.Ok? ==> r.value == PyStr(Get(meta, "source_video_framerate").value)
    ensures r.Err? ==> r.error == KeyError
  {
    var fr :- if input > 0.0 then Ok(Float(input)) else Lookup(meta, "source_video_framerate");
    Ok(PyStr(fr))
  }

  /**
    The number of frames to generate as written: a `-frames:v` among the
    input parameters, which never carry one, else the source's approximate
    count when it is non-zero.
   */
  function FrameNumAsWritten(input: Dict, meta: Dict): (r: Result<Option<Value>>)
    ensures Has(input, "-frames:v") ==> r == Ok(Get(input, "-frames:v"))
    ensures !Has(input, "-frames:v") ==> (r.Ok? <==> Has(meta, "approx_video_nframes"))
    ensures !Has(input, "-frames:v") && r.Ok? ==>
      var n := Get(meta, "approx_video_nframes").value; r.value == (if Truthy(n) then Some(n) else None)
  {
    if Has(input, "-frames:v") then Ok(Get(input, "-frames:v"))
    else
      var n :- Lookup(meta, "approx_video_nframes");
      Ok(if Truthy(n) then Some(n) else None)
  }

  /**
    The number of frames to generate as intended: the user's `-frames:v`,
    which `formulate` places among the output parameters, else the source's
    approximate count when it is non-zero.
   */
  function FrameNum(output: Dict, meta: Dict): (r: Result<Option<Value>>)
    ensures Has(output, "-frames:v") ==> r == Ok(Get(output, "-frames:v"))
    ensures !Has(output, "-frames:v") ==> (r.Ok? <==> Has(meta, "approx_video_nframes"))
    ensures !Has(output, "-frames:v") && r.Ok? ==>
      var n := Get(meta, "approx_video_nframes").value; r.value == (if Truthy(n) then Some(n) else None)
  {
    FrameNumAsWritten(output, meta)
  }

  // ---------------------------------------------------------------------------
  // The command

  predicate AllText(vs: seq<Value>) {
    forall i :: 0 <= i < |vs| ==> vs[i].Str?
  }

  /** The command's words: every one must be text for them to be joined, else `TypeError`. */
  function Texts(vs: seq<Value>): (r: Result<seq<string>>)
    ensures r.Ok? <==> AllText(vs)
    ensures r.Ok? ==> |r.value| == |vs| && forall i :: 0 <= i < |vs| ==> vs[i] == Str(r.value[i])
    ensures r.Err? ==> r.error == TypeError
    decreases |vs|
  {
    if |vs| == 0 then Ok([])
    else if !vs[0].Str? then Err(TypeError)
    else
      var rest :- Texts(vs[1..]);
      Ok([vs[0].s] + rest)
  }

  /** The command before it is checked: FFmpeg, prefixes, the input arguments, postfixes, the input, the output arguments, raw video to standard output. */
  function CommandValues(ffmpeg: string, prefixes: seq<Value>, inputArgs: seq<Value>, postfixes: seq<Value>,
                         source: Value, outputArgs: seq<Value>): (vs: seq<Value>)
    ensures var k := 1 + |prefixes| + |inputArgs| + |postfixes|;
      && |vs| == k + 2 + |outputArgs| + 3
      && vs[0] == Str(ffmpeg) && vs[k] == Str("-i") && vs[k + 1] == source
      && vs[|vs| - 3] == Str("-f") && vs[|vs| - 2] == Str("rawvideo") && vs[|vs| - 1] == Str("-")
      && (forall i :: 0 <= i < |inputArgs| ==> vs[1 + |prefixes| + i] == inputArgs[i])
      && (forall i :: 0 <= i < |outputArgs| ==> vs[k + 2 + i] == outputArgs[i])
  {
    var head := [Str(ffmpeg)] + prefixes;
    var withInput := head + inputArgs;
    var upToSource := withInput + postfixes + [Str("-i"), source];
    var withOutput := upToSource + outputArgs;
    var vs := withOutput + [Str("-f"), Str("rawvideo"), Str("-")];
    vs
  }

  /**
    `argv` is the launched command: FFmpeg, the prefixes, the input arguments
    `a`, the postfixes, `-i` and the source, the output arguments `b`, then
    raw video to standard output.
   */
  ghost predicate ArgvShape(argv: seq<string>, ffmpeg: string, prefixes: seq<Value>, a: seq<Value>,
                            postfixes: seq<Value>, source: Value, b: seq<Value>)
  {
    var k := 1 + |prefixes| + |a| + |postfixes|;
    && |argv| == k + 2 + |b| + 3
    && argv[0] == ffmpeg
    && argv[k] == "-i" && source == Str(argv[k + 1])
    && argv[|argv| - 3] == "-f" && argv[|argv| - 2] == "rawvideo" && argv[|argv| - 1] == "-"
    && (forall i :: 0 <= i < |a| ==> Str(argv[1 + |prefixes| + i]) == a[i])
    && (forall i :: 0 <= i < |b| ==> Str(argv[k + 2 + i]) == b[i])
  }

  /** The checked command for argument lists `a` and `b`: every word must be text. */
  function Launch(ffmpeg: string, prefixes: seq<Value>, postfixes: seq<Value>, source: Value, a: seq<Value>,
                  b: seq<Value>): (r: Result<seq<string>>)
    ensures r.Ok? <==> AllText(CommandValues(ffmpeg, prefixes, a, postfixes, source, b))
    ensures r.Err? ==> r.error == TypeError
    ensures r.Ok? ==> ArgvShape(r.value, ffmpeg, prefixes, a, postfixes, source, b)
  {
    Texts(CommandValues(ffmpeg, prefixes, a, postfixes, source, b))
  }

  /**
    `__launch_FFdecoderline`'s command: the source comes from the metadata;
    a word that is not text makes joining the command for the log a
    `TypeError`.
   */
  function Command(ffmpeg: string, prefixes: seq<Value>, postfixes: seq<Value>, meta: Dict, input: Dict,
                   output: Dict): (r: Result<seq<string>>)
    ensures !Has(meta, "source") ==> r == Err(KeyError)
    ensures Has(meta, "source") ==>
      var vs := CommandValues(ffmpeg, prefixes, Dict2Args(input), postfixes, Get(meta, "source").value, Dict2Args(output));
      r.Ok? <==> AllText(vs)
    ensures r.Ok? ==>
      && Has(meta, "source")
      && ArgvShape(r.value, ffmpeg, prefixes, Dict2Args(input), postfixes, Get(meta, "source").value, Dict2Args(output))
  {
    var source :- Lookup(meta, "source");
    Launch(ffmpeg, prefixes, postfixes, source, Dict2Args(input), Dict2Args(output))
  }

  // ---------------------------------------------------------------------------
  // formulate

  /** The parameters left after the decoder and frame-count keys are consumed, the input parameters, and the frame-count parameter. */
  datatype Chosen = Chosen(rest: Dict, input: Dict, frames: Dict)

  /** The first half of `formulate`: the input decoder, then the frame count, each consuming its keys. */
  function InputStage(s: Settings, supported: seq<string>): (r: Result<Chosen>)
    ensures !Has(s.metadata, "source_video_decoder") ==> r == Err(KeyError)
    ensures r.Ok? ==> r.value.rest == Consume(Consume(s.extra, "-c:v", "-vcodec"), "-vframes", "-frames:v")
    ensures r.Ok? ==>
      && DefaultDecoder(s.metadata, supported).Ok?
      && PickDecoder(Requested(s.extra, "-c:v", "-vcodec"), s.mode == ImageSequenceMode,
                     DefaultDecoder(s.metadata, supported).value, supported) == Ok(r.value.input)
    ensures r.Ok? ==> PickFrames(Requested(s.extra, "-vframes", "-frames:v")) == Ok(r.value.frames)
  {
    var default :- DefaultDecoder(s.metadata, supported);
    var input :- PickDecoder(Requested(s.extra, "-c:v", "-vcodec"), s.mode == ImageSequenceMode, default, supported);
    var rest := Consume(s.extra, "-c:v", "-vcodec");
    assert Requested(rest, "-vframes", "-frames:v") == Requested(s.extra, "-vframes", "-frames:v");
    var frames :- PickFrames(Requested(rest, "-vframes", "-frames:v"));
    Ok(Chosen(Consume(rest, "-vframes", "-frames:v"), input, frames))
  }

  /** The second half's results: the parameters left, the layout, the resolution and its text, the frame rate's text, and the output parameters. */
  datatype Output = Output(rest: Dict, layout: Layout, resolution: Value, dims: string, framerate: string, output: Dict)

  /** The output parameters `formulate` fixes, in the order it assigns them, before the remaining parameters are added. */
  function Fixed(frames: Dict, layout: Layout, dims: string, framerate: string): Dict {
    frames + [Entry("-pix_fmt", layout.pixfmt), Entry("-s", Str(dims)), Entry("-framerate", Str(framerate))]
  }

  /** At most a frame count. */
  predicate FramesOnly(frames: Dict) {
    |frames| <= 1 && (|frames| == 1 ==> frames[0].key == "-frames:v")
  }

  /**
    The second half of `formulate`: the layout, the resolution, the frame
    rate, and the output parameters, to which the parameters left after
    `-pix_fmt` is discarded are added.
   */
  function OutputStage(s: Settings, c: Chosen, rows: seq<PixFmt>): (r: Result<Output>)
    requires FramesOnly(c.frames)
    ensures r.Ok? ==> FrameLayout(s.frameFormat, s.metadata, rows) == Ok(r.value.layout)
    ensures r.Ok? ==> ResolutionFor(s.customResolution, s.metadata) == Ok(r.value.resolution)
    ensures r.Ok? ==> Dimensions(r.value.resolution) == Ok(r.value.dims)
    ensures r.Ok? ==> FramerateText(s.framerate, s.metadata) == Ok(r.value.framerate)
    ensures r.Ok? ==> r.value.rest == Pop(c.rest, "-pix_fmt")
    ensures r.Ok? ==> OutputHolds(r.value, c)
  {
    var layout :- FrameLayout(s.frameFormat, s.metadata, rows);
    var res :- ResolutionFor(s.customResolution, s.metadata);
    var dims :- Dimensions(res);
    var fr :- FramerateText(s.framerate, s.metadata);
    var rest := Pop(c.rest, "-pix_fmt");
    var o := Output(rest, layout, res, dims, fr, UpdateWith(Fixed(c.frames, layout, dims, fr), rest));
    OutputKeys(o, c);
    Ok(o)
  }

  /**
    The output parameters hold the pixel format, the size and the frame rate
    unless the remaining parameters carry the same key, the frame count
    likewise, and every remaining parameter with its last value.
   */
  ghost predicate OutputHolds(o: Output, c: Chosen) {
    && Get(o.output, "-pix_fmt") == Some(o.layout.pixfmt)
    && (!Has(c.rest, "-s") ==> Get(o.output, "-s") == Some(Str(o.dims)))
    && (!Has(c.rest, "-framerate") ==> Get(o.output, "-framerate") == Some(Str(o.framerate)))
    && (|c.frames| == 1 && !Has(c.rest, "-frames:v") ==> Get(o.output, "-frames:v") == Some(c.frames[0].val))
    && (forall key :: Has(o.rest, key) ==> Get(o.output, key) == LastValue(o.rest, key))
  }

  /** Looking a key up in a dictionary with one more entry in front. */
  lemma GetCons(e: Entry, d: Dict, key: string)
    ensures Get([e] + d, key) == (if e.key == key then Some(e.val) else Get(d, key))
  {
    assert ([e] + d)[1..] == d;
  }

  /** A key of the fixed output parameters has the value assigned to it. */
  lemma GetFixed(frames: Dict, layout: Layout, dims: string, fr: string, key: string)
    requires FramesOnly(frames)
    ensures var f := Fixed(frames, layout, dims, fr);
      && (key == "-pix_fmt" ==> Get(f, key) == Some(layout.pixfmt))
      && (key == "-s" ==> Get(f, key) == Some(Str(dims)))
      && (key == "-framerate" ==> Get(f, key) == Some(Str(fr)))
      && (|frames| == 1 && key == "-frames:v" ==> Get(f, key) == Some(frames[0].val))
  {
    var e3 := Entry("-framerate", Str(fr));
    var e2 := Entry("-s", Str(dims));
    var e1 := Entry("-pix_fmt", layout.pixfmt);
    var t := [e1] + ([e2] + ([e3] + []));
    GetCons(e3, [], key);
    GetCons(e2, [e3] + [], key);
    GetCons(e1, [e2] + ([e3] + []), key);
    if |frames| == 1 {
      GetCons(frames[0], t, key);
      assert Fixed(frames, layout, dims, fr) == [frames[0]] + t;
    } else {
      assert Fixed(frames, layout, dims, fr) == t;
    }
  }

  lemma OutputKeys(o: Output, c: Chosen)
    requires FramesOnly(c.frames) && o.rest == Pop(c.rest, "-pix_fmt")
    requires o.output == UpdateWith(Fixed(c.frames, o.layout, o.dims, o.framerate), o.rest)
    ensures OutputHolds(o, c)
  {
    var fixed := Fixed(c.frames, o.layout, o.dims, o.framerate);
    UpdateKeeps(fixed, o.rest);
    FixedKept(o, c, fixed, "-pix_fmt");
    if !Has(c.rest, "-s") {
      FixedKept(o, c, fixed, "-s");
    }
    if !Has(c.rest, "-framerate") {
      FixedKept(o, c, fixed, "-framerate");
    }
    if !Has(c.rest, "-frames:v") {
      FixedKept(o, c, fixed, "-frames:v");
    }
  }

  /** After `d.update(e)` every key of `e` has its last value there. */
  lemma UpdateKeeps(d: Dict, e: Dict)
    ensures forall key :: Has(e, key) ==> Get(UpdateWith(d, e), key) == LastValue(e, key)
  {
    forall key | Has(e, key)
      ensures Get(UpdateWith(d, e), key) == LastValue(e, key)
    {
      GetUpdate(d, e, key);
    }
  }

  /** A fixed key the remaining parameters lack keeps its fixed value. */
  lemma FixedKept(o: Output, c: Chosen, fixed: Dict, key: string)
    requires FramesOnly(c.frames) && o.rest == Pop(c.rest, "-pix_fmt")
    requires fixed == Fixed(c.frames, o.layout, o.dims, o.framerate) && o.output == UpdateWith(fixed, o.rest)
    requires key == "-pix_fmt" || !Has(c.rest, key)
    ensures Get(o.output, key) == Get(fixed, key)
    ensures key == "-pix_fmt" ==> Get(o.output, key) == Some(o.layout.pixfmt)
    ensures key == "-s" ==> Get(o.output, key) == Some(Str(o.dims))
    ensures key == "-framerate" ==> Get(o.output, key) == Some(Str(o.framerate))
    ensures |c.frames| == 1 && key == "-frames:v" ==> Get(o.output, key) == Some(c.frames[0].val)
  {
    GetPop(c.rest, "-pix_fmt", key);
    GetUpdate(fixed, o.rest, key);
    GetFixed(c.frames, o.layout, o.dims, o.framerate, key);
  }


  /**
    The first `formulate` given the build's decoders and pixel-format table:
    the input parameters, the output parameters, the frame count and the
    command, with the parameters left over.
   */
  function Plan(s: Settings, supported: seq<string>, rows: seq<PixFmt>): (r: Result<(Dict, Pipeline)>)
    ensures r.Ok? ==>
      var p := r.value.1;
      var c := InputStage(s, supported);
      && c.Ok? && c.value.input == p.input
      && r.value.0 == Pop(c.value.rest, "-pix_fmt")
      && FrameLayout(s.frameFormat, s.metadata, rows) == Ok(p.layout)
      && ResolutionFor(s.customResolution, s.metadata) == Ok(p.resolution)
      && FrameNum(p.output, s.metadata) == Ok(p.frameNum)
      && Command(s.ffmpeg, s.prefixes, s.postfixes, s.metadata, p.input, p.output) == Ok(p.argv)
    ensures r.Ok? ==> var c := InputStage(s, supported).value;
      |c.frames| == 1 ==> r.value.1.frameNum == Some(c.frames[0].val)
  {
    var c :- InputStage(s, supported);
    var o :- OutputStage(s, c, rows);
    assert !Has(c.rest, "-frames:v");
    var num :- FrameNum(o.output, s.metadata);
    var argv :- Command(s.ffmpeg, s.prefixes, s.postfixes, s.metadata, c.input, o.output);
    Ok((o.rest, Pipeline(c.input, o.output, o.layout, o.resolution, num, argv)))
  }

  /**
    `formulate`: on the first call, list the build's decoders, choose the
    input parameters, list its pixel formats, choose the output parameters
    and the frame count, and launch FFmpeg, whose standard output becomes the
    decoder's stream. A later call changes nothing and launches nothing.
   */
  function Formulate(d: Decoder, vdecoders: Captured, pixfmts: Captured, stdout: seq<Byte>): (r: Result<Decoder>)
    ensures !d.initializing ==> r == Ok(d)
    ensures d.initializing && vdecoders.retcode != 0 ==> r == Err(CalledProcessError(vdecoders.retcode))
    ensures d.initializing && r.Ok? ==>
      && !r.value.initializing && r.value.pipeline.Some? && r.value.process == Some(stdout)
      && r.value.terminated == d.terminated
      && r.value.settings == d.settings.(extra := r.value.settings.extra)
    ensures d.initializing && r.Ok? ==>
      && vdecoders.retcode == 0 && pixfmts.retcode == 0 && ParsePixfmts(pixfmts.stdout).Ok?
      && Plan(d.settings, ParseVdecoders(vdecoders.stdout), ParsePixfmts(pixfmts.stdout).value)
         == Ok((r.value.settings.extra, r.value.pipeline.value))
  {
    if !d.initializing then Ok(d)
    else
      var s := d.settings;
      var supported :- GetSupportedVdecoders(vdecoders);
      var c :- InputStage(s, supported);
      var rows :- GetSupportedPixfmts(pixfmts);
      var plan :- Plan(s, supported, rows);
      Ok(Decoder(s.(extra := plan.0), false, Some(plan.1), Some(stdout), d.terminated))
  }

  // ---------------------------------------------------------------------------
  // Reading frames

  /** A decoded frame: a gray frame's single plane, or rows of pixels of components. */
  datatype Frame = Gray(plane: seq<seq<nat>>) | Cells(cells: seq<seq<seq<nat>>>)

  /** The frame's width and height, the resolution's first two items; a dimension that is not an integer is a `TypeError`. */
  function FrameDims(res: Value): (r: Result<(int, int)>)
    ensures r.Ok? <==> Item(res, 0).Ok? && Item(res, 1).Ok? && IsInt(Item(res, 0).value) && IsInt(Item(res, 1).value)
    ensures r.Ok? ==> r.value == (IntOf(Item(res, 0).value), IntOf(Item(res, 1).value))
  {
    var w :- Item(res, 0);
    var h :- Item(res, 1);
    if IsInt(w) && IsInt(h) then Ok((IntOf(w), IntOf(h))) else Err(TypeError)
  }

  /** What a Python product of frame-size factors comes to: an integer, a float, or text or items repeated. */
  datatype Factor = Whole(n: int) | Fractional | Repeated

  /** A value as a factor of `*`: `None` and dictionaries are none. */
  function FactorOf(v: Value): Option<Factor> {
    if IsInt(v) then Some(Whole(IntOf(v)))
    else if v.Float? then Some(Fractional)
    else if v.Str? || v.List? || v.Tuple? then Some(Repeated)
    else None
  }

  /** Python's `*`: numbers multiply, to a float when either is one; text and sequences repeat by an integer; any other pair is a `TypeError`. */
  function Product(a: Factor, b: Factor): (r: Option<Factor>)
    ensures a.Whole? ==> r.Some?
  {
    match (a, b)
    case (Whole(x), Whole(y)) => Some(Whole(x * y))
    case (Repeated, Whole(_)) => Some(Repeated)
    case (Whole(_), Repeated) => Some(Repeated)
    case (Repeated, _) => None
    case (_, Repeated) => None
    case _ => Some(Fractional)
  }

  /** Text or a sequence, which `*` repeats by an integer. */
  predicate Repeats(v: Value) {
    v.Str? || v.List? || v.Tuple?
  }

  /**
    `depth * res[0] * res[1]`, the frame size, as Python evaluates it from
    left to right: the second item is taken only once the first product
    exists. It is an integer exactly when both items are; a float item
    beside a number, or text or a sequence beside an integer, gives a
    product that is not an integer; any other pair is a `TypeError`.
   */
  function SizeFactor(depth: int, res: Value): (r: Result<Factor>)
    ensures r.Ok? && r.value.Whole? <==> FrameDims(res).Ok?
    ensures FrameDims(res).Ok? ==> r == Ok(Whole(depth * FrameDims(res).value.0 * FrameDims(res).value.1))
    ensures Item(res, 0).Err? ==> r == Err(Item(res, 0).error)
    ensures Item(res, 0).Ok? && (Item(res, 0).value.NoneV? || Item(res, 0).value.DictV?) ==> r == Err(TypeError)
    ensures Item(res, 0).Ok? && Item(res, 1).Ok? ==>
      var w := Item(res, 0).value;
      var h := Item(res, 1).value;
      && (r.Err? ==> r.error == TypeError)
      && (r.Ok? && !r.value.Whole? <==>
            (w.Float? && IsNumber(h)) || (IsNumber(w) && h.Float?) || (Repeats(w) && IsInt(h)) || (IsInt(w) && Repeats(h)))
  {
    var w :- Item(res, 0);
    if FactorOf(w).None? then Err(TypeError)
    else
      var first := Product(Whole(depth), FactorOf(w).value).value;
      var h :- Item(res, 1);
      if FactorOf(h).None? || Product(first, FactorOf(h).value).None? then Err(TypeError)
      else Ok(Product(first, FactorOf(h).value).value)
  }

  /**
    A float resolution, or text beside an integer, forms a size that is not
    an integer, so the read fails; two text items cannot be multiplied.
   */
  lemma SizeFactorKinds()
    ensures SizeFactor(3, List([Float(640.0), Float(480.0)])) == Ok(Fractional)
    ensures SizeFactor(3, List([Str("640"), Int(480)])) == Ok(Repeated)
    ensures SizeFactor(3, List([Str("640"), Str("480")])) == Err(TypeError)
    ensures SizeFactor(3, List([Int(640), Int(480)])) == Ok(Whole(921600))
  {
  }

  /** The packed layouts' test for a planar format as written: a name cannot start with both `yuv` and `444p`. */
  predicate PlanarAsWritten(pixfmt: string) {
    StartsWith(pixfmt, "yuv") && StartsWith(pixfmt, "444p")
  }

  /** A planar format as intended: `yuv…444p`. */
  predicate IsPlanar(pixfmt: string) {
    StartsWith(pixfmt, "yuv") && EndsWith(pixfmt, "444p")
  }

  /** Where pixel `(h, w)` of a row-major frame `D` components deep starts. */
  function PixelOffset(h: nat, w: nat, W: nat, D: nat): nat {
    (h * W + w) * D
  }

  /** `plane` holds the first component of every pixel of a row-major frame: every `D`-th sample. */
  ghost predicate GrayOf(plane: seq<seq<nat>>, xs: seq<nat>, H: nat, W: nat, D: nat) {
    && |plane| == H
    && (forall h :: 0 <= h < H ==> |plane[h]| == W)
    && forall h, w :: 0 <= h < H && 0 <= w < W ==>
      PixelOffset(h, w, W, D) < |xs| && plane[h][w] == xs[PixelOffset(h, w, W, D)]
  }

  /** `cells` is the planar frame `xs` with its planes interleaved: component `d` of a pixel comes from plane `d`. */
  ghost predicate PlanarOf(cells: seq<seq<seq<nat>>>, xs: seq<nat>, H: nat, W: nat, D: nat) {
    Shaped(cells, H, W, D) && forall h, w, d :: 0 <= h < H && 0 <= w < W && 0 <= d < D ==>
      PlaneOffset(h, w, d, H, W) < |xs| && cells[h][w][d] == xs[PlaneOffset(h, w, d, H, W)]
  }

  /** Where component `d` of cell `(h, w)` sits when the samples are stored plane after plane. */
  function PlaneOffset(h: nat, w: nat, d: nat, H: nat, W: nat): nat {
    (d * H + h) * W + w
  }

  /**
    `reshape` of a frame's samples to height × width × components: a gray
    frame keeps its first component, a planar frame is rebuilt from its
    planes, and any other frame is read in row-major order. A negative
    dimension or a count that does not fit is a `ValueError`.
   */
  function Arrange(xs: seq<nat>, W: int, H: int, D: int, gray: bool, planar: bool): (r: Result<Frame>)
    ensures !(W >= 0 && H >= 0 && D >= 0 && |xs| == H * W * D) ==> r == Err(ValueError)
    ensures gray && W >= 0 && H >= 0 && D >= 0 && |xs| == H * W * D ==> (r.Err? <==> D == 0)
    ensures r.Err? && W >= 0 && H >= 0 && D >= 0 && |xs| == H * W * D ==> r.error == IndexError
    ensures r.Ok? && gray ==> r.value.Gray? && GrayOf(r.value.plane, xs, H, W, D)
    ensures r.Ok? && !gray && planar ==> r.value.Cells? && PlanarOf(r.value.cells, xs, H, W, D)
    ensures r.Ok? && !gray && !planar ==>
      r.value.Cells? && Shaped(r.value.cells, H, W, D) && Flatten(r.value.cells, H, W, D) == xs
  {
    if !(W >= 0 && H >= 0 && D >= 0 && |xs| == H * W * D) then Err(ValueError)
    else if gray then
      var t := Reshape(xs, H, W, D);
      var plane :- FirstComponent(t, H, W, D);
      GrayPlane(xs, H, W, D, t, plane);
      Ok(Gray(plane))
    else if planar then
      PlanarCells(xs, H, W, D);
      Ok(Cells(Planar(xs, H, W, D)))
    else
      FlattenReshape(xs, H, W, D);
      Ok(Cells(Reshape(xs, H, W, D)))
  }

  lemma PlanarCells(xs: seq<nat>, H: nat, W: nat, D: nat)
    requires |xs| == H * W * D
    ensures PlanarOf(Planar(xs, H, W, D), xs, H, W, D)
  {
    var t := Planar(xs, H, W, D);
    Commute(H, W, D);
    forall h, w, d | 0 <= h < H && 0 <= w < W && 0 <= d < D
      ensures PlaneOffset(h, w, d, H, W) < |xs| && t[h][w][d] == xs[PlaneOffset(h, w, d, H, W)]
    {
      var k := (d * H + h) * W + w;
      RowMajor(d, h, w, D, H, W);
      assert k < |xs| && t[h][w][d] == xs[k];
    }
  }

  /** The first components of a reshaped frame are every `D`-th sample. */
  lemma GrayPlane(xs: seq<nat>, H: nat, W: nat, D: nat, t: seq<seq<seq<nat>>>, plane: seq<seq<nat>>)
    requires |xs| == H * W * D && D > 0 && t == Reshape(xs, H, W, D)
    requires |plane| == H && forall h :: 0 <= h < H ==> |plane[h]| == W
    requires forall h, w :: 0 <= h < H && 0 <= w < W ==> plane[h][w] == t[h][w][0]
    ensures GrayOf(plane, xs, H, W, D)
  {
    forall h, w | 0 <= h < H && 0 <= w < W
      ensures PixelOffset(h, w, W, D) < |xs| && plane[h][w] == xs[PixelOffset(h, w, W, D)]
    {
      var k := (h * W + w) * D;
      ReshapeAt(xs, H, W, D, h, w, 0, k);
      assert plane[h][w] == t[h][w][0];
    }
  }

  /** `__fetchNextFrame` after the samples are read: the format's name decides how they are arranged. */
  function ShapeFrame(xs: seq<nat>, pixfmt: Value, W: int, H: int, D: int): (r: Result<Frame>)
    ensures !pixfmt.Str? ==> r == Err(AttributeError)
    ensures pixfmt.Str? ==>
      r == Arrange(xs, W, H, D, StartsWith(pixfmt.s, "gray"), IsPlanar(pixfmt.s))
  {
    if !pixfmt.Str? then Err(AttributeError)
    else Arrange(xs, W, H, D, StartsWith(pixfmt.s, "gray"), IsPlanar(pixfmt.s))
  }

  /** `__fetchNextFrame` as written: its planar test never holds, so a planar frame is read as a packed one. */
  function ShapeFrameAsWritten(xs: seq<nat>, pixfmt: Value, W: int, H: int, D: int): (r: Result<Frame>)
    ensures !pixfmt.Str? ==> r == Err(AttributeError)
    ensures pixfmt.Str? ==> r == Arrange(xs, W, H, D, StartsWith(pixfmt.s, "gray"), false)
  {
    if !pixfmt.Str? then Err(AttributeError)
    else
      NeverPlanar(pixfmt.s);
      Arrange(xs, W, H, D, StartsWith(pixfmt.s, "gray"), PlanarAsWritten(pixfmt.s))
  }

  /** No name starts with both `yuv` and `444p`. */
  lemma NeverPlanar(pixfmt: string)
    ensures !PlanarAsWritten(pixfmt)
  {
    assert StartsWith(pixfmt, "444p") ==> pixfmt[0] == '4';
    assert StartsWith(pixfmt, "yuv") ==> pixfmt[0] == 'y';
  }

  /** The number of samples in one frame: components × width × height. */
  function FrameSize(p: Pipeline): (r: Result<int>)
    ensures r.Ok? <==> FrameDims(p.resolution).Ok?
    ensures r.Ok? ==> r.value == p.layout.depth * FrameDims(p.resolution).value.0 * FrameDims(p.resolution).value.1
  {
    var dims :- FrameDims(p.resolution);
    Ok(p.layout.depth * dims.0 * dims.1)
  }

  /**
    The next frame: reading one frame's worth of bytes from the stream and
    shaping them; `None` once the stream holds less than a frame, which it
    then has given up entirely. A decoder that was not formulated is an
    `AssertionError`. A frame size that cannot be formed is the product's
    own error; one that is not an integer fails the read, which is reported
    as a `RuntimeError`.
   */
  function FetchFrame(d: Decoder): (r: Result<(Option<Frame>, Decoder)>)
    ensures d.process.None? ==> r == Err(AssertionError)
    ensures d.process.Some? && d.pipeline.None? ==> r == Err(TypeError)
    ensures d.process.Some? && d.pipeline.Some? ==>
      var size := SizeFactor(d.pipeline.value.layout.depth, d.pipeline.value.resolution);
      && (size.Err? ==> r == Err(size.error))
      && (size.Ok? && !size.value.Whole? ==> r == Err(RuntimeError))
    ensures r.Ok? ==> d.pipeline.Some? && d.process.Some? && FrameSize(d.pipeline.value).Ok?
    ensures r.Ok? ==> r.value.1.process.Some? && r.value.1 == d.(process := r.value.1.process)
    ensures r.Ok? && r.value.0.None? ==> r.value.1.process == Some([])
    ensures r.Ok? && r.value.0.Some? ==>
      var p := d.pipeline.value;
      var n := FrameSize(p).value;
      && p.layout.dtype != NoDtype && 0 <= n
      && |d.process.value| == n * Itemsize(p.layout.dtype) + |r.value.1.process.value|
  {
    if d.process.None? then Err(AssertionError)
    else if d.pipeline.None? then Err(TypeError)
    else
      var p := d.pipeline.value;
      var size :- SizeFactor(p.layout.depth, p.resolution);
      if !size.Whole? then Err(RuntimeError)
      else
        var dims := FrameDims(p.resolution).value;
        var n := p.layout.depth * dims.0 * dims.1;
        var read :- ReadFrame(d.process.value, n, p.layout.dtype);
        var next := d.(process := Some(read.1));
        match read.0
        case None => Ok((None, next))
        case Some(xs) =>
          var frame :- ShapeFrame(xs, p.layout.pixfmt, dims.0, dims.1, p.layout.depth);
          Ok((Some(frame), next))
  }

  /**
    A packed frame re-encoded gives back exactly the bytes it was read from:
    the stream is the frame's samples, flattened and encoded, followed by
    what is left.
   */
  lemma FrameRoundTrip(d: Decoder)
    requires FetchFrame(d).Ok? && FetchFrame(d).value.0.Some?
    requires d.pipeline.Some? && d.pipeline.value.layout.pixfmt.Str?
    requires !StartsWith(d.pipeline.value.layout.pixfmt.s, "gray") && !IsPlanar(d.pipeline.value.layout.pixfmt.s)
    ensures var p := d.pipeline.value;
      var dims := FrameDims(p.resolution).value;
      var f := FetchFrame(d).value;
      && f.0.value.Cells? && dims.0 >= 0 && dims.1 >= 0 && p.layout.depth >= 0 && p.layout.dtype != NoDtype
      && Shaped(f.0.value.cells, dims.1, dims.0, p.layout.depth)
      && (forall k :: 0 <= k < |Flatten(f.0.value.cells, dims.1, dims.0, p.layout.depth)| ==>
            Flatten(f.0.value.cells, dims.1, dims.0, p.layout.depth)[k] < Bound(p.layout.dtype))
      && d.process.value == Encode(Flatten(f.0.value.cells, dims.1, dims.0, p.layout.depth), p.layout.dtype)
                            + f.1.process.value
  {
    var p := d.pipeline.value;
    var dims := FrameDims(p.resolution).value;
    var n := p.layout.depth * dims.0 * dims.1;
    var read := ReadFrame(d.process.value, n, p.layout.dtype).value;
    assert read.0.Some?;
    var xs := read.0.value;
    assert ShapeFrame(xs, p.layout.pixfmt, dims.0, dims.1, p.layout.depth) == Ok(FetchFrame(d).value.0.value);
  }

  // ---------------------------------------------------------------------------
  // Generating frames, terminating, updating the metadata

  /**
    The frame count `generateFrame` loops over: a missing or falsy count reads
    until the stream ends (`None`); an integer is a `range`, empty when
    negative; any other value cannot be a `range` and is a `TypeError`.
   */
  function FrameLimit(num: Option<Value>): (r: Result<Option<nat>>)
    ensures r == Ok(None) <==> num.None? || !Truthy(num.value)
    ensures r.Err? <==> num.Some? && Truthy(num.value) && !IsInt(num.value)
    ensures r.Err? ==> r.error == TypeError
    ensures r.Ok? && r.value.Some? ==> num.Some? && IsInt(num.value) && r.value.value == Clamp(IntOf(num.value))
  {
    if num.None? || !Truthy(num.value) then Ok(None)
    else if IsInt(num.value) then Ok(Some(Clamp(IntOf(num.value))))
    else Err(TypeError)
  }

  /** The length of `range(n)`. */
  function Clamp(n: int): nat {
    if n < 0 then 0 else n
  }

  /** What a consumer pulling frames from `generateFrame` sees: the frames yielded, the decoder after, and the error that ended it, if any. */
  datatype Run = Run(frames: seq<Frame>, decoder: Decoder, error: Option<PyError>)

  /** The bytes one frame of a formulated pipeline takes from the stream. */
  function FrameBytes(p: Pipeline): (n: nat)
    requires FrameSize(p).Ok? && p.layout.dtype != NoDtype && FrameSize(p).value >= 0
    ensures n == FrameSize(p).value * Itemsize(p.layout.dtype)
  {
    FrameSize(p).value * Itemsize(p.layout.dtype)
  }

  /** One pass of the loop used up: a count one less, or still none. */
  function Fewer(limit: Option<nat>): (r: Option<nat>)
    ensures r.None? <==> limit.None?
    ensures limit.Some? && limit.value > 0 ==> r.value == limit.value - 1
  {
    if limit.Some? && limit.value > 0 then Some(limit.value - 1) else limit
  }

  /**
    The generator's loop, pulled `wanted` times: with no limit it runs while
    the stream is not terminated, with a limit it runs that many times
    whatever the flag says; a short read sets the flag and ends the loop.
   */
  function Drain(d: Decoder, wanted: nat, limit: Option<nat>): (r: Run)
    ensures |r.frames| <= wanted
    ensures limit.Some? ==> |r.frames| <= limit.value
    ensures r.decoder.settings == d.settings && r.decoder.pipeline == d.pipeline
    ensures r.decoder.initializing == d.initializing
    ensures d.terminated ==> r.decoder.terminated
    ensures d.process.Some? ==> r.decoder.process.Some? && |r.decoder.process.value| <= |d.process.value|
    ensures limit.None? && d.terminated ==> r == Run([], d, None)
    ensures r.error.None? && |r.frames| < wanted && (limit.None? || |r.frames| < limit.value) ==>
      r.decoder.terminated && ((d.terminated && limit.None?) || r.decoder.process == Some([]))
    decreases wanted
  {
    if wanted == 0 || limit == Some(0) || (limit.None? && d.terminated) then Run([], d, None)
    else
      match FetchFrame(d)
      case Err(e) => Run([], d, Some(e))
      case Ok(fetched) =>
        if fetched.0.None? then Run([], fetched.1.(terminated := true), None)
        else
          var rest := Drain(fetched.1, wanted - 1, Fewer(limit));
          Run([fetched.0.value] + rest.frames, rest.decoder, rest.error)
  }

  /** Every frame of the run took one frame's worth of bytes from `d`'s stream. */
  ghost predicate BytesTaken(d: Decoder, r: Run) {
    && (d.process.Some? ==> r.decoder.process.Some? && |r.decoder.process.value| <= |d.process.value|)
    && (|r.frames| > 0 ==>
          && d.pipeline.Some? && d.process.Some? && r.decoder.process.Some?
          && d.pipeline.value.layout.dtype != NoDtype
          && FrameSize(d.pipeline.value).Ok? && FrameSize(d.pipeline.value).value >= 0
          && |d.process.value| >= |r.frames| * FrameBytes(d.pipeline.value) + |r.decoder.process.value|)
  }

  /**
    Every frame yielded took one frame's worth of bytes from the stream: what
    is left is at most the stream less that many frames.
   */
  lemma DrainBytes(d: Decoder, wanted: nat, limit: Option<nat>)
    ensures BytesTaken(d, Drain(d, wanted, limit))
  {
    var r := Drain(d, wanted, limit);
    DrainTaken(d, wanted, limit);
    if |r.frames| > 0 {
      TimesMul(|r.frames|, FrameBytes(d.pipeline.value));
    }
  }

  /** `k b` as `k` additions of `b`, so that one frame more is one addition more. */
  ghost function Times(k: nat, b: nat): nat {
    if k == 0 then 0 else b + Times(k - 1, b)
  }

  lemma {:induction false} TimesMul(k: nat, b: nat)
    ensures Times(k, b) == k * b
  {
    if k > 0 {
      TimesMul(k - 1, b);
      assert k * b == (k - 1) * b + b;
    }
  }

  /** `BytesTaken` with the frames' bytes counted by `Times`. */
  ghost predicate StreamTaken(d: Decoder, r: Run) {
    && (d.process.Some? ==> r.decoder.process.Some? && |r.decoder.process.value| <= |d.process.value|)
    && (|r.frames| > 0 ==>
          && d.pipeline.Some? && d.process.Some? && r.decoder.process.Some?
          && d.pipeline.value.layout.dtype != NoDtype
          && FrameSize(d.pipeline.value).Ok? && FrameSize(d.pipeline.value).value >= 0
          && |d.process.value| >= Times(|r.frames|, FrameBytes(d.pipeline.value)) + |r.decoder.process.value|)
  }

  lemma {:induction false} DrainTaken(d: Decoder, wanted: nat, limit: Option<nat>)
    ensures StreamTaken(d, Drain(d, wanted, limit))
    decreases wanted, 1
  {
    if wanted == 0 || limit == Some(0) || (limit.None? && d.terminated) {
      DrainNone(d, wanted, limit);
    } else {
      DrainMore(d, wanted, limit);
    }
  }

  /** A started run: its first fetch, then the run after it. */
  lemma {:induction false} DrainMore(d: Decoder, wanted: nat, limit: Option<nat>)
    requires wanted > 0 && limit != Some(0) && (limit.Some? || !d.terminated)
    ensures StreamTaken(d, Drain(d, wanted, limit))
    decreases wanted, 0
  {
    var frame, next := DrainUnfold(d, wanted, limit);
    var rest := Drain(next, wanted - 1, Fewer(limit));
    DrainTaken(next, wanted - 1, Fewer(limit));
    DrainGlue(d, wanted, limit, frame, next, rest);
  }

  /** A run that is not started yields nothing and keeps the stream. */
  lemma DrainNone(d: Decoder, wanted: nat, limit: Option<nat>)
    requires wanted == 0 || limit == Some(0) || (limit.None? && d.terminated)
    ensures StreamTaken(d, Drain(d, wanted, limit))
  {
  }

  /** The bytes of a run are those of its first fetch and of the run after it. */
  lemma DrainGlue(d: Decoder, wanted: nat, limit: Option<nat>, frame: Frame, next: Decoder, rest: Run)
    requires wanted > 0 && limit != Some(0) && (limit.Some? || !d.terminated)
    requires Unfolds(d, wanted, limit, frame, next)
    requires rest == Drain(next, wanted - 1, Fewer(limit)) && StreamTaken(next, rest)
    ensures StreamTaken(d, Drain(d, wanted, limit))
  {
    if Drain(d, wanted, limit).frames != [] {
      DrainBytesStep(d, next, frame, rest);
    }
  }

  /** A run that yields anything starts with `frame`, fetched from `d` leaving `next`, then runs on from `next`. */
  ghost predicate Unfolds(d: Decoder, wanted: nat, limit: Option<nat>, frame: Frame, next: Decoder)
    requires wanted > 0
  {
    Drain(d, wanted, limit).frames != [] ==>
      && Fetched(d, next)
      && Drain(d, wanted, limit) == Run([frame] + Drain(next, wanted - 1, Fewer(limit)).frames,
           Drain(next, wanted - 1, Fewer(limit)).decoder, Drain(next, wanted - 1, Fewer(limit)).error)
  }

  /** A run that yields anything starts with a fetched frame, then runs on from the decoder the fetch leaves. */
  lemma DrainUnfold(d: Decoder, wanted: nat, limit: Option<nat>) returns (frame: Frame, next: Decoder)
    requires wanted > 0 && limit != Some(0) && (limit.Some? || !d.terminated)
    ensures Unfolds(d, wanted, limit, frame, next)
  {
    if FetchFrame(d).Ok? && FetchFrame(d).value.0.Some? {
      frame, next := FetchFrame(d).value.0.value, FetchFrame(d).value.1;
      DrainStep(d, wanted, limit, frame, next, Fewer(limit));
      FetchTakes(d);
    } else {
      DrainShort(d, wanted, limit);
      frame, next := Frame.Gray([]), d;
    }
  }

  /** `next` is `d` after a fetch that took one frame's worth of bytes. */
  ghost predicate Fetched(d: Decoder, next: Decoder) {
    && d.pipeline.Some? && d.process.Some? && next.pipeline == d.pipeline && next.process.Some?
    && d.pipeline.value.layout.dtype != NoDtype
    && FrameSize(d.pipeline.value).Ok? && FrameSize(d.pipeline.value).value >= 0
    && |d.process.value| == FrameBytes(d.pipeline.value) + |next.process.value|
  }

  /** A fetch that yields a frame takes exactly one frame's worth of bytes. */
  lemma FetchTakes(d: Decoder)
    requires FetchFrame(d).Ok? && FetchFrame(d).value.0.Some?
    ensures Fetched(d, FetchFrame(d).value.1)
  {
  }

  /** One step of `DrainBytes`: a frame's bytes taken, then the rest of the run. */
  lemma DrainBytesStep(d: Decoder, next: Decoder, frame: Frame, rest: Run)
    requires Fetched(d, next) && StreamTaken(next, rest)
    ensures StreamTaken(d, Run([frame] + rest.frames, rest.decoder, rest.error))
  {
    MoreFrames(|rest.frames|, FrameBytes(d.pipeline.value), |d.process.value|, |next.process.value|, |rest.decoder.process.value|);
  }

  /** A fetched frame is the first of the run, followed by the run from the decoder it leaves. */
  lemma DrainStep(d: Decoder, wanted: nat, limit: Option<nat>, frame: Frame, next: Decoder, limit': Option<nat>)
    requires wanted > 0 && limit != Some(0) && (limit.Some? || !d.terminated)
    requires FetchFrame(d) == Ok((Some(frame), next))
    requires limit' == Fewer(limit)
    ensures Drain(d, wanted, limit) == Run([frame] + Drain(next, wanted - 1, limit').frames,
      Drain(next, wanted - 1, limit').decoder, Drain(next, wanted - 1, limit').error)
  {
  }

  /** A failed or short fetch yields no frame. */
  lemma DrainShort(d: Decoder, wanted: nat, limit: Option<nat>)
    requires !(FetchFrame(d).Ok? && FetchFrame(d).value.0.Some?)
    ensures Drain(d, wanted, limit).frames == []
  {
  }

  lemma MoreFrames(k: nat, b: nat, total: nat, mid: nat, last: nat)
    requires total == b + mid && mid >= Times(k, b) + last
    ensures total >= Times(k + 1, b) + last
  {
  }

  /**
    `generateFrame`, pulled `wanted` times: the loop over the pipeline's frame
    count, or until the stream ends when there is none, as before `formulate`.
   */
  function GenerateFrames(d: Decoder, wanted: nat): (r: Run)
    ensures |r.frames| <= wanted
    ensures r.decoder.settings == d.settings && r.decoder.pipeline == d.pipeline
    ensures wanted > 0 && FrameLimit(FrameNumOf(d)).Err? ==> r == Run([], d, Some(TypeError))
    ensures FrameLimit(FrameNumOf(d)).Ok? ==> r == Drain(d, wanted, FrameLimit(FrameNumOf(d)).value)
  {
    if wanted == 0 then Run([], d, None)
    else
      match FrameLimit(FrameNumOf(d))
      case Err(e) => Run([], d, Some(e))
      case Ok(limit) => Drain(d, wanted, limit)
  }

  /** The frame count `formulate` recorded, `None` until it has run. */
  function FrameNumOf(d: Decoder): Option<Value> {
    if d.pipeline.Some? then d.pipeline.value.frameNum else None
  }

  /**
    `terminate`: the stream is flagged as terminated, and a process that is
    still running (`exited` is false) is closed, waited for and dropped.
   */
  function Terminate(d: Decoder, exited: bool): (r: Decoder)
    ensures r.terminated
    ensures d.process.Some? && !exited ==> r.process.None?
    ensures d.process.None? || exited ==> r.process == d.process
    ensures r.settings == d.settings && r.pipeline == d.pipeline && r.initializing == d.initializing
  {
    var flagged := d.(terminated := true);
    if d.process.None? || exited then flagged else flagged.(process := None)
  }

  /**
    After `terminate`, a generator with no frame count yields nothing, while
    one that loops over a positive count still reads, and finds the pipeline
    gone: an `AssertionError`.
   */
  lemma TerminateStops(d: Decoder, exited: bool, wanted: nat)
    requires wanted > 0
    ensures FrameLimit(FrameNumOf(d)) == Ok(None) ==> GenerateFrames(Terminate(d, exited), wanted) == Run([], Terminate(d, exited), None)
    ensures d.process.Some? && !exited && FrameLimit(FrameNumOf(d)).Ok? && FrameLimit(FrameNumOf(d)).value.Some?
              && FrameLimit(FrameNumOf(d)).value.value > 0 ==>
      GenerateFrames(Terminate(d, exited), wanted) == Run([], Terminate(d, exited), Some(AssertionError))
  {
    assert FrameNumOf(Terminate(d, exited)) == FrameNumOf(d);
  }

  /**
    The `metadata` setter: a non-empty dictionary updates the source
    metadata, later entries winning; anything else is a `ValueError`.
   */
  function SetMetadata(d: Decoder, value: Value): (r: Result<Decoder>)
    ensures r.Ok? <==> value.DictV? && |value.entries| > 0
    ensures r.Err? ==> r.error == ValueError
    ensures r.Ok? ==> r.value == d.(settings := d.settings.(metadata := r.value.settings.metadata))
    ensures r.Ok? ==> forall key ::
      Get(r.value.settings.metadata, key)
      == (if Has(value.entries, key) then LastValue(value.entries, key) else Get(d.settings.metadata, key))
  {
    if value.DictV? && Truthy(value) then
      var meta := UpdateWith(d.settings.metadata, value.entries);
      assert forall key ::
        Get(meta, key)
        == (if Has(value.entries, key) then LastValue(value.entries, key) else Get(d.settings.metadata, key)) by {
        forall key
          ensures Get(meta, key) ==
            (if Has(value.entries, key) then LastValue(value.entries, key) else Get(d.settings.metadata, key))
        {
          GetUpdate(d.settings.metadata, value.entries, key);
        }
      }
      Ok(d.(settings := d.settings.(metadata := meta)))
    else Err(ValueError)
  }
}

=== FILE: ffhelper.dfy ===
/**
  FFmpeg capability parsers and source validators.

  Every query `ffhelper.py` makes to a subprocess is replaced by a `Captured`
  value: the return code and the text the command wrote. File-system
  questions (does the parent directory exist, how many files carry an
  extension) are plain parameters.
 */
module FFhelper {
  import opened Results
  import opened Text
  import opened Scan

  /** What one run of a command left behind. */
  datatype Captured = Captured(retcode: int, stdout: string, stderr: string)

  /**
    `check_sp_output`: a non-zero return code raises only when standard error
    was not requested; otherwise the result is standard error when it was
    requested and is non-empty, and standard output in every other case.
   */
  function CheckSpOutput(cap: Captured, retrieveStderr: bool): (r: Result<string>)
    ensures r.Err? <==> cap.retcode != 0 && !retrieveStderr
    ensures r.Err? ==> r.error == CalledProcessError(cap.retcode)
    ensures r.Ok? && retrieveStderr && cap.stderr != "" ==> r.value == cap.stderr
    ensures r.Ok? && (!retrieveStderr || cap.stderr == "") ==> r.value == cap.stdout
  {
    if cap.retcode != 0 && !retrieveStderr then Err(CalledProcessError(cap.retcode))
    else if retrieveStderr && cap.stderr != "" then Ok(cap.stderr)
    else Ok(cap.stdout)
  }

  /** The text a query returns when standard error is requested; such a query never raises. */
  function StderrText(cap: Captured): (t: string)
    ensures CheckSpOutput(cap, true) == Ok(t)
  {
    if cap.stderr != "" then cap.stderr else cap.stdout
  }

  /** Every line of the text, stripped. */
  function StrippedLines(text: string): (lines: seq<string>)
    ensures |lines| == |Split(text, "\n")|
    ensures forall k :: 0 <= k < |lines| ==> lines[k] == Strip(Split(text, "\n")[k])
  {
    var parts := Split(text, "\n");
    seq(|parts|, k requires 0 <= k < |parts| => Strip(parts[k]))
  }

  /** Index of the first line that contains `t`. */
  function FirstLineWith(lines: seq<string>, t: string): (r: Option<nat>)
    ensures r.Some? ==> r.value < |lines| && Contains(lines[r.value], t)
    ensures r.Some? ==> forall k :: 0 <= k < r.value ==> !Contains(lines[k], t)
    ensures r.None? ==> forall k :: 0 <= k < |lines| ==> !Contains(lines[k], t)
    decreases |lines|
  {
    if |lines| == 0 then None
    else if Contains(lines[0], t) then Some(0)
    else match FirstLineWith(lines[1..], t)
      case None => None
      case Some(k) => Some(k + 1)
  }

  // ---------------------------------------------------------------------------
  // Rows of `-decoders` and `-pix_fmts`

  /**
    The last space-separated word of a row match `s[i..e]`: the lower-case name
    after the flag column when the flags are followed by a plain space, and the
    whole match when some other whitespace follows them.
   */
  function RowName(s: string, i: nat, e: nat): (name: string)
    requires i <= e <= |s| && DecoderRowEnd(s, i) == Some(e)
    ensures ' ' !in name
    ensures
      var c := RunEnd(s, RunEnd(s, RunEnd(s, i, Upper), Dot), Upper);
      (s[c] == ' ' ==> name == s[c + 1..e]) && (s[c] != ' ' ==> name == s[i..e])
  {
    RowNameSplit(s, i, e);
    Last(Split(s[i..e], " "))
  }

  lemma RowNameSplit(s: string, i: nat, e: nat)
    requires i <= e <= |s| && DecoderRowEnd(s, i) == Some(e)
    ensures ' ' !in Last(Split(s[i..e], " "))
    ensures
      var c := RunEnd(s, RunEnd(s, RunEnd(s, i, Upper), Dot), Upper);
      var name := Last(Split(s[i..e], " "));
      (s[c] == ' ' ==> name == s[c + 1..e]) && (s[c] != ' ' ==> name == s[i..e])
  {
    var c := RunEnd(s, RunEnd(s, RunEnd(s, i, Upper), Dot), Upper);
    RowShape(s, i, e);
    SliceAround(s, i, c, e);
    LastWord(s[i..c], s[c], s[c + 1..e]);
  }

  /** A decoder-row match is a flag column without spaces, one whitespace character, and a name run. */
  lemma RowShape(s: string, i: nat, e: nat)
    requires i <= e <= |s| && DecoderRowEnd(s, i) == Some(e)
    ensures
      var c := RunEnd(s, RunEnd(s, RunEnd(s, i, Upper), Dot), Upper);
      i <= c < e && IsSpace(s[c]) && ' ' !in s[i..c] && ' ' !in s[c + 1..e]
  {
    var a := RunEnd(s, i, Upper);
    var b := RunEnd(s, a, Dot);
    var c := RunEnd(s, b, Upper);
    forall k | i <= k < c
      ensures s[k] != ' '
    {
      if k < a {
        assert InClass(s[k], Upper);
      } else if k < b {
        assert InClass(s[k], Dot);
      } else {
        assert InClass(s[k], Upper);
      }
    }
    forall k | c + 1 <= k < e
      ensures s[k] != ' '
    {
      assert InClass(s[k], Name);
    }
    NoCharSlice(s, i, c, ' ');
    NoCharSlice(s, c + 1, e, ' ');
  }

  /** Stripped lines that start with `V`, as the decoder listing keeps them. */
  function VideoRows(lines: seq<string>): (rows: seq<string>)
    ensures forall k :: 0 <= k < |rows| ==> StartsWith(rows[k], "V")
    decreases |lines|
  {
    if |lines| == 0 then []
    else (if StartsWith(Strip(lines[0]), "V") then [Strip(lines[0])] else []) + VideoRows(lines[1..])
  }

  /** The names of all decoder-row matches in `s`, from `from` on. */
  function DecoderNames(s: string, from: nat): (names: seq<string>)
    requires from <= |s|
    ensures forall k :: 0 <= k < |names| ==> ' ' !in names[k]
    decreases |s| - from
  {
    match NextDecoderRow(s, from)
    case None => []
    case Some(m) => [RowName(s, m.start, m.end)] + DecoderNames(s, m.end)
  }

  /** The first decoder-row match in `s` from `from` on. */
  function NextDecoderRow(s: string, from: nat): (r: Option<Span>)
    requires from <= |s|
    ensures r.Some? ==> from <= r.value.start < r.value.end <= |s| && DecoderRowEnd(s, r.value.start) == Some(r.value.end)
  {
    NextMatch(DecoderRow, s, from)
  }

  /**
    `get_supported_vdecoders` on the listing's text: the lines from the third
    to the last but one that start with `V`, joined, and the name column of
    every row match in them.
   */
  function ParseVdecoders(out: string): (decoders: seq<string>)
    ensures forall k :: 0 <= k < |decoders| ==> ' ' !in decoders[k]
    ensures Paired(ReadsDecoder(DecoderListing(out)), FindAll(DecoderRow, DecoderListing(out), 0), decoders)
  {
    var text := DecoderListing(out);
    DecoderNamesAll(text, 0);
    DecoderNames(text, 0)
  }

  /** The decoder rows the listing keeps: the lines from the third to the last but one that start with `V`, joined. */
  function DecoderListing(out: string): string {
    var lines := Split(out, "\n");
    Join(VideoRows(PySlice(lines, 2, |lines| - 1)), "\n")
  }

  /** `name` is the name column of the decoder row match `m` in `s`. */
  ghost predicate DecoderRead(s: string, m: Span, name: string) {
    m.start <= m.end <= |s| && DecoderRowEnd(s, m.start) == Some(m.end) && name == RowName(s, m.start, m.end)
  }

  ghost function ReadsDecoder(s: string): (Span, string) -> bool {
    (m, name) => DecoderRead(s, m, name)
  }

  /** The decoder names are the name columns of `findall`'s row matches, one per match and in order. */
  lemma {:induction false} DecoderNamesAll(s: string, from: nat)
    requires from <= |s|
    ensures Paired(ReadsDecoder(s), FindAll(DecoderRow, s, from), DecoderNames(s, from))
    decreases |s| - from
  {
    match FindFirst(DecoderRow, s, from)
    case None =>
    case Some(m) =>
      DecoderNamesAll(s, m.end);
      var name := DecoderNamesStep(s, from, m);
      PairedCons(ReadsDecoder(s), m, name, FindAll(DecoderRow, s, m.end), DecoderNames(s, m.end));
  }

  /** One step of the names and of `findall` at the first row match `m`, whose name column is `name`. */
  lemma DecoderNamesStep(s: string, from: nat, m: Span) returns (name: string)
    requires from <= |s| && FindFirst(DecoderRow, s, from) == Some(m)
    ensures ReadsDecoder(s)(m, name)
    ensures FindAll(DecoderRow, s, from) == [m] + FindAll(DecoderRow, s, m.end)
    ensures DecoderNames(s, from) == [name] + DecoderNames(s, m.end)
  {
    name := RowName(s, m.start, m.end);
    assert DecoderRead(s, m, name);
  }

  function GetSupportedVdecoders(cap: Captured): (r: Result<seq<string>>)
    ensures r.Err? <==> cap.retcode != 0
    ensures r.Ok? ==> r.value == ParseVdecoders(cap.stdout)
  {
    var out :- CheckSpOutput(cap, false);
    Ok(ParseVdecoders(out))
  }

  /** One row of the pixel-format table: name, number of components, bits per pixel. */
  datatype PixFmt = PixFmt(name: string, components: string, bpp: string)

  /** A table row as the listing promises it: a name without spaces, one digit 0-4, a numeral. */
  predicate WellFormed(f: PixFmt) {
    ' ' !in f.name && |f.components| == 1 && '0' <= f.components[0] <= '4' && IsNumeral(f.bpp)
  }

  /** The three groups of a pixel-format row match `s[i..e]`. */
  function PixfmtOfRow(s: string, i: nat, e: nat): (f: PixFmt)
    requires i <= e <= |s| && PixfmtRowAt(s, i) == Some(e)
    ensures WellFormed(f)
  {
    PixfmtRowParts(s, i, e);
    var n := DecoderRowEnd(s, i).value;
    var m := PixfmtComponentsEnd(s, n).value;
    ComponentsGroup(s, n, m);
    BppGroup(s, m, RunEnd(s, m, Space), e);
    PixFmt(RowName(s, i, n), Strip(s[n..m]), Strip(s[m..e]))
  }

  /** A pixel-format row match is a decoder-row prefix, a components group and a bits group ending at `e`. */
  lemma PixfmtRowParts(s: string, i: nat, e: nat)
    requires i <= e <= |s| && PixfmtRowAt(s, i) == Some(e)
    ensures DecoderRowEnd(s, i).Some? && PixfmtComponentsEnd(s, DecoderRowEnd(s, i).value).Some?
    ensures
      var m := PixfmtComponentsEnd(s, DecoderRowEnd(s, i).value).value;
      m <= e && RunEnd(s, m, Space) > m && RunEnd(s, RunEnd(s, m, Space), Digit) == e && e > RunEnd(s, m, Space)
  {
  }

  lemma ComponentsGroup(s: string, n: nat, m: nat)
    requires n <= |s| && PixfmtComponentsEnd(s, n) == Some(m)
    ensures n < m <= |s| && Strip(s[n..m]) == [s[m - 1]] && '0' <= s[m - 1] <= '4'
  {
    var a := RunEnd(s, n, Space);
    var t := s[n..m];
    forall k | 0 <= k < |t| - 1
      ensures IsSpace(t[k])
    {
      assert InClass(s[n + k], Space);
    }
    assert t[|t| - 1] == s[m - 1];
    StripBetween(t, |t| - 1, |t|);
    assert t[|t| - 1..|t|] == [s[m - 1]];
  }

  lemma BppGroup(s: string, m: nat, b: nat, e: nat)
    requires m < b < e <= |s|
    requires RunEnd(s, m, Space) == b && RunEnd(s, b, Digit) == e
    ensures IsNumeral(Strip(s[m..e]))
  {
    var t := s[m..e];
    forall k | 0 <= k < b - m
      ensures IsSpace(t[k])
    {
      assert InClass(s[m + k], Space);
    }
    forall k | b - m <= k < |t|
      ensures IsDigit(t[k])
    {
      assert InClass(s[m + k], Digit);
    }
    SpacedNumeral(t, b - m);
  }

  function PixfmtRows(s: string, from: nat): (rows: seq<PixFmt>)
    requires from <= |s|
    ensures forall k :: 0 <= k < |rows| ==> WellFormed(rows[k])
    decreases |s| - from
  {
    match NextPixfmtRow(s, from)
    case None => []
    case Some(m) =>
      var row := PixfmtOfRow(s, m.start, m.end);
      var rest := PixfmtRows(s, m.end);
      AllWellFormed(row, rest);
      [row] + rest
  }

  lemma AllWellFormed(row: PixFmt, rest: seq<PixFmt>)
    requires WellFormed(row) && forall k :: 0 <= k < |rest| ==> WellFormed(rest[k])
    ensures forall k :: 0 <= k < |[row] + rest| ==> WellFormed(([row] + rest)[k])
  {
    forall k | 0 <= k < |[row] + rest|
      ensures WellFormed(([row] + rest)[k])
    {
      if k > 0 {
        assert ([row] + rest)[k] == rest[k - 1];
      }
    }
  }

  /** The first pixel-format row match in `s` from `from` on. */
  function NextPixfmtRow(s: string, from: nat): (r: Option<Span>)
    requires from <= |s|
    ensures r.Some? ==> from <= r.value.start < r.value.end <= |s| && PixfmtRowAt(s, r.value.start) == Some(r.value.end)
  {
    NextMatch(PixfmtRow, s, from)
  }

  /** Stripped lines that are not blank. */
  function NonBlank(lines: seq<string>): (rows: seq<string>)
    ensures forall k :: 0 <= k < |rows| ==> rows[k] != ""
    decreases |lines|
  {
    if |lines| == 0 then []
    else (if Strip(lines[0]) != "" then [Strip(lines[0])] else []) + NonBlank(lines[1..])
  }

  /**
    `get_supported_pixfmts` on the listing's text: the rows after the first
    line holding `-----`; without such a line Python indexes an empty
    list and raises `IndexError`.
   */
  function ParsePixfmts(out: string): (r: Result<seq<PixFmt>>)
    ensures r.Err? <==> FirstLineWith(Split(out, "\n"), "-----").None?
    ensures r.Err? ==> r.error == IndexError
    ensures r.Ok? ==> forall k :: 0 <= k < |r.value| ==> WellFormed(r.value[k])
    ensures r.Ok? ==>
      && PixfmtListing(out).Some?
      && Paired(ReadsRow(PixfmtListing(out).value), FindAll(PixfmtRow, PixfmtListing(out).value, 0), r.value)
  {
    match PixfmtListing(out)
    case None => Err(IndexError)
    case Some(text) =>
      PixfmtRowsAll(text, 0);
      Ok(PixfmtRows(text, 0))
  }

  /** The table's rows: the non-blank lines after the first line holding `-----`, stripped and joined. */
  function PixfmtListing(out: string): (text: Option<string>)
    ensures text.None? <==> FirstLineWith(Split(out, "\n"), "-----").None?
  {
    var lines := Split(out, "\n");
    match FirstLineWith(lines, "-----")
    case None => None
    case Some(k) => Some(Join(NonBlank(lines[k + 1..]), "\n"))
  }

  /** `f` holds the groups of the pixel-format row match `m` in `s`. */
  ghost predicate RowRead(s: string, m: Span, f: PixFmt) {
    m.start <= m.end <= |s| && PixfmtRowAt(s, m.start) == Some(m.end) && f == PixfmtOfRow(s, m.start, m.end)
  }

  ghost function ReadsRow(s: string): (Span, PixFmt) -> bool {
    (m, f) => RowRead(s, m, f)
  }

  /** The table holds the groups of `findall`'s row matches, one table row per match and in order. */
  lemma {:induction false} PixfmtRowsAll(s: string, from: nat)
    requires from <= |s|
    ensures Paired(ReadsRow(s), FindAll(PixfmtRow, s, from), PixfmtRows(s, from))
    decreases |s| - from
  {
    match FindFirst(PixfmtRow, s, from)
    case None =>
    case Some(m) =>
      PixfmtRowsAll(s, m.end);
      var f := PixfmtRowsStep(s, from, m);
      PairedCons(ReadsRow(s), m, f, FindAll(PixfmtRow, s, m.end), PixfmtRows(s, m.end));
  }

  /** One step of the table and of `findall` at the first row match `m`, which reads as `f`. */
  lemma PixfmtRowsStep(s: string, from: nat, m: Span) returns (f: PixFmt)
    requires from <= |s| && FindFirst(PixfmtRow, s, from) == Some(m)
    ensures ReadsRow(s)(m, f)
    ensures FindAll(PixfmtRow, s, from) == [m] + FindAll(PixfmtRow, s, m.end)
    ensures PixfmtRows(s, from) == [f] + PixfmtRows(s, m.end)
  {
    f := PixfmtOfRow(s, m.start, m.end);
    assert RowRead(s, m, f);
  }

  /** A header line before the separator line has no effect on the table. */
  lemma PixfmtsSkipHeader(head: string, rest: string)
    requires '\n' !in head && !Contains(head, "-----")
    ensures ParsePixfmts(head + "\n" + rest) == ParsePixfmts(rest)
  {
    SplitAtChar(head, '\n', rest);
    var lines := Split(rest, "\n");
    var all := [head] + lines;
    assert Split(head + "\n" + rest, "\n") == all;
    FirstLineSkips(all, lines, "-----");
    match FirstLineWith(lines, "-----")
    case None =>
    case Some(k) =>
      assert all[k + 2..] == lines[k + 1..];
  }

  /** A first line without `t` shifts the first line holding `t` by one. */
  lemma FirstLineSkips(all: seq<string>, lines: seq<string>, t: string)
    requires |all| > 0 && all[1..] == lines && !Contains(all[0], t)
    ensures FirstLineWith(all, t) == match FirstLineWith(lines, t) case None => None case Some(k) => Some(k + 1)
  {
  }

  function GetSupportedPixfmts(cap: Captured): (r: Result<seq<PixFmt>>)
    ensures cap.retcode != 0 ==> r == Err(CalledProcessError(cap.retcode))
    ensures cap.retcode == 0 ==> r == ParsePixfmts(cap.stdout)
  {
    var out :- CheckSpOutput(cap, false);
    ParsePixfmts(out)
  }

  // ---------------------------------------------------------------------------
  // `-demuxers`

  /** A demuxer token: stripped, and only the last of a comma-separated alias list. */
  function DemuxerToken(o: string): (t: string)
    ensures ',' !in t
    ensures !Contains(o, ",") ==> t == Strip(o)
    ensures |t| > 0 ==> !IsSpace(t[0]) && !IsSpace(t[|t| - 1])
  {
    if Contains(o, ",") then
      var l := Last(Split(o, ","));
      LastPieceNoComma(o);
      StripKeepsOut(l, ',');
      Strip(l)
    else
      CharOfContains(o, ',');
      StripKeepsOut(o, ',');
      Strip(o)
  }

  /** A character that occurs in a text is contained in it as a one-character string. */
  lemma CharOfContains(s: string, c: char)
    ensures c in s ==> Contains(s, [c])
  {
    if c in s {
      var k :| 0 <= k < |s| && s[k] == c;
      ContainsAt(s, [c], k);
    }
  }

  /** Every demuxer token is the stripped text after the last comma of its row. */
  lemma DemuxerTokenLastAlias(o: string)
    ensures DemuxerToken(o) == Strip(AfterLast(o, ','))
  {
    if Contains(o, ",") {
      LastPieceOfSplit(o, ',');
    } else {
      CharOfContains(o, ',');
      LastIndexUnique(o, ',', -1);
    }
  }

  lemma LastPieceNoComma(o: string)
    ensures ',' !in Last(Split(o, ","))
  {
    SplitPartsAvoidSep(o, ",");
    CharOfContains(Last(Split(o, ",")), ',');
  }

  function DemuxerTokens(s: string, from: nat): (ts: seq<string>)
    requires from <= |s|
    ensures forall k :: 0 <= k < |ts| ==> ',' !in ts[k]
    decreases |s| - from
  {
    match NextMatch(DemuxerRow, s, from)
    case None => []
    case Some(m) =>
      var t := DemuxerToken(s[m.start..m.end]);
      var rest := DemuxerTokens(s, m.end);
      assert ',' !in t;
      [t] + rest
  }

  /**
    `get_supported_demuxers` on the listing's text: the stripped lines after
    the `--` line, except the last; without a `--` line `index` raises
    `ValueError`.
   */
  function ParseDemuxers(out: string): (r: Result<seq<string>>)
    ensures r.Err? <==> "--" !in StrippedLines(out)
    ensures r.Err? ==> r.error == ValueError
    ensures r.Ok? ==> forall k :: 0 <= k < |r.value| ==> ',' !in r.value[k]
    ensures r.Ok? ==>
      && DemuxerListing(out).Some?
      && Paired(ReadsToken(DemuxerListing(out).value), FindAll(DemuxerRow, DemuxerListing(out).value, 0), r.value)
  {
    match DemuxerListing(out)
    case None => Err(ValueError)
    case Some(text) =>
      DemuxerTokensAll(text, 0);
      Ok(DemuxerTokens(text, 0))
  }

  /** The demuxer rows: the stripped lines after the `--` line, except the last, joined. */
  function DemuxerListing(out: string): (text: Option<string>)
    ensures text.None? <==> "--" !in StrippedLines(out)
  {
    var lines := StrippedLines(out);
    match IndexOf(lines, "--")
    case None => None
    case Some(k) => Some(Join(PySlice(lines, k + 1, |lines| - 1), "\n"))
  }

  /** `t` is the token of the demuxer row match `m` in `s`. */
  ghost predicate TokenRead(s: string, m: Span, t: string) {
    m.start <= m.end <= |s| && t == DemuxerToken(s[m.start..m.end])
  }

  ghost function ReadsToken(s: string): (Span, string) -> bool {
    (m, t) => TokenRead(s, m, t)
  }

  /** The demuxer names are the tokens of `findall`'s row matches, one per match and in order. */
  lemma {:induction false} DemuxerTokensAll(s: string, from: nat)
    requires from <= |s|
    ensures Paired(ReadsToken(s), FindAll(DemuxerRow, s, from), DemuxerTokens(s, from))
    decreases |s| - from
  {
    match FindFirst(DemuxerRow, s, from)
    case None =>
    case Some(m) =>
      DemuxerTokensAll(s, m.end);
      var t := DemuxerTokensStep(s, from, m);
      PairedCons(ReadsToken(s), m, t, FindAll(DemuxerRow, s, m.end), DemuxerTokens(s, m.end));
  }

  /** One step of the tokens and of `findall` at the first row match `m`, whose token is `t`. */
  lemma DemuxerTokensStep(s: string, from: nat, m: Span) returns (t: string)
    requires from <= |s| && FindFirst(DemuxerRow, s, from) == Some(m)
    ensures ReadsToken(s)(m, t)
    ensures FindAll(DemuxerRow, s, from) == [m] + FindAll(DemuxerRow, s, m.end)
    ensures DemuxerTokens(s, from) == [t] + DemuxerTokens(s, m.end)
  {
    t := DemuxerToken(s[m.start..m.end]);
    assert TokenRead(s, m, t);
  }

  function GetSupportedDemuxers(cap: Captured): (r: Result<seq<string>>)
    ensures cap.retcode != 0 ==> r == Err(CalledProcessError(cap.retcode))
    ensures cap.retcode == 0 ==> r == ParseDemuxers(cap.stdout)
  {
    var out :- CheckSpOutput(cap, false);
    ParseDemuxers(out)
  }

  // ---------------------------------------------------------------------------
  // Capture devices

  /** The device demuxer of each supported platform; the platform name is stripped first. */
  function DemuxerForOS(os: string): (r: Result<string>)
    ensures r.Ok? <==> Strip(os) in {"Windows", "Darwin", "Linux"}
    ensures r.Err? ==> r.error == ValueError
    ensures Strip(os) == "Windows" ==> r == Ok("dshow")
    ensures Strip(os) == "Darwin" ==> r == Ok("avfoundation")
    ensures Strip(os) == "Linux" ==> r == Ok("v4l2")
  {
    var o := Strip(os);
    if o == "Windows" then Ok("dshow")
    else if o == "Darwin" then Ok("avfoundation")
    else if o == "Linux" then Ok("v4l2")
    else Err(ValueError)
  }

  /** A capture device: a name on Windows and macOS, a device node and its name on Linux. */
  datatype Device = Named(name: string) | Node(path: string, name: string)

  /** The group of every `"(.*?[^\\])"` match in `s` from `from` on: a name that does not end in a backslash. */
  function QuotedGroups(s: string, from: nat): (gs: seq<string>)
    requires from <= |s|
    ensures forall k :: 0 <= k < |gs| ==> QuotedName(gs[k])
    decreases |s| - from
  {
    match NextQuoted(s, from)
    case None => []
    case Some(m) =>
      var g := s[m.start + 1..m.end - 1];
      var rest := QuotedGroups(s, m.end);
      AllQuotedNames(g, rest);
      [g] + rest
  }

  /** What a quoted group holds: at least one character, no line break before the last, and no backslash last. */
  predicate QuotedName(g: string) {
    |g| > 0 && g[|g| - 1] != '\\' && '\n' !in g[..|g| - 1]
  }

  /** The first quoted match in `s` from `from` on. */
  function NextQuoted(s: string, from: nat): (r: Option<Span>)
    requires from <= |s|
    ensures r.Some? ==> from <= r.value.start && r.value.start + 3 <= r.value.end <= |s|
                        && QuotedName(s[r.value.start + 1..r.value.end - 1])
  {
    match NextMatch(Quoted, s, from)
    case None => None
    case Some(m) =>
      QuotedShape(s, m.start, m.end);
      Some(m)
  }

  lemma QuotedShape(s: string, i: nat, e: nat)
    requires i <= |s| && MatchAt(Quoted, s, i) == Some(e)
    ensures i + 3 <= e <= |s| && QuotedName(s[i + 1..e - 1])
  {
    var g := s[i + 1..e - 1];
    assert forall j :: 0 <= j < |g| ==> g[j] == s[i + 1 + j];
  }

  lemma AllQuotedNames(g: string, rest: seq<string>)
    requires QuotedName(g) && forall k :: 0 <= k < |rest| ==> QuotedName(rest[k])
    ensures forall k :: 0 <= k < |[g] + rest| ==> QuotedName(([g] + rest)[k])
  {
    forall k | 0 <= k < |[g] + rest|
      ensures QuotedName(([g] + rest)[k])
    {
      if k > 0 {
        assert ([g] + rest)[k] == rest[k - 1];
      }
    }
  }

  /** The group of every `\[[0-9]\](.*)` match in `s` from `from` on: the rest of that line. */
  function IndexedGroups(s: string, from: nat): (gs: seq<string>)
    requires from <= |s|
    ensures forall k :: 0 <= k < |gs| ==> '\n' !in gs[k]
    decreases |s| - from
  {
    match NextMatch(IndexedDevice, s, from)
    case None => []
    case Some(m) =>
      var g := s[m.start + 3..m.end];
      assert forall j :: 0 <= j < |g| ==> g[j] == s[m.start + 3 + j];
      [g] + IndexedGroups(s, m.end)
  }

  /** The groups that are not the `@device` monikers DirectShow lists as alternative names. */
  function NonMonikers(gs: seq<string>): (names: seq<string>)
    ensures forall k :: 0 <= k < |names| ==> names[k] in gs && !StartsWith(names[k], "@device")
    ensures forall j :: 0 <= j < |gs| && !StartsWith(gs[j], "@device") ==> gs[j] in names
    decreases |gs|
  {
    if |gs| == 0 then []
    else
      var rest := NonMonikers(gs[1..]);
      assert forall j :: 1 <= j < |gs| ==> gs[j] == gs[1..][j - 1];
      if StartsWith(gs[0], "@device") then rest else [gs[0]] + rest
  }

  function StripAll(gs: seq<string>): (names: seq<string>)
    ensures |names| == |gs| && forall k :: 0 <= k < |gs| ==> names[k] == Strip(gs[k])
  {
    seq(|gs|, k requires 0 <= k < |gs| => Strip(gs[k]))
  }

  /** The DirectShow video devices in the joined, stripped listing: only the part before `DirectShow audio` counts. */
  function DShowNames(text: string): (names: seq<string>)
  {
    var head := Before(text, "DirectShow audio");
    if Strip(head) == "" then [] else StripAll(NonMonikers(QuotedGroups(Strip(head), 0)))
  }

  /** The AVFoundation video devices in the joined, stripped listing: only the part before `AVFoundation audio` counts. */
  function AVFoundationNames(text: string): (names: seq<string>)
  {
    var head := Before(text, "AVFoundation audio");
    if Strip(head) == "" then [] else StripAll(IndexedGroups(head, 0))
  }

  /** Whatever follows the audio heading has no effect on the DirectShow device list. */
  lemma DShowIgnoresAudio(video: string, audio: string)
    requires !Contains(video, "DirectShow audio")
    ensures DShowNames(video + "DirectShow audio" + audio) == DShowNames(video)
  {
    BeforeFirst(video, "DirectShow audio", audio);
  }

  /** Whatever follows the audio heading has no effect on the AVFoundation device list. */
  lemma AVFoundationIgnoresAudio(video: string, audio: string)
    requires !Contains(video, "AVFoundation audio")
    ensures AVFoundationNames(video + "AVFoundation audio" + audio) == AVFoundationNames(video)
  {
    BeforeFirst(video, "AVFoundation audio", audio);
  }

  function WindowsDevices(listing: string): seq<string> {
    DShowNames(Join(StrippedLines(listing), "\n"))
  }

  function DarwinDevices(listing: string): seq<string> {
    AVFoundationNames(Join(StrippedLines(listing), "\n"))
  }

  function AsNamed(names: seq<string>): (ds: seq<Device>)
    ensures |ds| == |names| && forall k :: 0 <= k < |ds| ==> ds[k] == Named(names[k])
  {
    seq(|names|, k requires 0 <= k < |names| => Named(names[k]))
  }

  /** The devices the listing of the platform yields; the platform name is compared as given. */
  function ListedDevices(os: string, listing: Captured, linuxDevices: seq<Device>): seq<Device> {
    if os == "Windows" then AsNamed(WindowsDevices(StderrText(listing)))
    else if os == "Linux" then linuxDevices
    else AsNamed(DarwinDevices(StderrText(listing)))
  }

  /** The platform names `platform.system()` reports for the supported platforms, exactly as spelled. */
  predicate IsPlatformKey(os: string) {
    os == "Windows" || os == "Darwin" || os == "Linux"
  }

  /**
    `extract_device_n_demuxer`. The platform name is stripped for the demuxer
    lookup but compared as given when choosing the listing format, so a padded
    `" Windows"` is read as an AVFoundation listing. When the demuxer is not
    supported, building the assertion's message looks the unstripped name up
    again, so a padded name raises `KeyError` instead of `AssertionError`.
    The Linux device nodes come from `linuxDevices`, standing for the
    `v4l2-ctl` query.
   */
  function ExtractDeviceNDemuxer(os: string, demuxers: Captured, listing: Captured,
                                 linuxDevices: seq<Device>): (r: Result<(seq<Device>, string)>)
    ensures DemuxerForOS(os).Err? ==> r == Err(ValueError)
    ensures r.Ok? ==> |r.value.0| > 0 && DemuxerForOS(os) == Ok(r.value.1)
    ensures r.Ok? ==> GetSupportedDemuxers(demuxers).Ok? && r.value.1 in GetSupportedDemuxers(demuxers).value
    ensures r.Ok? ==> r.value.0 == ListedDevices(os, listing, linuxDevices)
    ensures (DemuxerForOS(os).Ok? && GetSupportedDemuxers(demuxers).Ok?
             && DemuxerForOS(os).value !in GetSupportedDemuxers(demuxers).value) ==>
      r == Err(if IsPlatformKey(os) then AssertionError else KeyError)
    ensures (DemuxerForOS(os).Ok? && GetSupportedDemuxers(demuxers).Ok?
             && DemuxerForOS(os).value in GetSupportedDemuxers(demuxers).value) ==>
      (r.Err? <==> |ListedDevices(os, listing, linuxDevices)| == 0) && (r.Err? ==> r.error == RuntimeError)
  {
    var req :- DemuxerForOS(os);
    var supported :- GetSupportedDemuxers(demuxers);
    if req !in supported then
      if IsPlatformKey(os) then Err(AssertionError) else Err(KeyError)
    else
      var devices := ListedDevices(os, listing, linuxDevices);
      if |devices| == 0 then Err(RuntimeError) else Ok((devices, req))
  }

  /**
    A padded platform name gets its demuxer, but when that demuxer is missing
    the failure is a `KeyError`; the exact name gets the `AssertionError`.
   */
  lemma PaddedPlatformUnsupported(demuxers: Captured, listing: Captured, linuxDevices: seq<Device>)
    requires demuxers.retcode == 0 && ParseDemuxers(demuxers.stdout).Ok?
    requires "dshow" !in ParseDemuxers(demuxers.stdout).value
    ensures DemuxerForOS(" Windows") == Ok("dshow")
    ensures ExtractDeviceNDemuxer(" Windows", demuxers, listing, linuxDevices) == Err(KeyError)
    ensures ExtractDeviceNDemuxer("Windows", demuxers, listing, linuxDevices) == Err(AssertionError)
  {
    PaddedWindows();
    UnsupportedDemuxer(" Windows", demuxers, listing, linuxDevices);
    UnsupportedDemuxer("Windows", demuxers, listing, linuxDevices);
  }

  lemma UnsupportedDemuxer(os: string, demuxers: Captured, listing: Captured, linuxDevices: seq<Device>)
    requires DemuxerForOS(os).Ok? && demuxers.retcode == 0 && ParseDemuxers(demuxers.stdout).Ok?
    requires DemuxerForOS(os).value !in ParseDemuxers(demuxers.stdout).value
    ensures ExtractDeviceNDemuxer(os, demuxers, listing, linuxDevices) == Err(if IsPlatformKey(os) then AssertionError else KeyError)
  {
  }

  lemma PaddedWindows()
    ensures DemuxerForOS(" Windows") == Ok("dshow") && DemuxerForOS("Windows") == Ok("dshow")
    ensures !IsPlatformKey(" Windows") && IsPlatformKey("Windows")
  {
    assert |" Windows"| == 8;
    StripBetween(" Windows", 1, 8);
    assert " Windows"[1..8] == "Windows";
    StripNoEdge("Windows");
  }

  // ---------------------------------------------------------------------------
  // Sources

  /** A directory entry the pattern `*.<extension>` matches. */
  predicate GlobMatches(name: string, extension: string) {
    EndsWith(name, "." + extension)
  }

  /** The directory entries a glob for names ending in a point and the extension finds, in listing order. */
  function Glob(names: seq<string>, extension: string): (r: seq<string>)
    ensures |r| <= |names|
    decreases |names|
  {
    if |names| == 0 then []
    else (if GlobMatches(names[0], extension) then [names[0]] else []) + Glob(names[1..], extension)
  }

  /**
    `validate_imgseqdir`: the parent directory must exist and hold more than
    two entries matching the extension. `dir` lists the parent directory's
    entries, `None` when it does not exist or is not a directory.
   */
  function ValidateImgseqdir(dir: Option<seq<string>>, extension: string): (ok: bool)
    ensures ok ==> dir.Some?
  {
    dir.Some? && |Glob(dir.value, extension)| > 2
  }

  /** Increasing positions of entries that match the extension. */
  predicate MatchIndices(names: seq<string>, ext: string, idx: seq<int>) {
    (forall a :: 0 <= a < |idx| ==> 0 <= idx[a] < |names| && GlobMatches(names[idx[a]], ext))
    && (forall a, b :: 0 <= a < b < |idx| ==> idx[a] < idx[b])
  }

  function Shift(idx: seq<int>, d: int): (r: seq<int>)
    ensures |r| == |idx| && forall a :: 0 <= a < |idx| ==> r[a] == idx[a] + d
  {
    seq(|idx|, a requires 0 <= a < |idx| => idx[a] + d)
  }

  /** The glob finds at least as many entries as any increasing list of matching positions names. */
  lemma {:induction false} GlobCount(names: seq<string>, ext: string, idx: seq<int>)
    requires MatchIndices(names, ext, idx)
    ensures |Glob(names, ext)| >= |idx|
    decreases |names|
  {
    if |idx| > 0 {
      assert 0 <= idx[0] < |names|;
      var rest := names[1..];
      if idx[0] == 0 {
        var later := Shift(idx[1..], -1);
        assert MatchIndices(rest, ext, later) by {
          forall a | 0 <= a < |later|
            ensures 0 <= later[a] < |rest| && GlobMatches(rest[later[a]], ext)
          {
            assert idx[0] < idx[a + 1];
            assert rest[later[a]] == names[idx[a + 1]];
          }
        }
        GlobCount(rest, ext, later);
      } else {
        var later := Shift(idx, -1);
        assert MatchIndices(rest, ext, later) by {
          forall a | 0 <= a < |later|
            ensures 0 <= later[a] < |rest| && GlobMatches(rest[later[a]], ext)
          {
            if a > 0 {
              assert idx[0] < idx[a];
            }
            assert rest[later[a]] == names[idx[a]];
          }
        }
        GlobCount(rest, ext, later);
      }
    }
  }

  /** The positions of the entries the glob finds. */
  lemma {:induction false} GlobPositions(names: seq<string>, ext: string) returns (idx: seq<int>)
    ensures MatchIndices(names, ext, idx) && |idx| == |Glob(names, ext)|
    decreases |names|
  {
    if |names| == 0 {
      idx := [];
    } else {
      var r := GlobPositions(names[1..], ext);
      var later := Shift(r, 1);
      ShiftMatches(names, ext, r);
      if GlobMatches(names[0], ext) {
        idx := [0] + later;
        ConsMatch(names, ext, later);
      } else {
        idx := later;
      }
    }
  }

  /** Positions in the tail, moved by one, are positions in the whole list, all past the head. */
  lemma ShiftMatches(names: seq<string>, ext: string, r: seq<int>)
    requires |names| > 0 && MatchIndices(names[1..], ext, r)
    ensures MatchIndices(names, ext, Shift(r, 1))
    ensures forall a :: 0 <= a < |r| ==> Shift(r, 1)[a] > 0
  {
    var later := Shift(r, 1);
    forall a | 0 <= a < |later|
      ensures 0 <= later[a] < |names| && GlobMatches(names[later[a]], ext)
    {
      assert names[later[a]] == names[1..][r[a]];
    }
  }

  /** A matching head goes in front of positions past it. */
  lemma ConsMatch(names: seq<string>, ext: string, later: seq<int>)
    requires |names| > 0 && GlobMatches(names[0], ext)
    requires MatchIndices(names, ext, later) && forall a :: 0 <= a < |later| ==> later[a] > 0
    ensures MatchIndices(names, ext, [0] + later)
  {
    var idx := [0] + later;
    forall a, b | 0 <= a < b < |idx|
      ensures idx[a] < idx[b]
    {
      if a > 0 {
        assert idx[a] == later[a - 1] && idx[b] == later[b - 1];
      }
    }
  }

  /** Three distinct entries carry the extension. */
  predicate ThreeMatch(names: seq<string>, ext: string) {
    exists i, j, k :: 0 <= i < j < k < |names|
      && GlobMatches(names[i], ext) && GlobMatches(names[j], ext) && GlobMatches(names[k], ext)
  }

  /**
    The directory check passes exactly when the directory exists and three
    distinct entries carry the extension.
   */
  lemma ImgseqdirThree(names: seq<string>, ext: string)
    ensures ValidateImgseqdir(Some(names), ext) <==> ThreeMatch(names, ext)
  {
    if ValidateImgseqdir(Some(names), ext) {
      ThreeFromGlob(names, ext);
    }
    if ThreeMatch(names, ext) {
      GlobFromThree(names, ext);
    }
  }

  lemma ThreeFromGlob(names: seq<string>, ext: string)
    requires |Glob(names, ext)| > 2
    ensures ThreeMatch(names, ext)
  {
    var idx := GlobPositions(names, ext);
    var i, j, k := idx[0], idx[1], idx[2];
    assert 0 <= i < j < k < |names|;
    assert GlobMatches(names[i], ext) && GlobMatches(names[j], ext) && GlobMatches(names[k], ext);
  }

  lemma GlobFromThree(names: seq<string>, ext: string)
    requires ThreeMatch(names, ext)
    ensures |Glob(names, ext)| > 2
  {
    var i, j, k :| 0 <= i < j < k < |names|
      && GlobMatches(names[i], ext) && GlobMatches(names[j], ext) && GlobMatches(names[k], ext);
    ThreeIndices(names, ext, i, j, k);
    GlobCount(names, ext, [i, j, k]);
  }

  lemma ThreeIndices(names: seq<string>, ext: string, i: nat, j: nat, k: nat)
    requires i < j < k < |names|
    requires GlobMatches(names[i], ext) && GlobMatches(names[j], ext) && GlobMatches(names[k], ext)
    ensures MatchIndices(names, ext, [i, j, k])
  {
    var idx := [i, j, k];
    forall a | 0 <= a < |idx|
      ensures 0 <= idx[a] < |names| && GlobMatches(names[idx[a]], ext)
    {
      assert idx[a] == i || idx[a] == j || idx[a] == k;
    }
  }

  /** A missing parent directory never passes. */
  lemma ImgseqdirMissing(ext: string)
    ensures !ValidateImgseqdir(None, ext)
  {
  }

  /** Index of the last `c` in `s`, or -1. */
  function LastIndex(s: string, c: char): (r: int)
    ensures -1 <= r < |s|
    ensures r >= 0 ==> s[r] == c && forall k :: r < k < |s| ==> s[k] != c
    ensures r == -1 ==> c !in s
    decreases |s|
  {
    if |s| == 0 then -1 else if s[|s| - 1] == c then |s| - 1 else LastIndex(s[..|s| - 1], c)
  }

  /** The text after the last `c`; all of `s` when there is none. */
  function AfterLast(s: string, c: char): (t: string)
    ensures c !in t
  {
    s[LastIndex(s, c) + 1..]
  }

  /** `LastIndex` is the one position holding `c` with no `c` after it, or -1 when there is none. */
  lemma LastIndexUnique(s: string, c: char, r: int)
    requires -1 <= r < |s| && (r >= 0 ==> s[r] == c)
    requires forall k :: r < k < |s| ==> s[k] != c
    ensures LastIndex(s, c) == r
  {
    var l := LastIndex(s, c);
    if r >= 0 {
      assert s[r] == c;
    }
    if l >= 0 {
      assert s[l] == c;
    }
  }

  /** Text after an occurrence of `c` has the same text after its last `c` as the whole. */
  lemma AfterLastShift(s: string, c: char, i: nat)
    requires i < |s| && s[i] == c
    ensures AfterLast(s, c) == AfterLast(s[i + 1..], c)
  {
    var rest := s[i + 1..];
    var l := LastIndex(rest, c);
    forall k | i + 1 + l < k < |s|
      ensures s[k] != c
    {
      assert s[k] == rest[k - i - 1];
    }
    if l >= 0 {
      assert s[i + 1 + l] == rest[l];
    }
    LastIndexUnique(s, c, i + 1 + l);
    assert AfterLast(s, c) == s[i + 1 + l + 1..];
    assert AfterLast(rest, c) == rest[l + 1..];
    assert s[i + 1 + l + 1..] == rest[l + 1..];
  }

  /** The last piece of a split on one character is the text after its last occurrence. */
  lemma {:induction false} LastPieceOfSplit(s: string, c: char)
    ensures Last(Split(s, [c])) == AfterLast(s, c)
    decreases |s|
  {
    match Find(s, [c])
    case None =>
      CharOfContains(s, c);
      LastIndexUnique(s, c, -1);
      assert Split(s, [c]) == [s];
    case Some(i) =>
      SplitPastFirst(s, c, i);
      LastPieceOfSplit(s[i + 1..], c);
      AfterLastShift(s, c, i);
  }

  /** Past the first occurrence of `c`, the split's last piece is the rest's. */
  lemma SplitPastFirst(s: string, c: char, i: nat)
    requires Find(s, [c]) == Some(i)
    ensures i < |s| && s[i] == c
    ensures Last(Split(s, [c])) == Last(Split(s[i + 1..], [c]))
  {
    assert s[i..i + 1] == [c];
    var tail := Split(s[i + 1..], [c]);
    assert Split(s, [c]) == [s[..i]] + tail;
    LastOfCons(s[..i], tail);
  }

  /**
    `os.path.splitext` on POSIX paths: the extension runs from the last point
    of the last path component, unless the component has only points before it.
   */
  function SplitExt(p: string): (r: (string, string))
    ensures r.0 + r.1 == p
    ensures r.1 != "" ==> r.1[0] == '.' && '.' !in r.1[1..] && '/' !in r.1
    ensures r.1 != "" ==> NonDotBetween(p, LastIndex(p, '/') + 1, |r.0|)
  {
    var sepIndex := LastIndex(p, '/');
    var dotIndex := LastIndex(p, '.');
    if dotIndex > sepIndex && NonDotBetween(p, sepIndex + 1, dotIndex) then
      assert p[..dotIndex] + p[dotIndex..] == p;
      (p[..dotIndex], p[dotIndex..])
    else (p, "")
  }

  /** Some character of `p[lo..hi]` is not a point. */
  predicate NonDotBetween(p: string, lo: nat, hi: int)
    requires hi <= |p|
    decreases hi - lo
  {
    lo < hi && (p[lo] != '.' || NonDotBetween(p, lo + 1, hi))
  }

  /** A stem with a named last component, a point and a plain extension split back apart. */
  lemma SplitExtOfName(stem: string, ext: string)
    requires '.' !in ext && '/' !in ext
    requires NonDotBetween(stem, LastIndex(stem, '/') + 1, |stem|)
    ensures SplitExt(stem + "." + ext) == (stem, "." + ext)
  {
    var p := stem + "." + ext;
    LastPointOfName(stem, ext);
    LastSlashOfName(stem, ext);
    NameKeepsNonDot(stem, ext);
    SplitExtAt(p, |stem|);
  }

  lemma NameKeepsNonDot(stem: string, ext: string)
    requires NonDotBetween(stem, LastIndex(stem, '/') + 1, |stem|)
    ensures NonDotBetween(stem + "." + ext, LastIndex(stem, '/') + 1, |stem|)
    ensures (stem + "." + ext)[..|stem|] == stem && (stem + "." + ext)[|stem|..] == "." + ext
  {
    var p := stem + "." + ext;
    assert p[..|stem|] == stem;
    NonDotBetweenPrefix(stem, p, LastIndex(stem, '/') + 1, |stem|);
  }

  lemma SplitExtAt(p: string, n: nat)
    requires n < |p| && LastIndex(p, '.') == n && LastIndex(p, '/') < n
    requires NonDotBetween(p, LastIndex(p, '/') + 1, n)
    ensures SplitExt(p).0 == p[..n] && SplitExt(p).1 == p[n..]
  {
  }

  lemma LastPointOfName(stem: string, ext: string)
    requires '.' !in ext
    ensures LastIndex(stem + "." + ext, '.') == |stem|
  {
    var d := stem + ".";
    LastIndexAppend(d, ext, '.');
    assert LastIndex(d, '.') == |stem|;
  }

  lemma LastSlashOfName(stem: string, ext: string)
    requires '/' !in ext
    ensures LastIndex(stem + "." + ext, '/') == LastIndex(stem, '/')
  {
    var e := "." + ext;
    assert stem + "." + ext == stem + e;
    LastIndexAppend(stem, e, '/');
  }

  lemma {:induction false} NonDotBetweenPrefix(a: string, p: string, lo: nat, hi: int)
    requires hi <= |a| <= |p| && a == p[..|a|] && NonDotBetween(a, lo, hi)
    ensures NonDotBetween(p, lo, hi)
    decreases hi - lo
  {
    if a[lo] == '.' {
      NonDotBetweenPrefix(a, p, lo + 1, hi);
    }
  }

  lemma {:induction false} LastIndexAppend(a: string, b: string, c: char)
    ensures c !in b ==> LastIndex(a + b, c) == LastIndex(a, c)
    decreases |b|
  {
    if c !in b && |b| > 0 {
      assert (a + b)[..|a + b| - 1] == a + b[..|b| - 1];
      LastIndexAppend(a, b[..|b| - 1], c);
    } else if |b| == 0 {
      assert a + b == a;
    }
  }

  /** The image formats FFmpeg can pipe: the text before the first `_` of every `<word>_pipe` token. */
  function PipeFormats(s: string, from: nat): (fmts: seq<string>)
    requires from <= |s|
    ensures forall k :: 0 <= k < |fmts| ==> !Contains(fmts[k], "_")
    decreases |s| - from
  {
    match NextMatch(PipeFormat, s, from)
    case None => []
    case Some(m) => [Before(s[m.start..m.end], "_")] + PipeFormats(s, m.end)
  }

  predicate EndsWithAny(s: string, suffixes: seq<string>) {
    exists k :: 0 <= k < |suffixes| && EndsWith(s, suffixes[k])
  }

  /**
    `is_valid_image_seq`. `None` stands for the path on which the sample-size
    check fails: Python builds a `ValueError` there without raising it and the
    function falls off its end. `dir` lists the entries of the source's parent
    directory, `None` when that directory does not exist.
   */
  function IsValidImageSeq(source: Option<string>, formats: Captured, dir: Option<seq<string>>): (r: Result<Option<bool>>)
    ensures source.None? || source == Some("") ==> r == Ok(Some(false))
    ensures r.Err? <==> source.Some? && source.value != "" && formats.retcode != 0
    ensures r.Err? ==> r.error == CalledProcessError(formats.retcode)
    ensures source.Some? && source.value != "" && formats.retcode == 0 ==>
      var ext := SplitExt(source.value).1;
      var listed := ext != "" && EndsWithAny(source.value, PipeFormats(Strip(formats.stdout), 0));
      (r == Ok(Some(true)) <==> listed && ValidateImgseqdir(dir, ext[1..]))
      && (r == Ok(None) <==> listed && !ValidateImgseqdir(dir, ext[1..]))
      && (r == Ok(Some(false)) <==> !listed)
  {
    if source.None? || source.value == "" then Ok(Some(false))
    else
      var out :- CheckSpOutput(formats, false);
      var text := Strip(out);
      var src := source.value;
      var ext := SplitExt(src).1;
      if ext != "" && EndsWithAny(src, PipeFormats(text, 0)) then
        Ok(if ValidateImgseqdir(dir, ext[1..]) then Some(true) else None)
      else Ok(Some(false))
  }

  /** The stripped lines after the first `Output:` line, without the last line; `ValueError` without one. */
  function ListedProtocols(out: string): (r: Result<seq<string>>)
    ensures r.Err? <==> "Output:" !in StrippedLines(out)
    ensures r.Err? ==> r.error == ValueError
  {
    var lines := StrippedLines(out);
    match IndexOf(lines, "Output:")
    case None => Err(ValueError)
    case Some(k) =>
      Ok(PySlice(lines, k + 1, |lines| - 1))
  }

  /**
    `is_valid_url`: the scheme is the text before the first `://`; it must be
    non-empty and listed as a protocol, or be `rtsp` when that is a supported
    demuxer.
   */
  function IsValidUrl(url: Option<string>, protocols: Captured, demuxers: Captured): (r: Result<bool>)
    ensures url.None? || url == Some("") ==> r == Ok(false)
    ensures r.Err? ==> url.Some? && url.value != ""
    ensures r.Ok? && url.Some? && url.value != "" ==>
      var scheme := Before(url.value, "://");
      protocols.retcode == 0 && ListedProtocols(protocols.stdout).Ok? && GetSupportedDemuxers(demuxers).Ok? &&
      (r.value <==> (scheme != "" && (scheme in ListedProtocols(protocols.stdout).value
                     || (scheme == "rtsp" && "rtsp" in GetSupportedDemuxers(demuxers).value))))
    ensures url.Some? && url.value != "" && protocols.retcode != 0 ==>
      r == Err(CalledProcessError(protocols.retcode))
    ensures (url.Some? && url.value != "" && protocols.retcode == 0
             && ListedProtocols(protocols.stdout).Ok? && GetSupportedDemuxers(demuxers).Ok?) ==> r.Ok?
  {
    if url.None? || url.value == "" then Ok(false)
    else
      var scheme := Split(url.value, "://")[0];
      SplitHead(url.value, "://");
      var out :- CheckSpOutput(protocols, false);
      var listed :- ListedProtocols(out);
      var demux :- GetSupportedDemuxers(demuxers);
      var supported := listed + (if "rtsp" in demux then ["rtsp"] else []);
      Ok(scheme != "" && scheme in supported)
  }

  /** The scheme is everything before the first `://`. */
  lemma UrlScheme(scheme: string, rest: string)
    requires !Contains(scheme, "://")
    ensures Split(scheme + "://" + rest, "://")[0] == scheme
  {
    BeforeFirst(scheme, "://", rest);
    SplitHead(scheme + "://" + rest, "://");
  }
}

=== FILE: findings.dfy ===
/**
  Four places where the decoder's code does not do what it evidently means
  to. Each is shown on a concrete input next to the corrected definition,
  which is the one the rest of the model uses, together with the property
  the correction restores.
 */
module Findings {
  import opened Results
  import opened Text
  import opened Py
  import opened FFhelper
  import opened Sourcer
  import opened Frames
  import opened FFdecoder

  // ---------------------------------------------------------------------------
  // 1. The frame count is looked up among the input parameters

  /** The input parameters `formulate` builds hold at most a decoder, never a frame count. */
  lemma InputHasNoCount(s: Settings, supported: seq<string>)
    requires InputStage(s, supported).Ok?
    ensures !Has(InputStage(s, supported).value.input, "-frames:v")
  {
    var input := InputStage(s, supported).value.input;
    if |input| == 1 {
      assert Keys(input) == [input[0].key] && input[0].key == "-vcodec";
    } else {
      assert input == [];
    }
  }

  /** As written, the generator's frame count never depends on the user's `-frames:v`: it comes from the metadata alone. */
  lemma FrameNumIgnoresUser(s: Settings, supported: seq<string>)
    requires InputStage(s, supported).Ok?
    ensures FrameNumAsWritten(InputStage(s, supported).value.input, s.metadata) == FrameNumAsWritten([], s.metadata)
  {
    InputHasNoCount(s, supported);
  }

  /** A source of about 100 frames read with `-frames:v 5`: as written 100 frames are asked for, as intended 5. */
  lemma FrameNumCounterexample()
    ensures var meta := [Entry("approx_video_nframes", Int(100))];
      && FrameNumAsWritten([Entry("-vcodec", Str("h264"))], meta) == Ok(Some(Int(100)))
      && FrameNum([Entry("-frames:v", Int(5))], meta) == Ok(Some(Int(5)))
  {
    var meta := [Entry("approx_video_nframes", Int(100))];
    assert Keys([Entry("-vcodec", Str("h264"))]) == ["-vcodec"];
    assert Keys(meta) == ["approx_video_nframes"];
    assert Keys([Entry("-frames:v", Int(5))]) == ["-frames:v"];
  }

  /** Corrected: a positive `-frames:v` the user gives is the count the formulated pipeline's generator loops over. */
  lemma FrameNumHonoured(d: Decoder, vdecoders: Captured, pixfmts: Captured, stdout: seq<Byte>, v: Value)
    requires d.initializing && Formulate(d, vdecoders, pixfmts, stdout).Ok?
    requires PickFrames(Requested(d.settings.extra, "-vframes", "-frames:v")) == Ok([Entry("-frames:v", v)])
    ensures FrameNumOf(Formulate(d, vdecoders, pixfmts, stdout).value) == Some(v)
  {
    var supported := ParseVdecoders(vdecoders.stdout);
    var rows := ParsePixfmts(pixfmts.stdout).value;
    assert InputStage(d.settings, supported).value.frames == [Entry("-frames:v", v)];
  }

  // ---------------------------------------------------------------------------
  // 2. The fallback pixel format keeps the rejected format's depth

  /**
    `gray10le` has one 10-bit component, which is no supported sample size,
    so the default `rgb24` is used instead: as written with one component
    per pixel, a third of each frame, as intended with `rgb24`'s three.
   */
  lemma LayoutCounterexample()
    ensures var rows := [PixFmt("gray10le", "1", "10"), PixFmt("rgb24", "3", "24")];
      && LayoutAsWritten("gray10le", 1, 10, Str("rgb24")) == Ok(Layout(Str("rgb24"), 1, U1))
      && ChooseLayout("gray10le", 1, 10, Str("rgb24"), rows) == Ok(Layout(Str("rgb24"), 3, U1))
  {
    var rows := [PixFmt("gray10le", "1", "10"), PixFmt("rgb24", "3", "24")];
    assert FloorDiv(10, 1) == Ok(10);
    assert SampleType("gray10le", 10).None?;
    RgbRow(rows);
  }

  lemma RgbRow(rows: seq<PixFmt>)
    requires rows == [PixFmt("gray10le", "1", "10"), PixFmt("rgb24", "3", "24")]
    ensures RowOf(rows, Str("rgb24")) == Ok((3, 24))
  {
    assert Str(rows[0].name) != Str("rgb24");
    RgbConversions(rows[1..]);
  }

  lemma RgbConversions(rows: seq<PixFmt>)
    requires rows == [PixFmt("rgb24", "3", "24")]
    ensures Conversions(rows, Str("rgb24")) == Ok([(3, 24)])
  {
    RgbNumerals();
    assert rows[1..] == [];
    assert Conversions(rows[1..], Str("rgb24")) == Ok([]);
    assert Str(rows[0].name) == Str("rgb24");
    assert IntOfValue(Str(rows[0].components)) == Ok(3) && IntOfValue(Str(rows[0].bpp)) == Ok(24);
    assert [(3, 24)] + [] == [(3, 24)];
  }

  lemma RgbNumerals()
    ensures IntOfValue(Str("3")) == Ok(3) && IntOfValue(Str("24")) == Ok(24)
  {
    Numeral("3", 3);
    Numeral("24", 24);
  }

  lemma Numeral(s: string, n: nat)
    requires (|s| == 1 && IsDigit(s[0]) && n == DigitValue(s[0]))
          || (|s| == 2 && IsDigit(s[0]) && IsDigit(s[1]) && n == DigitValue(s[0]) * 10 + DigitValue(s[1]))
    ensures PyInt(s) == Some(n)
  {
    StripNoEdge(s);
    assert s[0] != '-' && s[0] != '+';
    assert AllDigits(s);
    if |s| == 1 {
      assert s[..0] == [];
      assert DigitsValue(s) == DigitsValue(s[..0]) * 10 + DigitValue(s[0]);
    } else {
      assert s[..1][..0] == [] && s[..1][0] == s[0];
      assert DigitsValue(s[..1]) == DigitValue(s[0]);
      assert DigitsValue(s) == DigitsValue(s[..1]) * 10 + DigitValue(s[1]);
    }
    assert PyInt(s) == Some(DigitsValue(s));
  }

  // ---------------------------------------------------------------------------
  // 3. Planar frames are never recognised

  /** Six samples of a one-row, two-pixel `yuv444p` frame: as written read as packed pixels, as intended gathered from the three planes. */
  lemma PlanarCounterexample()
    ensures var xs := [0, 1, 2, 3, 4, 5];
      && ShapeFrameAsWritten(xs, Str("yuv444p"), 2, 1, 3) == Ok(Cells([[[0, 1, 2], [3, 4, 5]]]))
      && ShapeFrame(xs, Str("yuv444p"), 2, 1, 3) == Ok(Cells([[[0, 2, 4], [1, 3, 5]]]))
  {
    var xs := [0, 1, 2, 3, 4, 5];
    assert "yuv444p"[0] == 'y' && "gray"[0] == 'g';
    assert !StartsWith("yuv444p", "gray");
    assert "yuv444p"[3..] == "444p";
    assert IsPlanar("yuv444p");
    PackedSix(xs);
    PlanarSix(xs);
  }

  lemma PackedSix(xs: seq<nat>)
    requires xs == [0, 1, 2, 3, 4, 5]
    ensures Reshape(xs, 1, 2, 3) == [[[0, 1, 2], [3, 4, 5]]]
  {
    var t := Reshape(xs, 1, 2, 3);
    forall w, d | 0 <= w < 2 && 0 <= d < 3
      ensures t[0][w][d] == 3 * w + d
    {
      ReshapeAt(xs, 1, 2, 3, 0, w, d, 3 * w + d);
    }
    assert |t| == 1 && |t[0]| == 2 && |t[0][0]| == 3 && |t[0][1]| == 3;
    assert t[0][0] == [t[0][0][0], t[0][0][1], t[0][0][2]] == [0, 1, 2];
    assert t[0][1] == [t[0][1][0], t[0][1][1], t[0][1][2]] == [3, 4, 5];
    assert t[0] == [t[0][0], t[0][1]];
  }

  lemma PlanarSix(xs: seq<nat>)
    requires xs == [0, 1, 2, 3, 4, 5]
    ensures Planar(xs, 1, 2, 3) == [[[0, 2, 4], [1, 3, 5]]]
  {
    var t := Planar(xs, 1, 2, 3);
    PlanarCells(xs, 1, 2, 3);
    forall w, d | 0 <= w < 2 && 0 <= d < 3
      ensures t[0][w][d] == 2 * d + w
    {
      assert PlaneOffset(0, w, d, 1, 2) == 2 * d + w;
    }
    assert |t| == 1 && |t[0]| == 2 && |t[0][0]| == 3 && |t[0][1]| == 3;
    assert t[0][0] == [t[0][0][0], t[0][0][1], t[0][0][2]] == [0, 2, 4];
    assert t[0][1] == [t[0][1][0], t[0][1][1], t[0][1][2]] == [1, 3, 5];
    assert t[0] == [t[0][0], t[0][1]];
  }

  // ---------------------------------------------------------------------------
  // 4. The reader is called with `ffmpeg_path`, which is not its parameter

  /**
    Whatever the reader options, the reader called as written gets a stray
    `ffmpeg_path` among its FFmpeg parameters, which also switches the probe
    to its parameterised form.
   */
  lemma StrayFfmpegPath(opts: Dict)
    requires ReaderCallAsWritten(opts).Ok?
    ensures !Has(opts, "custom_ffmpeg") ==> ReaderCallAsWritten(opts).value.customFfmpeg == Str("")
    ensures Has(ReaderParams(ReaderCallAsWritten(opts).value.params), "ffmpeg_path")
  {
    GetCons(Entry("ffmpeg_path", Str("")), opts, "custom_ffmpeg");
    StrayKept(ReaderCallAsWritten(opts).value.params, "ffmpeg_path");
  }

  /** The reader's own keys all start with a dash. */
  lemma NotReaderKey(key: string)
    requires |key| > 0 && key[0] != '-'
    ensures !ReaderKey(key)
  {
  }

  /**
    A first parameter whose key has no surrounding whitespace and no leading
    dash survives the reader's sanitising and popping.
   */
  lemma StrayKept(params: Dict, key: string)
    requires |params| > 0 && params[0].key == key
    requires |key| > 0 && key[0] != '-' && !IsSpace(key[0]) && !IsSpace(key[|key| - 1])
    ensures Has(ReaderParams(params), key)
  {
    StripNoEdge(key);
    NotReaderKey(key);
    LastCleanFound(params, 0, key);
    FoundKept(params, key);
  }

  /** A key the reader does not consume, given at all, is passed on to FFmpeg. */
  lemma FoundKept(params: Dict, key: string)
    requires !ReaderKey(key) && LastClean(params, key, true).Some?
    ensures Has(ReaderParams(params), key)
  {
    var rest := ReaderParams(params);
    assert Get(rest, key) == LastClean(params, key, true);
  }

  /** An entry whose stripped key is `key` makes the last cleaned value under `key` exist. */
  lemma {:induction false} LastCleanFound(d: Dict, i: nat, key: string)
    requires i < |d| && Strip(d[i].key) == key
    ensures LastClean(d, key, true).Some?
    decreases |d|
  {
    if Strip(d[|d| - 1].key) != key {
      assert d[..|d| - 1][i] == d[i];
      LastCleanFound(d[..|d| - 1], i, key);
    }
  }

  /**
    Corrected: with no reader options the reader called as intended has no
    FFmpeg parameters of its own, and the decoder's `custom_ffmpeg` reaches it.
   */
  lemma NoStrayParams(customFfmpeg: Value)
    ensures ReaderCallFor(ReaderOptions([]), customFfmpeg).Ok?
    ensures ReaderCallFor(ReaderOptions([]), customFfmpeg).value.customFfmpeg == customFfmpeg
    ensures ReaderParams(ReaderCallFor(ReaderOptions([]), customFfmpeg).value.params) == []
  {
    OnlyDownloadPath(customFfmpeg);
    DownloadPathPopped();
  }

  lemma OnlyDownloadPath(customFfmpeg: Value)
    ensures ReaderCallFor(ReaderOptions([]), customFfmpeg).Ok?
    ensures ReaderCallFor(ReaderOptions([]), customFfmpeg).value.params == [Entry("-ffmpeg_download_path", Str(""))]
  {
    assert ReaderOptions([]) == [Entry("-ffmpeg_download_path", Str(""))];
  }

  /** The reader pops its own `-ffmpeg_download_path`, leaving nothing. */
  lemma DownloadPathPopped()
    ensures ReaderParams([Entry("-ffmpeg_download_path", Str(""))]) == []
  {
    var params := [Entry("-ffmpeg_download_path", Str(""))];
    var rest := ReaderParams(params);
    forall key
      ensures !Has(rest, key)
    {
      if !ReaderKey(key) {
        OnlyPoppedKey(params, key);
        assert Get(rest, key) == None;
      }
    }
    NoKeysEmpty(rest);
  }

  /** The download path is the only key given, so no other key has a value. */
  lemma OnlyPoppedKey(params: Dict, key: string)
    requires params == [Entry("-ffmpeg_download_path", Str(""))] && !ReaderKey(key)
    ensures LastClean(params, key, true) == None
  {
    OtherKeyMissing(params, "-ffmpeg_download_path", Str(""), key);
  }

  /** A one-entry dictionary under an unpadded reader key holds nothing under any other key. */
  lemma OtherKeyMissing(params: Dict, k0: string, v: Value, key: string)
    requires params == [Entry(k0, v)] && ReaderKey(k0) && !ReaderKey(key)
    requires |k0| > 0 && !IsSpace(k0[0]) && !IsSpace(k0[|k0| - 1])
    ensures LastClean(params, key, true) == None
  {
    StripNoEdge(k0);
    assert Strip(params[0].key) != key;
    assert params[..0] == [];
  }

  lemma NoKeysEmpty(d: Dict)
    ensures (forall key :: !Has(d, key)) ==> d == []
  {
    if |d| > 0 {
      assert Keys(d)[0] == d[0].key;
      assert Has(d, d[0].key);
    }
  }
}

=== FILE: frames.dfy ===
/**
  Raw video frames as the decoder reads them from FFmpeg's standard output
  (`ffdecoder.py`): the bytes of one frame are turned into samples of the
  frame's data type and the samples into a height × width × component array
  in row-major order, as `numpy.frombuffer` and `reshape` do.
 */
module Frames {
  import opened Results

  type Byte = b: int | 0 <= b < 256

  /** The sample types a frame can have: one byte, or two bytes little- or big-endian; `NoDtype` when none was chosen. */
  datatype DType = U1 | U2LE | U2BE | NoDtype

  /** The bytes per sample. */
  function Itemsize(t: DType): nat
    requires t != NoDtype
  {
    if t == U1 then 1 else 2
  }

  /** The largest sample plus one. */
  function Bound(t: DType): nat
    requires t != NoDtype
  {
    if t == U1 then 256 else 65536
  }

  // ---------------------------------------------------------------------------
  // Bytes and samples

  /** The sample at byte offset `2 k`, in the byte order of `t`. */
  function Word(bs: seq<Byte>, k: nat, t: DType): nat
    requires t == U2LE || t == U2BE
    requires 2 * k + 1 < |bs|
  {
    if t == U2LE then bs[2 * k] as int + 256 * bs[2 * k + 1] as int else 256 * bs[2 * k] as int + bs[2 * k + 1] as int
  }

  /** `numpy.frombuffer`: the samples the bytes hold, whole samples only. */
  function Decode(bs: seq<Byte>, t: DType): (xs: seq<nat>)
    requires t != NoDtype && |bs| % Itemsize(t) == 0
    ensures |xs| * Itemsize(t) == |bs|
    ensures forall k :: 0 <= k < |xs| ==> xs[k] < Bound(t)
    ensures t == U1 ==> forall k :: 0 <= k < |xs| ==> xs[k] == bs[k]
    ensures t == U2LE ==> forall k :: 0 <= k < |xs| ==> xs[k] == bs[2 * k] as int + 256 * bs[2 * k + 1] as int
    ensures t == U2BE ==> forall k :: 0 <= k < |xs| ==> xs[k] == 256 * bs[2 * k] as int + bs[2 * k + 1] as int
  {
    if t == U1 then seq(|bs|, k requires 0 <= k < |bs| => bs[k] as nat)
    else seq(|bs| / 2, k requires 0 <= k < |bs| / 2 => Word(bs, k, t))
  }

  /** The byte at offset `j` of the encoding of `xs`. */
  function ByteAt(xs: seq<nat>, j: nat, t: DType): Byte
    requires t != NoDtype && j < |xs| * Itemsize(t)
    requires forall k :: 0 <= k < |xs| ==> xs[k] < Bound(t)
  {
    if t == U1 then
      assert xs[j] < Bound(t);
      xs[j]
    else
      assert j / 2 < |xs|;
      var x := xs[j / 2];
      assert x < Bound(t);
      var low := j % 2 == (if t == U2LE then 0 else 1);
      if low then x % 256 else x / 256
  }

  /** The bytes that hold the samples, the inverse of `Decode`. */
  function Encode(xs: seq<nat>, t: DType): (bs: seq<Byte>)
    requires t != NoDtype
    requires forall k :: 0 <= k < |xs| ==> xs[k] < Bound(t)
    ensures |bs| == |xs| * Itemsize(t)
  {
    seq(|xs| * Itemsize(t), j requires 0 <= j < |xs| * Itemsize(t) => ByteAt(xs, j, t))
  }

  /** Decoding the encoding of samples gives the samples back. */
  lemma DecodeEncode(xs: seq<nat>, t: DType)
    requires t != NoDtype
    requires forall k :: 0 <= k < |xs| ==> xs[k] < Bound(t)
    ensures Decode(Encode(xs, t), t) == xs
  {
    var ys := Decode(Encode(xs, t), t);
    forall k | 0 <= k < |xs|
      ensures ys[k] == xs[k]
    {
      SampleBack(xs, t, k);
    }
  }

  /** One sample survives encoding and decoding. */
  lemma SampleBack(xs: seq<nat>, t: DType, k: nat)
    requires t != NoDtype && k < |xs|
    requires forall j :: 0 <= j < |xs| ==> xs[j] < Bound(t)
    ensures |Decode(Encode(xs, t), t)| == |xs| && Decode(Encode(xs, t), t)[k] == xs[k]
  {
    var bs := Encode(xs, t);
    if t != U1 {
      Halves(k);
      assert bs[2 * k] == ByteAt(xs, 2 * k, t);
      assert bs[2 * k + 1] == ByteAt(xs, 2 * k + 1, t);
    }
  }

  lemma Halves(k: nat)
    ensures (2 * k) / 2 == k && (2 * k) % 2 == 0 && (2 * k + 1) / 2 == k && (2 * k + 1) % 2 == 1
  {
  }

  /** Encoding the samples bytes hold gives the bytes back. */
  lemma EncodeDecode(bs: seq<Byte>, t: DType)
    requires t != NoDtype && |bs| % Itemsize(t) == 0
    ensures Encode(Decode(bs, t), t) == bs
  {
    var xs := Decode(bs, t);
    var cs := Encode(xs, t);
    forall j | 0 <= j < |bs|
      ensures cs[j] == bs[j]
    {
      if t != U1 {
        var k := j / 2;
        assert j == 2 * k || j == 2 * k + 1;
      }
    }
  }

  // ---------------------------------------------------------------------------
  // Row-major arrays

  lemma MulAtLeast(k: int, m: int)
    requires k >= 1 && m > 0
    ensures k * m >= m
  {
  }

  lemma MulSub(a: int, q: int, m: int)
    ensures (a - q) * m == a * m - q * m
  {
  }

  /** Division by a positive number has exactly one quotient and remainder. */
  lemma DivUnique(i: int, m: int, a: int, c: int)
    requires m > 0 && 0 <= c < m && i == a * m + c
    ensures i / m == a && i % m == c
  {
    var q, r := i / m, i % m;
    assert i == q * m + r && 0 <= r < m;
    MulSub(a, q, m);
    MulSub(q, a, m);
    if a > q {
      MulAtLeast(a - q, m);
      assert false;
    } else if a < q {
      MulAtLeast(q - a, m);
      assert false;
    }
  }

  lemma Distribute(h: int, w: int, W: int, D: int)
    ensures (h * W + w) * D == h * (W * D) + w * D
  {
  }

  /** The row-major offset of an in-range cell is in range. */
  lemma RowMajor(h: nat, w: nat, d: nat, H: nat, W: nat, D: nat)
    requires h < H && w < W && d < D
    ensures (h * W + w) * D + d < H * W * D
  {
    var a := h * W + w;
    StepBelow(h, w, W, H);
    StepBelow(a, d, D, H * W);
  }

  /** A row index below `H` and a column below `W` give an offset below `H * W`. */
  lemma StepBelow(h: nat, w: nat, W: nat, H: nat)
    requires h < H && w < W
    ensures h * W + w < H * W
  {
    assert (h + 1) * W == h * W + W;
    MulMono(h + 1, H, W);
  }

  lemma MulMono(x: nat, y: nat, k: nat)
    requires x <= y
    ensures x * k <= y * k
  {
  }

  /** The cell's coordinates are recovered from its row-major offset. */
  lemma OffsetCoordinates(h: nat, w: nat, d: nat, W: nat, D: nat)
    requires w < W && d < D
    ensures var i := (h * W + w) * D + d;
      i / (W * D) == h && (i / D) % W == w && i % D == d
  {
    var i := (h * W + w) * D + d;
    Distribute(h, w, W, D);
    assert w * D + d < W * D by {
      assert w * D <= (W - 1) * D;
    }
    DivUnique(i, W * D, h, w * D + d);
    assert i == (h * W + w) * D + d;
    DivUnique(i, D, h * W + w, d);
    DivUnique(h * W + w, W, h, w);
  }

  lemma Associate(H: int, W: int, D: int)
    ensures H * W * D == H * (W * D)
  {
  }

  /** A quotient by `M` of a number below `H M` is below `H`. */
  lemma QuotientBelow(i: nat, M: nat, H: nat)
    requires M > 0 && i < H * M
    ensures i / M < H
  {
    var q := i / M;
    assert q * M <= i;
    if q >= H {
      MulSub(q, H, M);
      if q > H { MulAtLeast(q - H, M); }
      assert false;
    }
  }

  /** The dimensions of a non-empty array are positive. */
  lemma NonEmptyDims(H: nat, W: nat, D: nat)
    requires H * W * D > 0
    ensures W > 0 && D > 0
  {
    ZeroDims(H, W, D);
  }

  lemma ZeroDims(H: nat, W: nat, D: nat)
    ensures W == 0 || D == 0 ==> H * W * D == 0
  {
  }

  /** Every offset below `H W D` is the row-major offset of one cell. */
  lemma Coordinates(i: nat, H: nat, W: nat, D: nat)
    requires i < H * W * D
    ensures W > 0 && D > 0
    ensures i / (W * D) < H && (i / D) % W < W && i % D < D
    ensures ((i / (W * D)) * W + (i / D) % W) * D + i % D == i
  {
    NonEmptyDims(H, W, D);
    var q, d := i / D, i % D;
    DivMod(i, D);
    var h, w := q / W, q % W;
    DivMod(q, W);
    Recompose(i, q, d, h, w, W, D);
    OffsetCoordinates(h, w, d, W, D);
    Associate(H, W, D);
    QuotientBelow(i, W * D, H);
  }

  lemma DivMod(a: nat, b: nat)
    requires b > 0
    ensures a == (a / b) * b + a % b && a % b < b
  {
  }

  lemma Recompose(i: nat, q: nat, d: nat, h: nat, w: nat, W: nat, D: nat)
    requires i == q * D + d && q == h * W + w
    ensures i == (h * W + w) * D + d
  {
  }

  /** A shape check: `H` rows of `W` cells of `D` components. */
  predicate Shaped(t: seq<seq<seq<nat>>>, H: nat, W: nat, D: nat) {
    |t| == H && forall h :: 0 <= h < H ==> |t[h]| == W && forall w :: 0 <= w < W ==> |t[h][w]| == D
  }

  /** `reshape((H, W, D))`: cell `[h][w][d]` is sample `(h W + w) D + d`. */
  function Reshape(xs: seq<nat>, H: nat, W: nat, D: nat): (t: seq<seq<seq<nat>>>)
    requires |xs| == H * W * D
    ensures Shaped(t, H, W, D)
  {
    seq(H, h requires 0 <= h < H =>
      seq(W, w requires 0 <= w < W =>
        seq(D, d requires 0 <= d < D => RowMajor(h, w, d, H, W, D); xs[(h * W + w) * D + d])))
  }

  /** The samples of an array in row-major order, the inverse of `Reshape`. */
  function Flatten(t: seq<seq<seq<nat>>>, H: nat, W: nat, D: nat): (xs: seq<nat>)
    requires Shaped(t, H, W, D)
    ensures |xs| == H * W * D
  {
    seq(H * W * D, i requires 0 <= i < H * W * D =>
      Coordinates(i, H, W, D);
      t[i / (W * D)][(i / D) % W][i % D])
  }

  lemma ReshapeAt(xs: seq<nat>, H: nat, W: nat, D: nat, h: nat, w: nat, d: nat, k: nat)
    requires |xs| == H * W * D && h < H && w < W && d < D && k == (h * W + w) * D + d
    ensures k < |xs| && Reshape(xs, H, W, D)[h][w][d] == xs[k]
  {
    RowMajor(h, w, d, H, W, D);
  }

  lemma FlattenAt(t: seq<seq<seq<nat>>>, H: nat, W: nat, D: nat, i: nat)
    requires Shaped(t, H, W, D) && i < H * W * D
    ensures W > 0 && D > 0 && i / (W * D) < H && (i / D) % W < W && i % D < D
    ensures Flatten(t, H, W, D)[i] == t[i / (W * D)][(i / D) % W][i % D]
  {
    Coordinates(i, H, W, D);
  }

  /** Flattening a reshaped frame gives its samples back. */
  lemma FlattenReshape(xs: seq<nat>, H: nat, W: nat, D: nat)
    requires |xs| == H * W * D
    ensures Flatten(Reshape(xs, H, W, D), H, W, D) == xs
  {
    var t := Reshape(xs, H, W, D);
    var ys := Flatten(t, H, W, D);
    forall i | 0 <= i < |xs|
      ensures ys[i] == xs[i]
    {
      FlattenAt(t, H, W, D, i);
      Coordinates(i, H, W, D);
      ReshapeAt(xs, H, W, D, i / (W * D), (i / D) % W, i % D, i);
    }
  }

  /** Reshaping a flattened array gives the array back. */
  lemma ReshapeFlatten(t: seq<seq<seq<nat>>>, H: nat, W: nat, D: nat)
    requires Shaped(t, H, W, D)
    ensures Reshape(Flatten(t, H, W, D), H, W, D) == t
  {
    var u := Reshape(Flatten(t, H, W, D), H, W, D);
    forall h, w, d | 0 <= h < H && 0 <= w < W && 0 <= d < D
      ensures u[h][w][d] == t[h][w][d]
    {
      RowMajor(h, w, d, H, W, D);
      OffsetCoordinates(h, w, d, W, D);
    }
    forall h | 0 <= h < H
      ensures u[h] == t[h]
    {
      forall w | 0 <= w < W
        ensures u[h][w] == t[h][w]
      {
      }
    }
  }

  /** `reshape((D, H, W)).transpose((1, 2, 0))`: cell `[h][w][d]` is sample `(d H + h) W + w` of a planar frame. */
  function Planar(xs: seq<nat>, H: nat, W: nat, D: nat): (t: seq<seq<seq<nat>>>)
    requires |xs| == H * W * D
    ensures Shaped(t, H, W, D)
  {
    Commute(H, W, D);
    seq(H, h requires 0 <= h < H =>
      seq(W, w requires 0 <= w < W =>
        seq(D, d requires 0 <= d < D => RowMajor(d, h, w, D, H, W); xs[(d * H + h) * W + w])))
  }

  lemma Commute(H: int, W: int, D: int)
    ensures H * W * D == D * H * W
  {
  }

  /** `frame[:, :, 0]`: the first component of every cell; an array without components has none to take. */
  function FirstComponent(t: seq<seq<seq<nat>>>, H: nat, W: nat, D: nat): (r: Result<seq<seq<nat>>>)
    requires Shaped(t, H, W, D)
    ensures r.Err? <==> D == 0
    ensures r.Err? ==> r.error == IndexError
    ensures r.Ok? ==> |r.value| == H && forall h :: 0 <= h < H ==>
      |r.value[h]| == W && forall w :: 0 <= w < W ==> r.value[h][w] == t[h][w][0]
  {
    if D == 0 then Err(IndexError)
    else Ok(seq(H, h requires 0 <= h < H => seq(W, w requires 0 <= w < W => t[h][w][0])))
  }

  // ---------------------------------------------------------------------------
  // Reading one frame

  /** The bytes a read of `n` bytes returns from a stream of `available`: all of them for a negative `n`. */
  function Taken(available: nat, n: int): (k: nat)
    ensures k <= available
    ensures 0 <= n <= available ==> k == n
  {
    if n < 0 || n > available then available else n
  }

  /**
    `__fetchNextfromPipeline` after the running check: read `size` samples'
    worth of bytes, decode them, and hand back the samples when they make a
    whole frame and nothing otherwise. A missing data type or a read that
    ends inside a sample is a `RuntimeError`, as the failed conversion is
    reported.
   */
  function ReadFrame(stream: seq<Byte>, size: int, t: DType): (r: Result<(Option<seq<nat>>, seq<Byte>)>)
    ensures t == NoDtype ==> r == Err(RuntimeError)
    ensures r.Err? ==> r.error == RuntimeError
    ensures t != NoDtype && 0 <= size && size * Itemsize(t) <= |stream| ==>
      r.Ok? && r.value.0.Some? && |r.value.0.value| == size
      && (forall k :: 0 <= k < size ==> r.value.0.value[k] < Bound(t))
      && stream == Encode(r.value.0.value, t) + r.value.1
    ensures t != NoDtype && !(0 <= size && size * Itemsize(t) <= |stream|) ==>
      (r.Ok? <==> |stream| % Itemsize(t) == 0) && (r.Ok? ==> r.value == (None, []))
  {
    if t == NoDtype then Err(RuntimeError)
    else
      var k := Taken(|stream|, size * Itemsize(t));
      if k % Itemsize(t) != 0 then Err(RuntimeError)
      else
        var samples := Decode(stream[..k], t);
        EncodeDecode(stream[..k], t);
        assert stream == stream[..k] + stream[k..];
        Ok((if |samples| == size then Some(samples) else None, stream[k..]))
  }
}

=== FILE: py.dfy ===
/**
  The dynamically typed values that flow through the parameter dictionaries
  and the metadata dictionary, with the few built-in behaviours the code
  depends on: `isinstance` tests, truthiness, `str()`, and the insertion-ordered
  dictionary operations (`in`, `[]`, assignment, `pop`, `update`).
 */
module Py {
  import opened Results
  import opened Text

  datatype Value =
    | Str(s: string)
    | Int(i: int)
    | Bool(b: bool)
    | Float(r: real)
    | NoneV
    | List(items: seq<Value>)
    | Tuple(items: seq<Value>)
    | DictV(entries: seq<Entry>)

  datatype Entry = Entry(key: string, val: Value)

  /** An insertion-ordered dictionary with string keys. */
  type Dict = seq<Entry>

  /** `isinstance(v, int)`; a boolean is an integer. */
  predicate IsInt(v: Value) {
    v.Int? || v.Bool?
  }

  function IntOf(v: Value): int
    requires IsInt(v)
  {
    if v.Int? then v.i else if v.b then 1 else 0
  }

  /** `isinstance(v, (float, int))`. */
  predicate IsNumber(v: Value) {
    IsInt(v) || v.Float?
  }

  function NumberOf(v: Value): real
    requires IsNumber(v)
  {
    if v.Float? then v.r else IntOf(v) as real
  }

  /** `bool(v)`. */
  predicate Truthy(v: Value) {
    match v
    case Str(s) => |s| > 0
    case Int(i) => i != 0
    case Bool(b) => b
    case Float(r) => r != 0.0
    case NoneV => false
    case List(items) => |items| > 0
    case Tuple(items) => |items| > 0
    case DictV(entries) => |entries| > 0
  }

  /** `v in names` for a list of strings. */
  predicate InNames(v: Value, names: seq<string>) {
    v.Str? && v.s in names
  }

  /** `v > 0`: `None` for the `TypeError` a non-number raises. */
  function GreaterThanZero(v: Value): Option<bool> {
    if IsNumber(v) then Some(NumberOf(v) > 0.0) else None
  }

  // ---------------------------------------------------------------------------
  // str()

  /** The digits after the point of a fraction in [0, 1), at most `fuel` of them. */
  function FracDigits(f: real, fuel: nat): (r: string)
    requires 0.0 <= f < 1.0
    ensures AllDigits(r) && |r| <= fuel
    decreases fuel
  {
    if fuel == 0 || f == 0.0 then ""
    else
      var d := (f * 10.0).Floor;
      assert 0 <= d < 10;
      [DigitChar(d)] + FracDigits(f * 10.0 - d as real, fuel - 1)
  }

  /**
    `str(x)` for a float held as an exact real: integral part, a point, and the
    fraction digits (at least one, at most 17).
   */
  function FloatText(x: real): (r: string)
    ensures |r| >= 3
  {
    var a := if x < 0.0 then -x else x;
    var w := a.Floor;
    var fd := FracDigits(a - w as real, 17);
    (if x < 0.0 then "-" else "") + NatToString(w) + "." + (if fd == "" then "0" else fd)
  }

  /** `str(v)`. */
  function PyStr(v: Value): string
    decreases v, 1
  {
    match v
    case Str(s) => s
    case Int(i) => IntToString(i)
    case Bool(b) => if b then "True" else "False"
    case Float(r) => FloatText(r)
    case NoneV => "None"
    case List(items) => "[" + Join(ReprAll(v, items), ", ") + "]"
    case Tuple(items) =>
      "(" + Join(ReprAll(v, items), ", ") + (if |items| == 1 then ",)" else ")")
    case DictV(entries) => "{" + Join(ReprEntries(v, entries), ", ") + "}"
  }

  /** `repr(v)`: strings are quoted, everything else prints as with `str()`. */
  function Repr(v: Value): string
    decreases v, 2
  {
    if v.Str? then "'" + v.s + "'" else PyStr(v)
  }

  function ReprAll(parent: Value, items: seq<Value>): seq<string>
    requires forall k :: 0 <= k < |items| ==> items[k] < parent
    decreases parent, 0
  {
    seq(|items|, k requires 0 <= k < |items| => Repr(items[k]))
  }

  function ReprEntries(parent: Value, entries: seq<Entry>): seq<string>
    requires forall k :: 0 <= k < |entries| ==> entries[k].val < parent
    decreases parent, 0
  {
    seq(|entries|, k requires 0 <= k < |entries| => "'" + entries[k].key + "': " + Repr(entries[k].val))
  }

  // ---------------------------------------------------------------------------
  // Insertion-ordered dictionaries

  function Keys(d: Dict): (ks: seq<string>)
    ensures |ks| == |d| && forall k :: 0 <= k < |d| ==> ks[k] == d[k].key
  {
    seq(|d|, k requires 0 <= k < |d| => d[k].key)
  }

  /** `key in d`. */
  predicate Has(d: Dict, key: string) {
    key in Keys(d)
  }

  predicate UniqueKeys(d: Dict) {
    forall a, b :: 0 <= a < b < |d| ==> d[a].key != d[b].key
  }

  /** `d.get(key)`: the value of the first entry with that key. */
  function Get(d: Dict, key: string): (r: Option<Value>)
    ensures r.Some? <==> Has(d, key)
    ensures r.Some? ==> Entry(key, r.value) in d
    decreases |d|
  {
    if |d| == 0 then None
    else if d[0].key == key then Some(d[0].val)
    else
      var r := Get(d[1..], key);
      assert Keys(d) == [d[0].key] + Keys(d[1..]);
      r
  }

  /** `d[key] = v`: replaces the value in place when the key is present, otherwise appends. */
  function Set(d: Dict, key: string, v: Value): (r: Dict)
    decreases |d|
  {
    if |d| == 0 then [Entry(key, v)]
    else if d[0].key == key then [Entry(key, v)] + d[1..]
    else [d[0]] + Set(d[1..], key, v)
  }

  /** `d.pop(key, default)`: the dictionary without the key. */
  function Pop(d: Dict, key: string): (r: Dict)
    ensures |r| <= |d|
    decreases |d|
  {
    if |d| == 0 then []
    else if d[0].key == key then Pop(d[1..], key)
    else [d[0]] + Pop(d[1..], key)
  }

  /** `d.pop(key, default)`: the value removed, or the default. */
  function PopValue(d: Dict, key: string, default: Value): Value {
    match Get(d, key)
    case Some(v) => v
    case None => default
  }

  /** `d.update(e)`: assigns every entry of `e`, in order. */
  function UpdateWith(d: Dict, e: Dict): Dict
    decreases |e|
  {
    if |e| == 0 then d else UpdateWith(Set(d, e[0].key, e[0].val), e[1..])
  }

  /** After `d[key] = v`, looking `key` up gives `v`, and every other key is unchanged. */
  lemma {:induction false} GetSet(d: Dict, key: string, v: Value, other: string)
    ensures Get(Set(d, key, v), key) == Some(v)
    ensures other != key ==> Get(Set(d, key, v), other) == Get(d, other)
    decreases |d|
  {
    if |d| > 0 && d[0].key != key {
      GetSet(d[1..], key, v, other);
      assert Set(d, key, v)[1..] == Set(d[1..], key, v);
    }
  }

  lemma KeysCons(e: Entry, d: Dict)
    ensures Keys([e] + d) == [e.key] + Keys(d)
  {
  }

  /** Assignment keeps the keys of the dictionary in their order, appending a new key at the end. */
  lemma {:induction false} KeysSet(d: Dict, key: string, v: Value)
    ensures Has(d, key) ==> Keys(Set(d, key, v)) == Keys(d)
    ensures !Has(d, key) ==> Keys(Set(d, key, v)) == Keys(d) + [key]
    decreases |d|
  {
    if |d| > 0 {
      assert d == [d[0]] + d[1..];
      KeysCons(d[0], d[1..]);
      if d[0].key != key {
        KeysSet(d[1..], key, v);
        KeysCons(d[0], Set(d[1..], key, v));
      } else {
        KeysCons(Entry(key, v), d[1..]);
      }
    }
  }

  /** Assignment keeps every key of the dictionary distinct. */
  lemma SetKeepsUnique(d: Dict, key: string, v: Value)
    requires UniqueKeys(d)
    ensures UniqueKeys(Set(d, key, v))
  {
    var r := Set(d, key, v);
    KeysSet(d, key, v);
    forall a, b | 0 <= a < b < |r|
      ensures r[a].key != r[b].key
    {
      assert r[a].key == Keys(r)[a] && r[b].key == Keys(r)[b];
      if b < |d| {
        assert Keys(d)[a] == d[a].key && Keys(d)[b] == d[b].key;
      } else {
        assert Keys(d)[a] == d[a].key;
      }
    }
  }

  /** After `d.pop(key)` the key is gone and every other key is unchanged. */
  lemma {:induction false} GetPop(d: Dict, key: string, other: string)
    ensures !Has(Pop(d, key), key)
    ensures other != key ==> Get(Pop(d, key), other) == Get(d, other)
    decreases |d|
  {
    if |d| > 0 {
      GetPop(d[1..], key, other);
      if d[0].key != key {
        assert Keys(Pop(d, key)) == [d[0].key] + Keys(Pop(d[1..], key));
      }
    }
  }

  /** The value the last entry with that key carries, if there is one. */
  function LastValue(e: Dict, key: string): (r: Option<Value>)
    ensures r.Some? <==> Has(e, key)
    decreases |e|
  {
    if |e| == 0 then None
    else
      assert Keys(e) == [e[0].key] + Keys(e[1..]);
      match LastValue(e[1..], key)
      case Some(v) => Some(v)
      case None => if e[0].key == key then Some(e[0].val) else None
  }

  /** After `d.update(e)` a key takes its last value in `e`, and a key `e` lacks keeps its value in `d`. */
  lemma {:induction false} GetUpdate(d: Dict, e: Dict, key: string)
    ensures Get(UpdateWith(d, e), key) == (if Has(e, key) then LastValue(e, key) else Get(d, key))
    decreases |e|
  {
    if |e| > 0 {
      GetUpdate(Set(d, e[0].key, e[0].val), e[1..], key);
      GetSet(d, e[0].key, e[0].val, key);
      assert Keys(e) == [e[0].key] + Keys(e[1..]);
    }
  }

  /** `d.pop(k)` for every `k` of `keys`. */
  function PopAll(d: Dict, keys: seq<string>): Dict
    decreases |keys|
  {
    if |keys| == 0 then d else PopAll(Pop(d, keys[0]), keys[1..])
  }

  /** After popping keys, those keys are gone and every other key is unchanged. */
  lemma {:induction false} GetPopAll(d: Dict, keys: seq<string>, key: string)
    ensures key in keys ==> !Has(PopAll(d, keys), key)
    ensures key !in keys ==> Get(PopAll(d, keys), key) == Get(d, key)
    decreases |keys|
  {
    if |keys| > 0 {
      GetPopAll(Pop(d, keys[0]), keys[1..], key);
      GetPop(d, keys[0], key);
      if key == keys[0] && key !in keys[1..] {
        assert !Has(Pop(d, keys[0]), key);
        assert Get(Pop(d, keys[0]), key).None?;
      }
    }
  }
}

=== FILE: results.dfy ===
/**
  Failure-compatible datatypes shared by the whole model.

  The system is written in a language with exceptions; every operation that
  can raise returns a `Result` here, and `PyError` names the exception class
  the Python code raises on that path.
 */
module Results {

  datatype Option<+T> = None | Some(value: T)

  /** The exception classes that the modelled code can raise. */
  datatype PyError =
    | ValueError
    | RuntimeError
    | AssertionError
    | IndexError
    | KeyError
    | TypeError
    | AttributeError
    | ZeroDivisionError
    | CalledProcessError(code: int)

  datatype Result<+T> = Ok(value: T) | Err(error: PyError) {

    predicate IsFailure() {
      Err?
    }

    function PropagateFailure<U>(): Result<U>
      requires Err?
    {
      Err(error)
    }

    function Extract(): T
      requires Ok?
    {
      value
    }
  }
}

=== FILE: scan.dfy ===
/**
  The regular expressions used to read FFmpeg's diagnostic text, as explicit
  scanners.

  Each pattern is deterministic at a given start position: the character
  classes of neighbouring parts are disjoint, so backtracking never changes the
  outcome, and `MatchAt` can follow each greedy or lazy part directly. `FindFirst`
  and `FindAll` then give `re.search`/`re.findall` their leftmost-first,
  non-overlapping meaning. `\d` and `\w` are ASCII; `\s` is the full whitespace set.
 */
module Scan {
  import opened Results
  import opened Text

  /** The character classes that occur inside repetitions. */
  datatype CharClass =
    | Digit        // \d, [0-9]
    | Space        // \s
    | Word         // \w
    | Name         // [a-z0-9_-]
    | DemuxName    // [a-z0-9_,-]
    | Upper        // [A-Z]
    | Dot          // [\.]
    | NotNewline   // .
    | DigitDot     // [\d\.\d]


  predicate InClass(c: char, cls: CharClass) {
    match cls
    case Digit => IsDigit(c)
    case Space => IsSpace(c)
    case Word => IsWord(c)
    case Name => IsLower(c) || IsDigit(c) || c == '_' || c == '-'
    case DemuxName => IsLower(c) || IsDigit(c) || c == '_' || c == ',' || c == '-'
    case Upper => IsUpper(c)
    case Dot => c == '.'
    case NotNewline => c != '\n'
    case DigitDot => IsDigit(c) || c == '.'

  }

  /** End of the longest run of `cls` characters starting at `i` (a greedy `*`). */
  function RunEnd(s: string, i: nat, cls: CharClass): (j: nat)
    requires i <= |s|
    ensures i <= j <= |s|
    ensures forall k :: i <= k < j ==> InClass(s[k], cls)
    ensures j < |s| ==> !InClass(s[j], cls)
    decreases |s| - i
  {
    if i < |s| && InClass(s[i], cls) then RunEnd(s, i + 1, cls) else i
  }

  /** A run of `cls` characters from `i` to `j` that cannot be extended is the greedy run. */
  lemma {:induction false} RunEndIs(s: string, i: nat, j: nat, cls: CharClass)
    requires i <= j <= |s|
    requires forall k :: i <= k < j ==> InClass(s[k], cls)
    requires j < |s| ==> !InClass(s[j], cls)
    ensures RunEnd(s, i, cls) == j
    decreases j - i
  {
    if i < j {
      RunEndIs(s, i + 1, j, cls);
    }
  }

  /** The patterns of the probing and capability parsers. */
  datatype Pattern =
    | VideoBitrate    // ,\s[0-9]+\s\w\w[\/]s
    | AudioBitrate    // fltp,\s[0-9]+\s\w\w[\/]s
    | SampleRate      // ,\s[0-9]+\sHz
    | VideoCodec      // Video:\s[a-z0-9_-]*
    | PixelFormat     // ,\s[a-z][a-z0-9_-]*
    | Resolution      // ([1-9]\d+)x([1-9]\d+)
    | Rate(unit: string)  // \d+(?:\.\d+)?\s<unit>, unit "fps" or "tbr"
    | Duration        // (?:[01]\d|2[0123]):[0-5]\d:[0-5]\d+(?:\.\d+)?
    | DemuxerRow      // \s\s[a-z0-9_,-]+\s+
    | DecoderRow      // [A-Z]*[\.]+[A-Z]*\s[a-z0-9_-]*
    | PixfmtRow       // ([A-Z]*[\.]+[A-Z]*\s[a-z0-9_-]*)(\s+[0-4])(\s+[0-9]+)
    | PipeFormat      // \w+_pipe
    | Quoted          // "(.*?[^\\])"
    | IndexedDevice   // \[[0-9]\](.*)

  /** `\s[0-9]+\s\w\w[\/]s` at `i`. */
  function BitrateTail(s: string, i: nat): (r: Option<nat>)
    requires i <= |s|
    ensures r.Some? ==> i < r.value <= |s|
  {
    if i < |s| && IsSpace(s[i]) then
      var d := RunEnd(s, i + 1, Digit);
      if d > i + 1 && d + 5 <= |s| && IsSpace(s[d]) && IsWord(s[d + 1]) && IsWord(s[d + 2])
         && s[d + 3] == '/' && s[d + 4] == 's'
      then Some(d + 5) else None
    else None
  }

  /** `(?:\.\d+)?` after position `a`: taken whenever a point is followed by a digit. */
  function FractionEnd(s: string, a: nat): (e: nat)
    requires a <= |s|
    ensures a <= e <= |s|
  {
    if a + 1 < |s| && s[a] == '.' && IsDigit(s[a + 1]) then RunEnd(s, a + 1, Digit) else a
  }

  /** The `[A-Z]*[\.]+[A-Z]*\s[a-z0-9_-]*` prefix of a decoder or pixel-format row. */
  function DecoderRowEnd(s: string, i: nat): (r: Option<nat>)
    requires i <= |s|
    ensures r.Some? ==> i < r.value <= |s|
  {
    var a := RunEnd(s, i, Upper);
    var b := RunEnd(s, a, Dot);
    var c := RunEnd(s, b, Upper);
    if b > a && c < |s| && IsSpace(s[c]) then Some(RunEnd(s, c + 1, Name)) else None
  }

  /** The second group of the pixel-format row pattern ends one past the component digit. */
  function PixfmtComponentsEnd(s: string, n: nat): (r: Option<nat>)
    requires n <= |s|
    ensures r.Some? ==> n < r.value <= |s|
  {
    var a := RunEnd(s, n, Space);
    if a > n && a < |s| && '0' <= s[a] <= '4' then Some(a + 1) else None
  }

  /** Of the word run `[i, w)`, the largest `j > i` with `_pipe` at `j` (greedy `\w+` backing off). */
  function LastPipe(s: string, i: nat, j: int): (r: Option<nat>)
    requires i <= |s| && j + 5 <= |s|
    ensures r.Some? ==> i < r.value <= j && OccursAt(s, "_pipe", r.value)
    ensures r.Some? ==> forall k :: r.value < k <= j ==> !OccursAt(s, "_pipe", k)
    ensures r.None? ==> forall k :: i < k <= j ==> !OccursAt(s, "_pipe", k)
    decreases j
  {
    if j <= i then None
    else if OccursAt(s, "_pipe", j) then Some(j)
    else LastPipe(s, i, j - 1)
  }

  /** The lazy `.*?[^\\]"` of a quoted name, tried from `k`. */
  function QuoteClose(s: string, k: nat): (r: Option<nat>)
    requires k <= |s|
    ensures r.Some? ==> k + 2 <= r.value <= |s| && s[r.value - 1] == '"' && s[r.value - 2] != '\\'
    ensures r.Some? ==> forall m :: k <= m < r.value - 2 ==> s[m] != '\n'
    decreases |s| - k
  {
    if k + 1 >= |s| then None
    else if s[k] != '\\' && s[k + 1] == '"' then Some(k + 2)
    else if s[k] == '\n' then None
    else QuoteClose(s, k + 1)
  }

  function SampleRateAt(s: string, i: nat): (r: Option<nat>)
    requires i <= |s|
    ensures r.Some? ==> i < r.value <= |s|
  {
    if i + 2 <= |s| && s[i] == ',' && IsSpace(s[i + 1]) then
      var d := RunEnd(s, i + 2, Digit);
      if d > i + 2 && d + 3 <= |s| && IsSpace(s[d]) && s[d + 1] == 'H' && s[d + 2] == 'z'
      then Some(d + 3) else None
    else None
  }

  function ResolutionAt(s: string, i: nat): (r: Option<nat>)
    requires i <= |s|
    ensures r.Some? ==> i < r.value <= |s|
  {
    if i < |s| && '1' <= s[i] <= '9' then
      var a := RunEnd(s, i + 1, Digit);
      if a >= i + 2 && a + 1 < |s| && s[a] == 'x' && '1' <= s[a + 1] <= '9' then
        var b := RunEnd(s, a + 2, Digit);
        if b >= a + 3 then Some(b) else None
      else None
    else None
  }

  function RateAt(unit: string, s: string, i: nat): (r: Option<nat>)
    requires i <= |s|
    ensures r.Some? ==> i < r.value <= |s|
  {
    var a := RunEnd(s, i, Digit);
    var f := FractionEnd(s, a);
    if a > i && f < |s| && IsSpace(s[f]) && OccursAt(s, unit, f + 1)
    then Some(f + 1 + |unit|) else None
  }

  function DurationAt(s: string, i: nat): (r: Option<nat>)
    requires i <= |s|
    ensures r.Some? ==> i < r.value <= |s|
  {
    if i + 8 <= |s|
       && ((('0' <= s[i] <= '1') && IsDigit(s[i + 1])) || (s[i] == '2' && '0' <= s[i + 1] <= '3'))
       && s[i + 2] == ':' && '0' <= s[i + 3] <= '5' && IsDigit(s[i + 4])
       && s[i + 5] == ':' && '0' <= s[i + 6] <= '5'
    then
      var a := RunEnd(s, i + 7, Digit);
      if a > i + 7 then Some(FractionEnd(s, a)) else None
    else None
  }

  function DemuxerRowAt(s: string, i: nat): (r: Option<nat>)
    requires i <= |s|
    ensures r.Some? ==> i < r.value <= |s|
  {
    if i + 2 <= |s| && IsSpace(s[i]) && IsSpace(s[i + 1]) then
      var a := RunEnd(s, i + 2, DemuxName);
      var b := RunEnd(s, a, Space);
      if a > i + 2 && b > a then Some(b) else None
    else None
  }

  function PixfmtRowAt(s: string, i: nat): (r: Option<nat>)
    requires i <= |s|
    ensures r.Some? ==> i < r.value <= |s|
  {
    match DecoderRowEnd(s, i)
    case None => None
    case Some(n) =>
      (match PixfmtComponentsEnd(s, n)
       case None => None
       case Some(m) =>
         var b := RunEnd(s, m, Space);
         var c := RunEnd(s, b, Digit);
         if b > m && c > b then Some(c) else None)
  }

  function PipeFormatAt(s: string, i: nat): (r: Option<nat>)
    requires i <= |s|
    ensures r.Some? ==> i < r.value <= |s|
  {
    var w := RunEnd(s, i, Word);
    match LastPipe(s, i, w - 5)
    case None => None
    case Some(j) => Some(j + 5)
  }

  /** End of the match of `p` starting exactly at `i`, if there is one. */
  function MatchAt(p: Pattern, s: string, i: nat): (r: Option<nat>)
    requires i <= |s|
    ensures r.Some? ==> i < r.value <= |s|
  {
    match p
    case VideoBitrate =>
      if i < |s| && s[i] == ',' then BitrateTail(s, i + 1) else None
    case AudioBitrate =>
      if OccursAt(s, "fltp,", i) then BitrateTail(s, i + 5) else None
    case SampleRate => SampleRateAt(s, i)
    case VideoCodec =>
      if OccursAt(s, "Video:", i) && i + 6 < |s| && IsSpace(s[i + 6])
      then Some(RunEnd(s, i + 7, Name)) else None
    case PixelFormat =>
      if i + 3 <= |s| && s[i] == ',' && IsSpace(s[i + 1]) && IsLower(s[i + 2])
      then Some(RunEnd(s, i + 3, Name)) else None
    case Resolution => ResolutionAt(s, i)
    case Rate(unit) => RateAt(unit, s, i)
    case Duration => DurationAt(s, i)
    case DemuxerRow => DemuxerRowAt(s, i)
    case DecoderRow => DecoderRowEnd(s, i)
    case PixfmtRow => PixfmtRowAt(s, i)
    case PipeFormat => PipeFormatAt(s, i)
    case Quoted =>
      if i < |s| && s[i] == '"' then QuoteClose(s, i + 1) else None
    case IndexedDevice =>
      if i + 3 <= |s| && s[i] == '[' && IsDigit(s[i + 1]) && s[i + 2] == ']'
      then Some(RunEnd(s, i + 3, NotNewline)) else None
  }

  predicate MatchesAt(p: Pattern, s: string, i: int) {
    0 <= i <= |s| && MatchAt(p, s, i).Some?
  }

  /** A match, as the span `s[start..end]`. */
  datatype Span = Span(start: nat, end: nat)

  /** `re.search` from `from`: the leftmost match. */
  function FindFirst(p: Pattern, s: string, from: nat): (r: Option<Span>)
    requires from <= |s|
    ensures r.Some? ==> from <= r.value.start < r.value.end <= |s|
    ensures r.Some? ==> MatchAt(p, s, r.value.start) == Some(r.value.end)
    ensures r.Some? ==> forall k :: from <= k < r.value.start ==> !MatchesAt(p, s, k)
    ensures r.None? ==> forall k :: from <= k <= |s| ==> !MatchesAt(p, s, k)
    decreases |s| - from
  {
    match MatchAt(p, s, from)
    case Some(e) => Some(Span(from, e))
    case None => if from == |s| then None else FindFirst(p, s, from + 1)
  }

  /** The leftmost match from `from` on, stated only by where it lies and what it matches. */
  function NextMatch(p: Pattern, s: string, from: nat): (r: Option<Span>)
    requires from <= |s|
    ensures r.Some? ==> from <= r.value.start < r.value.end <= |s| && MatchAt(p, s, r.value.start) == Some(r.value.end)
  {
    FindFirst(p, s, from)
  }

  /** `re.findall`: the leftmost matches, each search resuming where the previous match ended. */
  function FindAll(p: Pattern, s: string, from: nat): (spans: seq<Span>)
    requires from <= |s|
    ensures forall k :: 0 <= k < |spans| ==>
      from <= spans[k].start < spans[k].end <= |s| && MatchAt(p, s, spans[k].start) == Some(spans[k].end)
    ensures forall k :: 0 <= k < |spans| - 1 ==> spans[k].end <= spans[k + 1].start
    ensures |spans| > 0 <==> FindFirst(p, s, from).Some?
    ensures |spans| > 0 ==> spans[0] == FindFirst(p, s, from).value
    decreases |s| - from
  {
    match FindFirst(p, s, from)
    case None => []
    case Some(m) =>
      var rest := FindAll(p, s, m.end);
      SpansCons(p, s, from, m, rest);
      [m] + rest
  }

  /** A match followed by matches after it is a list of matches lying from `from` on. */
  lemma SpansCons(p: Pattern, s: string, from: nat, m: Span, rest: seq<Span>)
    requires from <= m.start < m.end <= |s| && MatchAt(p, s, m.start) == Some(m.end)
    requires forall k :: 0 <= k < |rest| ==>
      m.end <= rest[k].start < rest[k].end <= |s| && MatchAt(p, s, rest[k].start) == Some(rest[k].end)
    requires forall k :: 0 <= k < |rest| - 1 ==> rest[k].end <= rest[k + 1].start
    ensures forall k :: 0 <= k < |[m] + rest| ==>
      from <= ([m] + rest)[k].start < ([m] + rest)[k].end <= |s|
      && MatchAt(p, s, ([m] + rest)[k].start) == Some(([m] + rest)[k].end)
    ensures forall k :: 0 <= k < |[m] + rest| - 1 ==> ([m] + rest)[k].end <= ([m] + rest)[k + 1].start
  {
    var all := [m] + rest;
    forall k | 0 <= k < |all|
      ensures from <= all[k].start < all[k].end <= |s| && MatchAt(p, s, all[k].start) == Some(all[k].end)
    {
      if k > 0 {
        assert all[k] == rest[k - 1];
      }
    }
    SpansConsOrdered(m, rest);
  }

  /** A span that ends before the first of an ordered list, put in front, keeps it ordered. */
  lemma SpansConsOrdered(m: Span, rest: seq<Span>)
    requires forall k :: 0 <= k < |rest| ==> m.end <= rest[k].start
    requires forall k :: 0 <= k < |rest| - 1 ==> rest[k].end <= rest[k + 1].start
    ensures forall k :: 0 <= k < |[m] + rest| - 1 ==> ([m] + rest)[k].end <= ([m] + rest)[k + 1].start
  {
    var all := [m] + rest;
    forall k | 0 <= k < |all| - 1
      ensures all[k].end <= all[k + 1].start
    {
      assert all[k + 1] == rest[k];
      if k > 0 {
        assert all[k] == rest[k - 1];
      }
    }
  }

  /** The two lists have one length and `P` holds of their elements at each position. */
  ghost predicate Paired<A, B>(P: (A, B) -> bool, xs: seq<A>, ys: seq<B>) {
    |xs| == |ys| && forall k :: 0 <= k < |xs| ==> P(xs[k], ys[k])
  }

  /** A pair that `P` holds of, put in front of paired lists, keeps them paired. */
  lemma PairedCons<A, B>(P: (A, B) -> bool, x: A, y: B, xs: seq<A>, ys: seq<B>)
    requires P(x, y) && Paired(P, xs, ys)
    ensures Paired(P, [x] + xs, [y] + ys)
  {
    forall k | 1 <= k < |xs| + 1
      ensures P(([x] + xs)[k], ([y] + ys)[k])
    {
      assert ([x] + xs)[k] == xs[k - 1] && ([y] + ys)[k] == ys[k - 1];
    }
  }
}

=== FILE: sourcer.dfy ===
/**
  The source reader's decision layer (`sourcer.py`): sanitising its
  parameters, choosing the demuxer, resolving a device index, deciding what
  kind of source it was given, building the probe command, splitting the
  probe's text into its input and output parts, and turning the extractors'
  readings into the metadata dictionary.

  Everything the reader asks the system (the platform name, FFmpeg's
  listings, the file system, the probe's own output) is a field of `Host`.
 */
module Sourcer {
  import opened Results
  import opened Text
  import opened Py
  import opened Utils
  import opened FFhelper
  import opened Extract

  // ---------------------------------------------------------------------------
  // Parameter sanitising

  /** The types a sanitiser passes through untouched: dictionaries, lists, numbers and, for the reader, tuples. */
  predicate KeptAsIs(v: Value, keepTuples: bool) {
    v.DictV? || v.List? || IsNumber(v) || (keepTuples && v.Tuple?)
  }

  /** One parameter value after sanitising: kept as is, or turned into stripped text. */
  function CleanValue(v: Value, keepTuples: bool): (c: Value)
    ensures KeptAsIs(v, keepTuples) ==> c == v
    ensures !KeptAsIs(v, keepTuples) ==> c.Str? && Strip(c.s) == c.s
    ensures v.Str? ==> c == Str(Strip(v.s))
  {
    if KeptAsIs(v, keepTuples) then v
    else
      StripIdempotent(PyStr(v));
      Str(Strip(PyStr(v)))
  }

  /**
    The sanitised parameter dictionary, built the way a dictionary
    comprehension builds it: keys are stripped, and a key seen again keeps
    its first position but takes the later value.
   */
  function Sanitise(d: Dict, keepTuples: bool): (r: Dict)
    ensures UniqueKeys(r)
    decreases |d|
  {
    if |d| == 0 then []
    else
      var init := Sanitise(d[..|d| - 1], keepTuples);
      var e := d[|d| - 1];
      SetKeepsUnique(init, Strip(e.key), CleanValue(e.val, keepTuples));
      Set(init, Strip(e.key), CleanValue(e.val, keepTuples))
  }

  /** The cleaned value of the last entry whose stripped key is `key`. */
  function LastClean(d: Dict, key: string, keepTuples: bool): Option<Value>
    decreases |d|
  {
    if |d| == 0 then None
    else if Strip(d[|d| - 1].key) == key then Some(CleanValue(d[|d| - 1].val, keepTuples))
    else LastClean(d[..|d| - 1], key, keepTuples)
  }

  /** Looking a key up in the sanitised dictionary finds the last value given under that key. */
  lemma {:induction false} SanitiseGet(d: Dict, key: string, keepTuples: bool)
    ensures Get(Sanitise(d, keepTuples), key) == LastClean(d, key, keepTuples)
    decreases |d|
  {
    if |d| > 0 {
      var e := d[|d| - 1];
      SanitiseGet(d[..|d| - 1], key, keepTuples);
      GetSet(Sanitise(d[..|d| - 1], keepTuples), Strip(e.key), CleanValue(e.val, keepTuples), key);
    }
  }

  // ---------------------------------------------------------------------------
  // Construction

  /** `verbose` counts only when it is the boolean `True`. */
  function Flag(v: Value): bool {
    v == Bool(true)
  }

  /** The value popped under `key`, or `default` when it is absent or not a boolean. */
  function PopBool(d: Dict, key: string): bool {
    match Get(d, key)
    case Some(Bool(b)) => b
    case _ => false
  }

  /** The list popped under `key`, or the empty list when it is absent or not a list. */
  function PopList(d: Dict, key: string): seq<Value> {
    match Get(d, key)
    case Some(List(items)) => items
    case _ => []
  }

  /**
    The constructor's demuxer: no source is a `ValueError`; a text demuxer is
    stripped and lower-cased, and `auto` then needs a usable device index;
    any other demuxer becomes `auto` for a usable device index and `None`
    otherwise.
   */
  function DefaultDemuxer(source: Value, demuxer: Value): (r: Result<Option<string>>)
    ensures source.NoneV? ==> r == Err(ValueError)
    ensures r.Err? ==> r.error == ValueError || r.error == AssertionError
    ensures r == Ok(Some("auto")) ==> ValidateDeviceIndex(source)
    ensures !source.NoneV? && !demuxer.Str? ==> (r == Ok(Some("auto")) <==> ValidateDeviceIndex(source))
    ensures !source.NoneV? && !demuxer.Str? ==> r.Ok? && (r.value.None? || r.value == Some("auto"))
    ensures r.Ok? && demuxer.Str? ==> r.value == Some(Lower(Strip(demuxer.s)))
  {
    if source.NoneV? then Err(ValueError)
    else if demuxer.Str? then
      var d := Lower(Strip(demuxer.s));
      if d == "auto" && !ValidateDeviceIndex(source) then Err(AssertionError) else Ok(Some(d))
    else if ValidateDeviceIndex(source) then Ok(Some("auto"))
    else Ok(None)
  }

  /** A chosen demuxer is already stripped and lower-case. */
  lemma DefaultDemuxerNormal(source: Value, demuxer: Value)
    requires DefaultDemuxer(source, demuxer).Ok? && DefaultDemuxer(source, demuxer).value.Some?
    ensures var d := DefaultDemuxer(source, demuxer).value.value;
      Strip(d) == d && Lower(d) == d
  {
    ChosenDemuxer(source, demuxer);
    if demuxer.Str? {
      LowerStripped(demuxer.s);
    } else {
      AutoNormal();
    }
  }

  /** Which text a chosen demuxer is. */
  lemma ChosenDemuxer(source: Value, demuxer: Value)
    requires DefaultDemuxer(source, demuxer).Ok? && DefaultDemuxer(source, demuxer).value.Some?
    ensures DefaultDemuxer(source, demuxer).value.value == if demuxer.Str? then Lower(Strip(demuxer.s)) else "auto"
  {
  }

  lemma AutoNormal()
    ensures Strip("auto") == "auto" && Lower("auto") == "auto"
  {
    StripNoSpace("auto");
    assert Lower("auto") == "auto";
  }

  /** Handing the chosen demuxer back as text chooses it again. */
  lemma DefaultDemuxerStable(source: Value, demuxer: Value)
    requires DefaultDemuxer(source, demuxer).Ok? && DefaultDemuxer(source, demuxer).value.Some?
    ensures DefaultDemuxer(source, Str(DefaultDemuxer(source, demuxer).value.value)) == DefaultDemuxer(source, demuxer)
  {
    var d := DefaultDemuxer(source, demuxer).value.value;
    DefaultDemuxerNormal(source, demuxer);
    assert Lower(Strip(d)) == d;
  }

  /** The reader's state after construction. */
  datatype Reader = Reader(
    source: Value,
    demuxer: Option<string>,
    params: Dict,
    forceValidate: bool,
    prefixes: seq<Value>,
    verbose: bool,
    ffmpeg: string)

  /** The keys the constructor consumes; the rest go to FFmpeg. */
  predicate ReaderKey(key: string) {
    key == "-force_validate_source" || key == "-ffprefixes" || key == "-ffmpeg_download_path"
  }

  /** The sanitised parameters without the reader's own keys: every other key keeps its last given value. */
  function ReaderParams(params: Dict): (rest: Dict)
    ensures forall key :: ReaderKey(key) ==> !Has(rest, key)
    ensures forall key :: !ReaderKey(key) ==> Get(rest, key) == LastClean(params, key, true)
  {
    var clean := Sanitise(params, true);
    PopsKeep(clean, params);
    Pop(Pop(Pop(clean, "-force_validate_source"), "-ffprefixes"), "-ffmpeg_download_path")
  }

  /** The popped `-force_validate_source`: only the boolean `True` forces. */
  function ForceValidate(params: Dict): (force: bool)
    ensures force <==> LastClean(params, "-force_validate_source", true) == Some(Bool(true))
  {
    SanitiseGet(params, "-force_validate_source", true);
    PopBool(Sanitise(params, true), "-force_validate_source")
  }

  /**
    The constructor. `ffmpeg` is the executable the FFmpeg lookup returned,
    empty when it found none. The parameters are sanitised (tuples kept), the
    reader's own keys are popped, and the demuxer is chosen.
   */
  function NewReader(source: Value, demuxer: Value, ffmpeg: string, verbose: Value, params: Dict): (r: Result<Reader>)
    ensures ffmpeg == "" ==> r == Err(RuntimeError)
    ensures ffmpeg != "" ==> (r.Ok? <==> DefaultDemuxer(source, demuxer).Ok?)
    ensures ffmpeg != "" && r.Err? ==> r.error == DefaultDemuxer(source, demuxer).error
    ensures r.Ok? ==> r.value.demuxer == DefaultDemuxer(source, demuxer).value && r.value.source == source
    ensures r.Ok? ==> r.value.params == ReaderParams(params) && r.value.forceValidate == ForceValidate(params)
  {
    if ffmpeg == "" then Err(RuntimeError)
    else
      var dm :- DefaultDemuxer(source, demuxer);
      var prefixes := PopList(Sanitise(params, true), "-ffprefixes");
      Ok(Reader(source, dm, ReaderParams(params), ForceValidate(params), prefixes, Flag(verbose), ffmpeg))
  }

  lemma PopsKeep(clean: Dict, params: Dict)
    requires clean == Sanitise(params, true)
    ensures var rest := Pop(Pop(Pop(clean, "-force_validate_source"), "-ffprefixes"), "-ffmpeg_download_path");
      (forall key :: ReaderKey(key) ==> !Has(rest, key))
      && (forall key :: !ReaderKey(key) ==> Get(rest, key) == LastClean(params, key, true))
  {
    var a := Pop(clean, "-force_validate_source");
    var b := Pop(a, "-ffprefixes");
    var c := Pop(b, "-ffmpeg_download_path");
    forall key
      ensures ReaderKey(key) ==> !Has(c, key)
      ensures !ReaderKey(key) ==> Get(c, key) == LastClean(params, key, true)
    {
      GetPop(clean, "-force_validate_source", key);
      GetPop(a, "-ffprefixes", key);
      GetPop(b, "-ffmpeg_download_path", key);
      SanitiseGet(params, key, true);
    }
  }

  // ---------------------------------------------------------------------------
  // Validating the source

  /**
    The system's answers while one source is validated and probed: the
    platform name, FFmpeg's demuxer, device, pipe-format and protocol
    listings, the Linux capture nodes, what the file system says about the
    (resolved) source, and the probe's captured output.
   */
  datatype Host = Host(
    os: string,
    demuxers: Captured,
    devices: Captured,
    linuxDevices: seq<Device>,
    formats: Captured,
    protocols: Captured,
    isFile: bool,
    absPath: string,
    parentDir: Option<seq<string>>,
    probe: Captured)

  /** `int(v)`: integers and booleans as they are, text through `int()`, floats truncated toward zero. */
  function IntOfValue(v: Value): (r: Result<int>)
    ensures IsInt(v) ==> r == Ok(IntOf(v))
    ensures v.Str? ==> (r.Ok? <==> PyInt(v.s).Some?) && (r.Ok? ==> r.value == PyInt(v.s).value)
    ensures v.Str? && r.Err? ==> r.error == ValueError
    ensures v.Float? ==>
      && r.Ok?
      && (v.r >= 0.0 ==> r.value as real <= v.r < r.value as real + 1.0)
      && (v.r < 0.0 ==> r.value as real - 1.0 < v.r <= r.value as real)
    ensures !IsInt(v) && !v.Str? && !v.Float? ==> r == Err(TypeError)
  {
    match v
    case Int(i) => Ok(i)
    case Bool(b) => Ok(if b then 1 else 0)
    case Str(t) => (match PyInt(t) case Some(i) => Ok(i) case None => Err(ValueError))
    case Float(x) => Ok(if x >= 0.0 then x.Floor else -((-x).Floor))
    case _ => Err(TypeError)
  }

  /** `int()` truncates floats toward zero rather than rounding them. */
  lemma IntOfValueTruncates()
    ensures IntOfValue(Float(2.5)) == Ok(2) && IntOfValue(Float(2.99)) == Ok(2)
    ensures IntOfValue(Float(-2.5)) == Ok(-2) && IntOfValue(Float(-0.5)) == Ok(0)
  {
  }

  /** `str()` of a Linux device entry, a one-entry dictionary from the node to a list holding its name. */
  function DeviceText(d: Device): string {
    match d
    case Named(name) => name
    case Node(path, name) => "{'" + path + "': ['" + name + "']}"
  }

  /** A device chosen by `auto`: the new source, the platform's demuxer, the device list and the chosen position. */
  datatype Resolved = Resolved(source: string, demuxer: string, devices: seq<Device>, position: nat)

  /**
    The source a device index stands for. On Windows it is `video=` and the
    device; on macOS the index itself, made non-negative; elsewhere the
    device's node, which a name-only device does not have.
   */
  function DeviceSource(os: string, devices: seq<Device>, position: nat): (r: Result<string>)
    requires position < |devices|
    ensures os == "Windows" ==> r == Ok("video=" + DeviceText(devices[position]))
    ensures os == "Darwin" ==> r.Ok? && PyInt(r.value) == Some(position)
    ensures os != "Windows" && os != "Darwin" ==>
      (r.Ok? <==> devices[position].Node?) && (r.Ok? ==> r.value == devices[position].path)
    ensures os != "Windows" && os != "Darwin" && r.Err? ==> r.error == AttributeError
  {
    if os == "Windows" then Ok("video=" + DeviceText(devices[position]))
    else if os == "Darwin" then
      PyIntOfIntToString(position);
      Ok(IntToString(position))
    else match devices[position]
      case Node(path, _) => Ok(path)
      case Named(_) => Err(AttributeError)
  }

  /**
    The `auto` demuxer: the source is read as an index, the platform's devices
    are listed, and an index from `-n` to `n - 1` for `n` devices selects one,
    negative indexes counting from the end; any other index is a `ValueError`.
   */
  function ResolveAuto(source: Value, host: Host): (r: Result<Resolved>)
    ensures IntOfValue(source).Err? ==> r == Err(IntOfValue(source).error)
    ensures IntOfValue(source).Ok? && ExtractDeviceNDemuxer(host.os, host.demuxers, host.devices, host.linuxDevices).Err? ==>
      r == Err(ExtractDeviceNDemuxer(host.os, host.demuxers, host.devices, host.linuxDevices).error)
    ensures r.Ok? ==>
      var listed := ExtractDeviceNDemuxer(host.os, host.demuxers, host.devices, host.linuxDevices);
      var i := IntOfValue(source).value;
      && IntOfValue(source).Ok? && listed.Ok?
      && r.value.devices == listed.value.0 && r.value.demuxer == listed.value.1
      && r.value.position < |r.value.devices|
      && (i == r.value.position || i == r.value.position - |r.value.devices|)
      && DeviceSource(host.os, r.value.devices, r.value.position) == Ok(r.value.source)
    ensures IntOfValue(source).Ok? && ExtractDeviceNDemuxer(host.os, host.demuxers, host.devices, host.linuxDevices).Ok? ==>
      var n := |ExtractDeviceNDemuxer(host.os, host.demuxers, host.devices, host.linuxDevices).value.0|;
      var i := IntOfValue(source).value;
      (!(-n <= i < n) ==> r == Err(ValueError))
      && (-n <= i < n ==> r.Ok? || r == Err(AttributeError))
  {
    var index :- IntOfValue(source);
    var listed :- ExtractDeviceNDemuxer(host.os, host.demuxers, host.devices, host.linuxDevices);
    var devices := listed.0;
    var n := |devices|;
    if n > 0 && -n <= index < n then
      var position := if index >= 0 then index else n + index;
      var src :- DeviceSource(host.os, devices, position);
      Ok(Resolved(src, listed.1, devices, position))
    else Err(ValueError)
  }

  /** The demuxer and source after the demuxer check, with the devices found by `auto`. */
  datatype Checked = Checked(source: Value, demuxer: Option<string>, devices: seq<Device>)

  /**
    The demuxer check: `auto` resolves a device; any other demuxer must be
    one FFmpeg lists; no demuxer passes.
   */
  function CheckDemuxer(source: Value, demuxer: Option<string>, host: Host): (r: Result<Checked>)
    ensures demuxer.None? ==> r == Ok(Checked(source, None, []))
    ensures demuxer == Some("auto") ==>
      (r.Ok? <==> ResolveAuto(source, host).Ok?)
      && (r.Ok? ==> var res := ResolveAuto(source, host).value;
            r.value == Checked(Str(res.source), Some(res.demuxer), res.devices))
    ensures demuxer.Some? && demuxer != Some("auto") ==>
      (r.Ok? <==> GetSupportedDemuxers(host.demuxers).Ok? && demuxer.value in GetSupportedDemuxers(host.demuxers).value)
      && (r.Ok? ==> r.value == Checked(source, demuxer, []))
    ensures demuxer.Some? && demuxer != Some("auto") && GetSupportedDemuxers(host.demuxers).Ok? && r.Err? ==>
      r.error == ValueError
  {
    match demuxer
    case None => Ok(Checked(source, None, []))
    case Some(d) =>
      if d == "auto" then
        var res :- ResolveAuto(source, host);
        Ok(Checked(Str(res.source), Some(res.demuxer), res.devices))
      else
        var supported :- GetSupportedDemuxers(host.demuxers);
        if d in supported then Ok(Checked(source, demuxer, [])) else Err(ValueError)
  }

  /** How a source passed validation. */
  datatype Kind = Forced | File | ImageSequence | Url

  /**
    The source's kind, tested in order: a forced source passes untested, then
    an existing file, then an image sequence, then a URL with a known scheme;
    a source passing none is a `ValueError`.
   */
  function Classify(source: string, forced: bool, host: Host): (r: Result<Kind>)
    ensures forced ==> r == Ok(Forced)
    ensures r == Ok(File) <==> !forced && host.isFile
    ensures r == Ok(ImageSequence) ==> IsValidImageSeq(Some(source), host.formats, host.parentDir) == Ok(Some(true))
    ensures r == Ok(Url) ==> IsValidUrl(Some(source), host.protocols, host.demuxers) == Ok(true)
    ensures r == Ok(Url) ==> IsValidImageSeq(Some(source), host.formats, host.parentDir).Ok?
                             && IsValidImageSeq(Some(source), host.formats, host.parentDir) != Ok(Some(true))
    ensures (!forced && !host.isFile && IsValidImageSeq(Some(source), host.formats, host.parentDir).Ok?
             && IsValidImageSeq(Some(source), host.formats, host.parentDir) != Ok(Some(true))
             && IsValidUrl(Some(source), host.protocols, host.demuxers) == Ok(false)) ==> r == Err(ValueError)
    ensures !forced && !host.isFile ==>
      var images := IsValidImageSeq(Some(source), host.formats, host.parentDir);
      && (images == Ok(Some(true)) ==> r == Ok(ImageSequence))
      && (images.Err? ==> r == Err(images.error))
    ensures !forced && !host.isFile && IsValidImageSeq(Some(source), host.formats, host.parentDir).Ok?
            && IsValidImageSeq(Some(source), host.formats, host.parentDir) != Ok(Some(true)) ==>
      var url := IsValidUrl(Some(source), host.protocols, host.demuxers);
      && (url == Ok(true) ==> r == Ok(Url))
      && (url.Err? ==> r == Err(url.error))
  {
    if forced then Ok(Forced)
    else if host.isFile then Ok(File)
    else
      var seq_ :- IsValidImageSeq(Some(source), host.formats, host.parentDir);
      if seq_ == Some(true) then Ok(ImageSequence)
      else
        var url :- IsValidUrl(Some(source), host.protocols, host.demuxers);
        if url then Ok(Url) else Err(ValueError)
  }

  /** The executable, followed by `-hide_banner` unless verbose. */
  function Banner(ffmpeg: string, verbose: bool): (head: seq<Value>)
    ensures |head| == (if verbose then 1 else 2) && head[0] == Str(ffmpeg)
    ensures !verbose ==> head[1] == Str("-hide_banner")
  {
    [Str(ffmpeg)] + (if verbose then [] else [Str("-hide_banner")])
  }

  /** `-f <demuxer>` when a non-empty demuxer is forced. */
  function DemuxerArgs(demuxer: Option<string>): seq<Value>
  {
    if demuxer.Some? && demuxer.value != "" then [Str("-f"), Str(demuxer.value)] else []
  }

  /**
    The probe command. With parameters it probes for a ten-thousandth of a
    second, appends the parameters after the input and discards the output;
    without parameters it only opens the input.
   */
  function ProbeCommand(ffmpeg: string, verbose: bool, prefixes: seq<Value>, demuxer: Option<string>,
                        source: string, params: Dict): (cmd: seq<Value>)
    ensures |cmd| >= 3 && cmd[0] == Str(ffmpeg)
    ensures !verbose ==> cmd[1] == Str("-hide_banner")
    ensures |params| == 0 ==> cmd[|cmd| - 2..] == [Str("-i"), Str(source)]
    ensures |params| > 0 ==>
      var tail := [Str("-i"), Str(source)] + Dict2Args(params) + [Str("-f"), Str("null"), Str("-")];
      |cmd| >= |tail| && cmd[|cmd| - |tail|..] == tail
    ensures |params| > 0 ==> var h := if verbose then 1 else 2; cmd[h..h + 2] == [Str("-t"), Str("0.0001")]
    ensures var probe := if |params| > 0 then [Str("-t"), Str("0.0001")] else [];
      var output := if |params| > 0 then Dict2Args(params) + [Str("-f"), Str("null"), Str("-")] else [];
      cmd == Banner(ffmpeg, verbose) + probe + prefixes + DemuxerArgs(demuxer) + [Str("-i"), Str(source)] + output
  {
    var head := Banner(ffmpeg, verbose);
    var probe := if |params| > 0 then [Str("-t"), Str("0.0001")] else [];
    var format := DemuxerArgs(demuxer);
    var input := [Str("-i"), Str(source)];
    var output := if |params| > 0 then Dict2Args(params) + [Str("-f"), Str("null"), Str("-")] else [];
    Slots(head, probe, prefixes, format, input, output);
    assert input + output == [Str("-i"), Str(source)] + output;
    head + probe + prefixes + format + input + output
  }

  /**
    The probe's text split at `Output #` into the input part and the output
    part. Unpacking the split into two names raises `ValueError` when the
    marker occurs more than once.
   */
  function SplitOutput(text: string): (r: Result<(string, Option<string>)>)
    ensures !Contains(text, "Output #") ==> r == Ok((text, None))
    ensures Contains(text, "Output #") ==> (r.Ok? <==> |Split(text, "Output #")| == 2)
    ensures r.Err? ==> r.error == ValueError
    ensures r.Ok? && r.value.1.Some? ==>
      r.value.0 + "Output #" + r.value.1.value == text
      && !Contains(r.value.0, "Output #") && !Contains(r.value.1.value, "Output #")
  {
    if Contains(text, "Output #") then
      var parts := Split(text, "Output #");
      SplitJoin(text, "Output #");
      SplitPartsAvoidSep(text, "Output #");
      if |parts| == 2 then
        assert Join(parts, "Output #") == parts[0] + "Output #" + parts[1];
        Ok((parts[0], Some(parts[1])))
      else Err(ValueError)
    else
      SplitWithout(text, "Output #");
      Ok((text, None))
  }

  /** The outcome of validating a source: where it now points, its demuxer, the probe command and the probe's text. */
  datatype Validated = Validated(
    source: string,
    demuxer: Option<string>,
    devices: seq<Device>,
    images: bool,
    command: seq<Value>,
    text: string,
    output: Option<string>)

  /**
    Validating a source and probing it: the demuxer check, the check that the
    source is non-empty text, the classification (forced when a demuxer was
    given, otherwise as the reader's flag says), the probe command for the
    checked source and demuxer, and the probe's stripped text split at its
    output section. An existing file is replaced by its absolute path.
   */
  function ValidateSource(reader: Reader, host: Host): (r: Result<Validated>)
    ensures CheckDemuxer(reader.source, reader.demuxer, host).Err? ==>
      r == Err(CheckDemuxer(reader.source, reader.demuxer, host).error)
    ensures CheckDemuxer(reader.source, reader.demuxer, host).Ok? ==>
      var c := CheckDemuxer(reader.source, reader.demuxer, host).value;
      !(c.source.Str? && c.source.s != "") ==> r == Err(AssertionError)
    ensures r.Ok? ==>
      var c := CheckDemuxer(reader.source, reader.demuxer, host).value;
      var forced := if reader.demuxer.None? then reader.forceValidate else true;
      && CheckDemuxer(reader.source, reader.demuxer, host).Ok?
      && c.source.Str? && c.source.s != ""
      && Classify(c.source.s, forced, host).Ok?
      && r.value.images == (Classify(c.source.s, forced, host).value == ImageSequence)
      && r.value.source == (if Classify(c.source.s, forced, host).value == File then host.absPath else c.source.s)
      && r.value.demuxer == c.demuxer && r.value.devices == c.devices
      && r.value.command == ProbeCommand(reader.ffmpeg, reader.verbose, reader.prefixes, c.demuxer, c.source.s, reader.params)
      && SplitOutput(Strip(StderrText(host.probe))) == Ok((r.value.text, r.value.output))
    ensures r.Ok? && r.value.demuxer.None? ==> r.value.devices == []
  {
    var c :- CheckDemuxer(reader.source, reader.demuxer, host);
    if !(c.source.Str? && c.source.s != "") then Err(AssertionError)
    else
      var src := c.source.s;
      var forced := if reader.demuxer.None? then reader.forceValidate else true;
      var kind :- Classify(src, forced, host);
      var command := ProbeCommand(reader.ffmpeg, reader.verbose, reader.prefixes, c.demuxer, src, reader.params);
      var parts :- SplitOutput(Strip(StderrText(host.probe)));
      Ok(Validated(if kind == File then host.absPath else src, c.demuxer, c.devices,
                   kind == ImageSequence, command, parts.0, parts.1))
  }

  // ---------------------------------------------------------------------------
  // Probing the streams

  /**
    Whether the source has video and audio: video when there is a video
    bitrate or both a framerate and a resolution, audio when there is an audio
    bitrate or sample rate; a source with neither is a `ValueError`.
   */
  function StreamFlags(bitrate: string, framerate: Value, resolution: Value,
                       audioBitrate: string, samplerate: string): (r: Result<(bool, bool)>)
    ensures r.Ok? ==> r.value.0 == (bitrate != "" || (Truthy(framerate) && Truthy(resolution)))
    ensures r.Ok? ==> r.value.1 == (audioBitrate != "" || samplerate != "")
    ensures r.Err? <==> !(bitrate != "" || (Truthy(framerate) && Truthy(resolution))) && audioBitrate == "" && samplerate == ""
    ensures r.Err? ==> r.error == ValueError
  {
    var video := bitrate != "" || (Truthy(framerate) && Truthy(resolution));
    var audio := audioBitrate != "" || samplerate != "";
    if video && audio then Ok((true, true))
    else if video then Ok((true, false))
    else if audio then Ok((false, true))
    else Err(ValueError)
  }

  /** Whether `n` is `x` rounded to the nearest integer, ties going to the even one. */
  predicate RoundsHalfEven(x: real, n: int) {
    var d := n as real - x;
    -0.5 <= d <= 0.5 && ((d == 0.5 || d == -0.5) ==> n % 2 == 0)
  }

  /** `numpy.rint`: rounding to the nearest integer, halves to even; no other integer rounds `x` so. */
  function Rint(x: real): (n: int)
    ensures RoundsHalfEven(x, n)
    ensures forall m :: RoundsHalfEven(x, m) ==> m == n
  {
    var f := x.Floor;
    var frac := x - f as real;
    if frac < 0.5 then f
    else if frac > 0.5 then f + 1
    else if f % 2 == 0 then f else f + 1
  }

  /** The stream indexes `probe_stream` accepts: a two-element list or tuple of integers. */
  function StreamIndexes(v: Value): (r: Result<(int, int)>)
    ensures r.Ok? <==> (v.List? || v.Tuple?) && |v.items| == 2 && IsInt(v.items[0]) && IsInt(v.items[1])
    ensures r.Ok? ==> r.value == (IntOf(v.items[0]), IntOf(v.items[1]))
    ensures r.Err? ==> r.error == AssertionError
  {
    if (v.List? || v.Tuple?) && |v.items| == 2 && IsInt(v.items[0]) && IsInt(v.items[1])
    then Ok((IntOf(v.items[0]), IntOf(v.items[1])))
    else Err(AssertionError)
  }

  /** A resolution as the `[width, height]` list the metadata holds, or `""` when none was found. */
  function ResolutionValue(g: Option<Geometry>): (v: Value)
    ensures Truthy(v) <==> g.Some?
    ensures g.Some? ==> v == List([Int(g.value.width), Int(g.value.height)])
  {
    match g
    case Some(geo) => List([Int(geo.width), Int(geo.height)])
    case None => Str("")
  }

  /** A frame rate as the float the metadata holds, or `""` when none was found. */
  function FramerateValue(g: Option<Geometry>): (v: Value)
    ensures Truthy(v) <==> g.Some? && g.value.framerate != 0.0
    ensures g.Some? ==> v == Float(g.value.framerate)
  {
    match g
    case Some(geo) => Float(geo.framerate)
    case None => Str("")
  }

  /** The output stream's resolution, frame rate and pixel format, read from the part of the probe after `Output #`. */
  datatype OutputMeta = OutputMeta(resolution: Value, framerate: Value, pixfmt: string)

  /** The audio and duration readings, taken only for a source that is not an image sequence. */
  datatype Streams = Streams(bitrate: string, audioBitrate: string, samplerate: string, duration: Value,
                             hasVideo: bool, hasAudio: bool)

  /**
    The readings of a source that is not an image sequence: the video bitrate
    of the chosen video stream, the audio bitrate and sample rate of the chosen
    audio stream, the duration (`0` when absent) and the stream flags.
   */
  function ReadStreams(text: string, video: int, audio: int, framerate: Value, resolution: Value): (r: Result<Streams>)
    ensures r.Ok? ==> ExtractVideoBitrate(text, video) == Ok(r.value.bitrate)
    ensures r.Ok? ==> ExtractAudio(text, audio).Ok?
    ensures r.Ok? && ExtractAudio(text, audio).value.Some? ==>
      r.value.audioBitrate == ExtractAudio(text, audio).value.value.bitrate
      && r.value.samplerate == ExtractAudio(text, audio).value.value.samplerate
    ensures r.Ok? && ExtractAudio(text, audio).value.None? ==> r.value.audioBitrate == "" && r.value.samplerate == ""
    ensures r.Ok? ==> r.value.duration == (match ExtractDuration(text) case Some(d) => Float(d) case None => Int(0))
    ensures r.Ok? ==> StreamFlags(r.value.bitrate, framerate, resolution, r.value.audioBitrate, r.value.samplerate)
                      == Ok((r.value.hasVideo, r.value.hasAudio))
    ensures r.Ok? ==> r.value.hasVideo || r.value.hasAudio
    ensures ExtractVideoBitrate(text, video).Err? ==> r == Err(ExtractVideoBitrate(text, video).error)
  {
    var bitrate :- ExtractVideoBitrate(text, video);
    var params :- ExtractAudio(text, audio);
    var (ab, asr) := match params case Some(a) => (a.bitrate, a.samplerate) case None => ("", "");
    var duration := match ExtractDuration(text) case Some(d) => Float(d) case None => Int(0);
    var flags :- StreamFlags(bitrate, framerate, resolution, ab, asr);
    Ok(Streams(bitrate, ab, asr, duration, flags.0, flags.1))
  }

  /**
    The approximate frame count: the frame rate times the duration, rounded,
    when both are known and non-zero; `""` otherwise.
   */
  function FrameCount(framerate: Value, duration: Value): (n: Value)
    ensures Truthy(framerate) && Truthy(duration) && IsNumber(framerate) && IsNumber(duration) ==>
      n.Int? && RoundsHalfEven(NumberOf(framerate) * NumberOf(duration), n.i)
    ensures !(Truthy(framerate) && Truthy(duration) && IsNumber(framerate) && IsNumber(duration)) ==> n == Str("")
  {
    if Truthy(framerate) && Truthy(duration) && IsNumber(framerate) && IsNumber(duration)
    then Int(Rint(NumberOf(framerate) * NumberOf(duration)))
    else Str("")
  }

  /** Everything `probe_stream` learns about a source. */
  datatype Probed = Probed(
    ffmpeg: string,
    source: string,
    demuxer: Option<string>,
    devices: seq<Device>,
    resolution: Value,
    framerate: Value,
    pixfmt: string,
    decoder: string,
    streams: Streams,
    nframes: Value,
    images: bool,
    output: Option<OutputMeta>)

  /**
    `probe_stream`: validate the source, then read the chosen video stream's
    geometry, pixel format and decoder, the output stream's readings when the
    probe has an output section, and for a source that is not an image
    sequence the bitrates, duration and stream flags; an image sequence has
    neither audio nor video flags and an empty duration.
   */
  function ProbeStream(reader: Reader, host: Host, indexes: Value): (r: Result<Probed>)
    ensures StreamIndexes(indexes).Err? ==> r == Err(AssertionError)
    ensures StreamIndexes(indexes).Ok? && ValidateSource(reader, host).Err? ==> r == Err(ValidateSource(reader, host).error)
    ensures r.Ok? ==>
      var v := ValidateSource(reader, host).value;
      var k := StreamIndexes(indexes).value.0;
      && StreamIndexes(indexes).Ok? && ValidateSource(reader, host).Ok?
      && r.value.source == v.source && r.value.demuxer == v.demuxer && r.value.images == v.images
      && r.value.resolution == ResolutionValue(ExtractResolutionFramerate(v.text, k))
      && r.value.framerate == FramerateValue(ExtractResolutionFramerate(v.text, k))
      && r.value.pixfmt == ExtractVideoPixfmt(v.text, k)
      && r.value.decoder == ExtractVideoDecoder(v.text, k)
      && (r.value.output.Some? <==> v.output.Some?)
      && (v.output.Some? ==> r.value.output.value.pixfmt == ExtractVideoPixfmt(v.output.value, k))
      && r.value.nframes == FrameCount(r.value.framerate, r.value.streams.duration)
    ensures r.Ok? && r.value.images ==>
      r.value.streams == Streams("", "", "", Str(""), false, false) && r.value.nframes == Str("")
    ensures r.Ok? && !r.value.images ==>
      var v := ValidateSource(reader, host).value;
      var ks := StreamIndexes(indexes).value;
      ReadStreams(v.text, ks.0, ks.1, r.value.framerate, r.value.resolution) == Ok(r.value.streams)
  {
    var ks :- StreamIndexes(indexes);
    var v :- ValidateSource(reader, host);
    var geometry := ExtractResolutionFramerate(v.text, ks.0);
    var resolution := ResolutionValue(geometry);
    var framerate := FramerateValue(geometry);
    var output := match v.output
      case Some(out) =>
        var g := ExtractResolutionFramerate(out, ks.0);
        Some(OutputMeta(ResolutionValue(g), FramerateValue(g), ExtractVideoPixfmt(out, ks.0)))
      case None => None;
    var streams :-
      if v.images then Ok(Streams("", "", "", Str(""), false, false))
      else ReadStreams(v.text, ks.0, ks.1, framerate, resolution);
    Ok(Probed(reader.ffmpeg, v.source, v.demuxer, v.devices, resolution, framerate,
              ExtractVideoPixfmt(v.text, ks.0), ExtractVideoDecoder(v.text, ks.0),
              streams, FrameCount(framerate, streams.duration), v.images, output))
  }

  // ---------------------------------------------------------------------------
  // Retrieving the metadata

  /** The approximate frame count as the metadata reports it: the count when it is non-zero, `None` otherwise. */
  function NframesEntry(n: Value): (v: Value)
    ensures Truthy(n) ==> v == n
    ensures !Truthy(n) ==> v == NoneV
  {
    if Truthy(n) then n else NoneV
  }

  /** The keys naming the output stream's readings, each mirroring a source reading. */
  const OutputKeys: seq<string> := ["output_frames_resolution", "output_frames_pixfmt", "output_framerate"]

  /** The source readings, in the order the metadata lists them. */
  function SourceEntries(p: Probed): (d: Dict)
    ensures |d| == 12
  {
    [ Entry("source_video_resolution", p.resolution),
      Entry("source_video_pixfmt", Str(p.pixfmt)),
      Entry("source_video_framerate", p.framerate),
      Entry("source_video_decoder", Str(p.decoder)),
      Entry("source_duration_sec", p.streams.duration),
      Entry("approx_video_nframes", NframesEntry(p.nframes)),
      Entry("source_video_bitrate", Str(p.streams.bitrate)),
      Entry("source_audio_bitrate", Str(p.streams.audioBitrate)),
      Entry("source_audio_samplerate", Str(p.streams.samplerate)),
      Entry("source_has_video", Bool(p.streams.hasVideo)),
      Entry("source_has_audio", Bool(p.streams.hasAudio)),
      Entry("source_has_image_sequence", Bool(p.images)) ]
  }

  /** The demuxer entry, or the file extension entry when no demuxer was used. */
  function InputEntry(p: Probed): (e: Entry)
    ensures p.demuxer.Some? ==> e == Entry("source_demuxer", Str(p.demuxer.value))
    ensures p.demuxer.None? ==> e == Entry("source_extension", Str(SplitExt(p.source).1))
  {
    match p.demuxer
    case Some(d) => Entry("source_demuxer", Str(d))
    case None => Entry("source_extension", Str(SplitExt(p.source).1))
  }

  /**
    `retrieve_metadata`: the metadata dictionary and, when asked for, the
    dictionary of what the metadata misses: the other one of demuxer and
    extension, empty, and without an output section the output readings
    copied from their source counterparts. Asking before probing is an
    `AssertionError`.
   */
  function RetrieveMetadata(probed: Option<Probed>, forceMissing: bool): (r: Result<(Dict, Dict)>)
    ensures r.Err? <==> probed.None?
    ensures r.Err? ==> r.error == AssertionError
    ensures r.Ok? ==>
      var p := probed.value;
      var meta := r.value.0;
      && |meta| >= 15
      && meta[0] == Entry("ffmpeg_binary_path", Str(p.ffmpeg)) && meta[1] == Entry("source", Str(p.source))
      && meta[2] == InputEntry(p)
      && meta[3..15] == SourceEntries(p)
      && (p.output.Some? ==> meta[15..] == [Entry(OutputKeys[0], p.output.value.resolution),
                                           Entry(OutputKeys[1], Str(p.output.value.pixfmt)),
                                           Entry(OutputKeys[2], p.output.value.framerate)])
      && (p.output.None? ==> |meta| == 15)
    ensures r.Ok? && !forceMissing ==> r.value.1 == []
    ensures r.Ok? && forceMissing ==>
      var p := probed.value;
      var missing := r.value.1;
      && |missing| >= 1
      && missing[0] == (if p.demuxer.Some? then Entry("source_extension", Str("")) else Entry("source_demuxer", Str("")))
      && (p.output.Some? ==> |missing| == 1)
      && (p.output.None? ==> missing[1..] == [Entry(OutputKeys[0], p.resolution),
                                              Entry(OutputKeys[1], Str(p.pixfmt)),
                                              Entry(OutputKeys[2], p.framerate)])
  {
    match probed
    case None => Err(AssertionError)
    case Some(p) =>
      var other := if p.demuxer.Some? then Entry("source_extension", Str("")) else Entry("source_demuxer", Str(""));
      var output := match p.output
        case Some(o) => [Entry(OutputKeys[0], o.resolution), Entry(OutputKeys[1], Str(o.pixfmt)), Entry(OutputKeys[2], o.framerate)]
        case None => [];
      var mirrored := [Entry(OutputKeys[0], p.resolution), Entry(OutputKeys[1], Str(p.pixfmt)), Entry(OutputKeys[2], p.framerate)];
      var meta := [Entry("ffmpeg_binary_path", Str(p.ffmpeg)), Entry("source", Str(p.source)), InputEntry(p)]
                  + SourceEntries(p) + output;
      var missing := if forceMissing then [other] + (if p.output.None? then mirrored else []) else [];
      Ok((meta, missing))
  }

  /** The keys of the binary and the source, the two alternative input keys, and the source readings' keys. */
  const HeadKeys: seq<string> := ["ffmpeg_binary_path", "source"]
  const InputKeys: seq<string> := ["source_demuxer", "source_extension"]
  const SourceKeys: seq<string> := [
    "source_video_resolution", "source_video_pixfmt", "source_video_framerate", "source_video_decoder",
    "source_duration_sec", "approx_video_nframes", "source_video_bitrate", "source_audio_bitrate",
    "source_audio_samplerate", "source_has_video", "source_has_audio", "source_has_image_sequence"]

  /** Every key the metadata can report. */
  const MetadataKeys: seq<string> := HeadKeys + InputKeys + SourceKeys + OutputKeys

  lemma KeysConcat(a: Dict, b: Dict)
    ensures Keys(a + b) == Keys(a) + Keys(b)
  {
  }

  lemma SourceEntryKeys(p: Probed)
    ensures Keys(SourceEntries(p)) == SourceKeys
  {
  }

  lemma OutputEntryKeys(a: Value, b: Value, c: Value)
    ensures Keys([Entry(OutputKeys[0], a), Entry(OutputKeys[1], b), Entry(OutputKeys[2], c)]) == OutputKeys
  {
  }

  /** The metadata's keys: the binary, the source, the input entry, the source readings and any output readings. */
  lemma MetaKeys(p: Probed, forceMissing: bool)
    ensures var r := RetrieveMetadata(Some(p), forceMissing).value;
      Keys(r.0) == HeadKeys + [InputEntry(p).key] + SourceKeys + (if p.output.Some? then OutputKeys else [])
  {
    var r := RetrieveMetadata(Some(p), forceMissing).value;
    var head := [Entry("ffmpeg_binary_path", Str(p.ffmpeg)), Entry("source", Str(p.source)), InputEntry(p)];
    var out := r.0[15..];
    assert r.0 == head + SourceEntries(p) + out;
    KeysConcat(head + SourceEntries(p), out);
    KeysConcat(head, SourceEntries(p));
    SourceEntryKeys(p);
    assert Keys(head) == HeadKeys + [InputEntry(p).key];
    if p.output.Some? {
      OutputEntryKeys(p.output.value.resolution, Str(p.output.value.pixfmt), p.output.value.framerate);
    }
  }

  /** The missing dictionary's keys: the other input key and, without an output section, the output keys. */
  lemma MissingKeys(p: Probed)
    ensures var r := RetrieveMetadata(Some(p), true).value;
      Keys(r.1) == [if p.demuxer.Some? then InputKeys[1] else InputKeys[0]]
                   + (if p.output.None? then OutputKeys else [])
  {
    MissingKeysOf(RetrieveMetadata(Some(p), true).value.1, p);
  }

  lemma MissingKeysOf(m: Dict, p: Probed)
    requires |m| >= 1
    requires m[0] == (if p.demuxer.Some? then Entry("source_extension", Str("")) else Entry("source_demuxer", Str("")))
    requires p.output.Some? ==> |m| == 1
    requires p.output.None? ==> m[1..] == [Entry(OutputKeys[0], p.resolution),
                                           Entry(OutputKeys[1], Str(p.pixfmt)),
                                           Entry(OutputKeys[2], p.framerate)]
    ensures Keys(m) == [if p.demuxer.Some? then InputKeys[1] else InputKeys[0]]
                       + (if p.output.None? then OutputKeys else [])
  {
    HeadTail(m);
    KeysConcat([m[0]], m[1..]);
    assert Keys([m[0]]) == [m[0].key];
    assert m[0].key == if p.demuxer.Some? then InputKeys[1] else InputKeys[0];
    if p.output.None? {
      OutputEntryKeys(p.resolution, Str(p.pixfmt), p.framerate);
      assert Keys(m[1..]) == OutputKeys;
    } else {
      assert Keys(m[1..]) == [];
    }
  }

  /** The second part and the last two parts of a six-part concatenation. */
  lemma Slots<T>(a: seq<T>, m: seq<T>, b: seq<T>, c: seq<T>, d: seq<T>, e: seq<T>)
    ensures (a + m + b + c + d + e)[|a|..|a| + |m|] == m
    ensures |a + m + b + c + d + e| >= |d + e| && (a + m + b + c + d + e)[|a + m + b + c + d + e| - |d + e|..] == d + e
  {
    assert a + m + b + c + d + e == a + (m + (b + c + (d + e)));
  }

  lemma Rotate<T>(xs: seq<T>, y: T)
    ensures multiset(xs + [y]) == multiset([y] + xs)
  {
  }

  lemma SameAround<T>(p: seq<T>, a: seq<T>, b: seq<T>, q: seq<T>)
    requires multiset(a) == multiset(b)
    ensures multiset(p + a + q) == multiset(p + b + q)
  {
  }

  lemma Regroup<T>(head: seq<T>, inp: T, other: T, src: seq<T>, out: seq<T>, tail: seq<T>)
    ensures head + [inp] + src + out + ([other] + tail) == head + ([inp] + (src + out) + [other]) + tail
  {
  }

  lemma Ungroup<T>(head: seq<T>, d: T, e: T, src: seq<T>, out: seq<T>, tail: seq<T>, ok: seq<T>)
    requires out + tail == ok
    ensures head + ([d] + [e] + (src + out)) + tail == head + [d] + [e] + src + ok
  {
  }

  lemma ToFront<T>(inp: T, x: seq<T>, other: T)
    ensures multiset([inp] + x + [other]) == multiset([other] + [inp] + x)
  {
    Rotate([inp] + x, other);
    assert [other] + ([inp] + x) == [other] + [inp] + x;
  }

  lemma Swap<T>(a: T, b: T, x: seq<T>)
    ensures multiset([a] + [b] + x) == multiset([b] + [a] + x)
  {
  }

  /** Moving one input key to the end and splitting the output keys between two lists keeps the same keys. */
  lemma PartitionShape<T>(head: seq<T>, inp: T, other: T, src: seq<T>, out: seq<T>, tail: seq<T>, d: T, e: T, ok: seq<T>)
    requires (inp == d && other == e) || (inp == e && other == d)
    requires out + tail == ok
    ensures multiset(head + [inp] + src + out + ([other] + tail)) == multiset(head + [d] + [e] + src + ok)
  {
    var x := src + out;
    Regroup(head, inp, other, src, out, tail);
    ToFront(inp, x, other);
    SameAround(head, [inp] + x + [other], [other] + [inp] + x, tail);
    if inp == d {
      Swap(other, inp, x);
      SameAround(head, [other] + [inp] + x, [d] + [e] + x, tail);
    }
    Ungroup(head, d, e, src, out, tail, ok);
  }

  lemma MetadataKeysShape()
    ensures MetadataKeys == HeadKeys + [InputKeys[0]] + [InputKeys[1]] + SourceKeys + OutputKeys
  {
    assert InputKeys == [InputKeys[0]] + [InputKeys[1]];
  }

  /**
    With the missing metadata requested, the two dictionaries together report
    every key exactly once: each key is in one of them and in neither twice.
   */
  lemma MetadataPartition(p: Probed)
    ensures var r := RetrieveMetadata(Some(p), true).value;
      multiset(Keys(r.0) + Keys(r.1)) == multiset(MetadataKeys)
  {
    var r := RetrieveMetadata(Some(p), true).value;
    MetaKeys(p, true);
    MissingKeys(p);
    var inp := InputEntry(p).key;
    var other := if p.demuxer.Some? then InputKeys[1] else InputKeys[0];
    var out: seq<string> := if p.output.Some? then OutputKeys else [];
    var tail: seq<string> := if p.output.None? then OutputKeys else [];
    assert out + tail == OutputKeys;
    assert Keys(r.0) + Keys(r.1) == HeadKeys + [inp] + SourceKeys + out + ([other] + tail);
    PartitionShape(HeadKeys, inp, other, SourceKeys, out, tail, InputKeys[0], InputKeys[1], OutputKeys);
    MetadataKeysShape();
  }
}

=== FILE: text.dfy ===
/**
  Character classes and the string operations deffcode uses from Python's
  `str` type: `strip`, `in`, `find`, `split`, `join`,
  `startswith`/`endswith`, slicing with clamped bounds, `int()` and `str()` of
  integers, `lower()`, and the decimal reading behind `float()`.

  Digits, letters and word characters are the ASCII ones; whitespace is the
  full set that `str.isspace()` (and therefore `strip()` and the regular
  expression class `\s`) accepts.
 */
module Text {
  import opened Results

  /** The characters `str.isspace()` accepts; `\s` and `strip()` use the same set. */
  predicate IsSpace(c: char) {
    if c <= ' ' then c == ' ' || '\t' <= c <= '\r' || '\U{1C}' <= c
    else '\U{85}' <= c && IsWideSpace(c)
  }

  /** The whitespace characters above the ASCII range. */
  predicate IsWideSpace(c: char) {
    || c == '\U{85}' || c == '\U{A0}' || c == '\U{1680}'
    || ('\U{2000}' <= c <= '\U{200A}')
    || c == '\U{2028}' || c == '\U{2029}' || c == '\U{202F}' || c == '\U{205F}' || c == '\U{3000}'
  }

  predicate IsDigit(c: char) { '0' <= c <= '9' }
  predicate IsLower(c: char) { 'a' <= c <= 'z' }
  predicate IsUpper(c: char) { 'A' <= c <= 'Z' }

  /** The word class `\w`, restricted to ASCII. */
  predicate IsWord(c: char) { IsDigit(c) || IsLower(c) || IsUpper(c) || c == '_' }

  predicate AllDigits(s: string) {
    forall k :: 0 <= k < |s| ==> IsDigit(s[k])
  }

  /** A non-empty run of ASCII digits. */
  predicate IsNumeral(s: string) {
    |s| > 0 && AllDigits(s)
  }

  /**
    `str.isnumeric()`: non-empty, and every character has a numeric value.
    Python also counts non-ASCII numerals (fractions, other scripts' digits);
    this model counts the ASCII digits only.
   */
  predicate IsNumeric(s: string) {
    IsNumeral(s)
  }

  // ---------------------------------------------------------------------------
  // strip()

  function StripLeft(s: string): (r: string)
    ensures |r| <= |s| && r == s[|s| - |r|..]
    ensures forall k :: 0 <= k < |s| - |r| ==> IsSpace(s[k])
    ensures |r| > 0 ==> !IsSpace(r[0])
    decreases |s|
  {
    if |s| > 0 && IsSpace(s[0]) then StripLeft(s[1..]) else s
  }

  function StripRight(s: string): (r: string)
    ensures |r| <= |s| && r == s[..|r|]
    ensures forall k :: |r| <= k < |s| ==> IsSpace(s[k])
    ensures |r| > 0 ==> !IsSpace(r[|r| - 1])
    decreases |s|
  {
    if |s| > 0 && IsSpace(s[|s| - 1]) then StripRight(s[..|s| - 1]) else s
  }

  /** `s.strip()`: the text without leading and trailing whitespace. */
  function Strip(s: string): (r: string)
    ensures |r| <= |s|
    ensures |r| > 0 ==> !IsSpace(r[0]) && !IsSpace(r[|r| - 1])
  {
    StripRight(StripLeft(s))
  }

  /** Text with no whitespace at either end is left alone by `strip()`. */
  lemma StripNoEdge(s: string)
    requires |s| > 0 ==> !IsSpace(s[0]) && !IsSpace(s[|s| - 1])
    ensures Strip(s) == s
  {
    assert StripLeft(s) == s;
  }

  /** `strip()` is idempotent. */
  lemma StripIdempotent(s: string)
    ensures Strip(Strip(s)) == Strip(s)
  {
    StripNoEdge(Strip(s));
  }

  /** Text without any whitespace is its own `strip()`. */
  lemma StripNoSpace(s: string)
    requires forall k :: 0 <= k < |s| ==> !IsSpace(s[k])
    ensures Strip(s) == s
  {
    StripNoEdge(s);
  }

  // ---------------------------------------------------------------------------
  // `in`, `find`, `startswith`, `endswith`

  predicate OccursAt(s: string, t: string, i: int) {
    0 <= i && i + |t| <= |s| && s[i..i + |t|] == t
  }

  /** Leftmost occurrence of `t` in `s` at or after `from`. */
  function FindFrom(s: string, t: string, from: nat): (r: Option<nat>)
    ensures r.Some? ==> from <= r.value && OccursAt(s, t, r.value)
    ensures r.Some? ==> forall j :: from <= j < r.value ==> !OccursAt(s, t, j)
    ensures r.None? ==> forall j :: from <= j ==> !OccursAt(s, t, j)
    decreases |s| - from
  {
    if from + |t| > |s| then None
    else if OccursAt(s, t, from) then Some(from)
    else FindFrom(s, t, from + 1)
  }

  /** `s.find(t)`, with `None` for -1. */
  function Find(s: string, t: string): Option<nat> {
    FindFrom(s, t, 0)
  }

  /** `t in s`. */
  predicate Contains(s: string, t: string) {
    Find(s, t).Some?
  }

  lemma ContainsIff(s: string, t: string)
    ensures Contains(s, t) <==> exists i :: OccursAt(s, t, i)
  {
    if exists i :: OccursAt(s, t, i) {
      var i :| OccursAt(s, t, i);
      assert 0 <= i;
    }
  }

  lemma ContainsAt(s: string, t: string, i: int)
    requires OccursAt(s, t, i)
    ensures Contains(s, t)
  {
    ContainsIff(s, t);
  }

  /** Text that does not hold the first character of `t` does not hold `t`. */
  lemma NotContainsHead(s: string, t: string)
    requires |t| > 0 && t[0] !in s
    ensures !Contains(s, t)
  {
  }

  predicate StartsWith(s: string, p: string) {
    p <= s
  }

  predicate EndsWith(s: string, q: string) {
    |q| <= |s| && s[|s| - |q|..] == q
  }

  // ---------------------------------------------------------------------------
  // split() and join()

  /** `s.split(sep)`: the pieces between the non-overlapping leftmost occurrences of `sep`. */
  function Split(s: string, sep: string): (parts: seq<string>)
    requires |sep| > 0
    ensures |parts| >= 1
    decreases |s|
  {
    match Find(s, sep)
    case None => [s]
    case Some(i) => [s[..i]] + Split(s[i + |sep|..], sep)
  }

  /** `sep.join(parts)`. */
  function Join(parts: seq<string>, sep: string): string
    decreases |parts|
  {
    if |parts| == 0 then ""
    else if |parts| == 1 then parts[0]
    else parts[0] + sep + Join(parts[1..], sep)
  }

  /** Joining the pieces of a split with the same separator gives the text back. */
  lemma {:induction false} SplitJoin(s: string, sep: string)
    requires |sep| > 0
    ensures Join(Split(s, sep), sep) == s
    decreases |s|
  {
    match Find(s, sep)
    case None =>
    case Some(i) =>
      var rest := Split(s[i + |sep|..], sep);
      SplitJoin(s[i + |sep|..], sep);
      assert Split(s, sep) == [s[..i]] + rest;
      assert ([s[..i]] + rest)[1..] == rest;
      assert Join(Split(s, sep), sep) == s[..i] + sep + s[i + |sep|..];
      assert s == s[..i] + s[i..i + |sep|] + s[i + |sep|..];
  }

  lemma OccursInPrefix(s: string, t: string, i: nat, j: int)
    requires i <= |s| && OccursAt(s[..i], t, j)
    ensures OccursAt(s, t, j) && j + |t| <= i
  {
    assert s[..i][j..j + |t|] == s[j..j + |t|];
  }

  /** No piece of a split holds the separator. */
  lemma {:induction false} SplitPartsAvoidSep(s: string, sep: string)
    requires |sep| > 0
    ensures forall k :: 0 <= k < |Split(s, sep)| ==> !Contains(Split(s, sep)[k], sep)
    decreases |s|
  {
    match Find(s, sep)
    case None =>
    case Some(i) =>
      var rest := Split(s[i + |sep|..], sep);
      SplitPartsAvoidSep(s[i + |sep|..], sep);
      if Contains(s[..i], sep) {
        var j := Find(s[..i], sep).value;
        OccursInPrefix(s, sep, i, j);
        assert false;
      }
      forall k | 0 <= k < |Split(s, sep)|
        ensures !Contains(Split(s, sep)[k], sep)
      {
        if k > 0 {
          assert Split(s, sep)[k] == rest[k - 1];
        }
      }
  }

  lemma SplitWithout(s: string, sep: string)
    requires |sep| > 0 && !Contains(s, sep)
    ensures Split(s, sep) == [s]
  {
  }

  lemma SplitAtStart(s: string, sep: string)
    requires |sep| > 0 && OccursAt(s, sep, 0)
    ensures Split(s, sep) == [""] + Split(s[|sep|..], sep)
  {
    assert Find(s, sep) == Some(0);
  }

  /** An occurrence with none before it is the one `find` reports. */
  lemma FindAt(s: string, t: string, i: nat)
    requires OccursAt(s, t, i)
    requires forall j :: 0 <= j < i ==> !OccursAt(s, t, j)
    ensures Find(s, t) == Some(i)
  {
    var r := Find(s, t);
    assert r.Some?;
    assert !(r.value < i);
    assert !(i < r.value);
  }

  /** Splitting on a single character at its first occurrence. */
  lemma SplitAtChar(a: string, c: char, b: string)
    requires c !in a
    ensures Split(a + [c] + b, [c]) == [a] + Split(b, [c])
  {
    var s := a + [c] + b;
    assert s[|a|..|a| + 1] == [c];
    forall j | 0 <= j < |a|
      ensures !OccursAt(s, [c], j)
    {
      assert s[j] == a[j];
    }
    FindAt(s, [c], |a|);
    assert s[..|a|] == a;
    assert s[|a| + 1..] == b;
  }

  /** `a + [c] + b` split at `c`, with the concatenation grouped to the right. */
  lemma SplitAtCharR(a: string, c: char, b: string)
    requires c !in a
    ensures Split(a + ([c] + b), [c]) == [a] + Split(b, [c])
  {
    assert a + ([c] + b) == a + [c] + b;
    SplitAtChar(a, c, b);
  }

  lemma SplitNoChar(s: string, c: char)
    requires c !in s
    ensures Split(s, [c]) == [s]
  {
    NotContainsHead(s, [c]);
  }

  /** The text before the first `sep`: `s.partition(sep)[0]`, which is also `s.split(sep)[0]`. */
  function Before(s: string, sep: string): (h: string)
    requires |sep| > 0
    ensures h <= s && !Contains(h, sep)
    ensures Contains(s, sep) ==> OccursAt(s, sep, |h|)
    ensures !Contains(s, sep) ==> h == s
  {
    match Find(s, sep)
    case None => s
    case Some(i) =>
      NothingBeforeFirst(s, sep, i);
      s[..i]
  }

  lemma NothingBeforeFirst(s: string, sep: string, i: nat)
    requires |sep| > 0 && Find(s, sep) == Some(i)
    ensures !Contains(s[..i], sep)
  {
    if Contains(s[..i], sep) {
      var j := Find(s[..i], sep).value;
      OccursInPrefix(s, sep, i, j);
    }
  }

  /**
    Text placed in front of a separator whose first character does not recur
    in it is exactly what comes before that separator.
   */
  lemma BeforeFirst(h: string, sep: string, t: string)
    requires |sep| > 0 && sep[0] !in sep[1..] && !Contains(h, sep)
    ensures Before(h + sep + t, sep) == h
  {
    var s := h + sep + t;
    assert s[|h|..|h| + |sep|] == sep;
    forall j | 0 <= j < |h|
      ensures !OccursAt(s, sep, j)
    {
      if OccursAt(s, sep, j) {
        if j + |sep| <= |h| {
          assert h[j..j + |sep|] == s[j..j + |sep|];
          ContainsAt(h, sep, j);
        }
      }
    }
    FindAt(s, sep, |h|);
    assert s[..|h|] == h;
  }

  /** The first piece of a split is the text before the first separator. */
  lemma SplitHead(s: string, sep: string)
    requires |sep| > 0
    ensures Split(s, sep)[0] == Before(s, sep)
  {
  }

  /** `xs[-1]`. */
  function Last<T>(xs: seq<T>): T
    requires |xs| > 0
  {
    xs[|xs| - 1]
  }

  lemma HeadTail<T>(xs: seq<T>)
    requires |xs| > 0
    ensures xs == [xs[0]] + xs[1..]
  {
  }

  lemma LastOfCons<T>(x: T, ys: seq<T>)
    requires |ys| > 0
    ensures Last([x] + ys) == Last(ys)
  {
    assert ([x] + ys)[|ys|] == ys[|ys| - 1];
  }

  /** A character absent from the text is absent from its `strip()`. */
  lemma StripKeepsOut(s: string, c: char)
    requires c !in s
    ensures c !in Strip(s)
  {
    var l := StripLeft(s);
    var a := |s| - |l|;
    forall k | 0 <= k < |Strip(s)|
      ensures Strip(s)[k] == s[a + k]
    {
      assert Strip(s)[k] == l[k];
    }
  }

  /** Leading whitespace up to a non-space character at `a` is what `lstrip()` removes. */
  lemma {:induction false} StripLeftAt(s: string, a: nat)
    requires a < |s| && !IsSpace(s[a])
    requires forall k :: 0 <= k < a ==> IsSpace(s[k])
    ensures StripLeft(s) == s[a..]
    decreases a
  {
    if a > 0 {
      assert IsSpace(s[0]);
      StripLeftAt(s[1..], a - 1);
      assert s[1..][a - 1..] == s[a..];
    }
  }

  /** Trailing whitespace after a non-space character at `b - 1` is what `rstrip()` removes. */
  lemma {:induction false} StripRightAt(s: string, b: nat)
    requires 0 < b <= |s| && !IsSpace(s[b - 1])
    requires forall k :: b <= k < |s| ==> IsSpace(s[k])
    ensures StripRight(s) == s[..b]
    decreases |s| - b
  {
    if b < |s| {
      assert IsSpace(s[|s| - 1]);
      StripRightAt(s[..|s| - 1], b);
      assert s[..|s| - 1][..b] == s[..b];
    }
  }

  /** Text whose whitespace lies only before `a` and from `b` on strips to `s[a..b]`. */
  lemma StripBetween(s: string, a: nat, b: nat)
    requires a < b <= |s| && !IsSpace(s[a]) && !IsSpace(s[b - 1])
    requires forall k :: 0 <= k < a ==> IsSpace(s[k])
    requires forall k :: b <= k < |s| ==> IsSpace(s[k])
    ensures Strip(s) == s[a..b]
  {
    StripLeftAt(s, a);
    StripRightOfSuffix(s, a, b);
  }

  lemma StripRightOfSuffix(s: string, a: nat, b: nat)
    requires a < b <= |s| && !IsSpace(s[b - 1])
    requires forall k :: b <= k < |s| ==> IsSpace(s[k])
    ensures StripRight(s[a..]) == s[a..b]
  {
    var l := s[a..];
    forall k | b - a <= k < |l|
      ensures IsSpace(l[k])
    {
      assert l[k] == s[a + k];
    }
    assert l[b - a - 1] == s[b - 1];
    StripRightAt(l, b - a);
    assert l[..b - a] == s[a..b];
  }

  /** Leading whitespace followed by digits strips to a numeral. */
  lemma SpacedNumeral(t: string, a: nat)
    requires a < |t|
    requires forall k :: 0 <= k < a ==> IsSpace(t[k])
    requires forall k :: a <= k < |t| ==> IsDigit(t[k])
    ensures IsNumeral(Strip(t))
  {
    StripBetween(t, a, |t|);
  }

  /** A slice none of whose positions holds `c` does not hold `c`. */
  lemma NoCharSlice(s: string, i: nat, j: nat, c: char)
    requires i <= j <= |s|
    requires forall k :: i <= k < j ==> s[k] != c
    ensures c !in s[i..j]
  {
    forall k | 0 <= k < j - i
      ensures s[i..j][k] != c
    {
      assert s[i..j][k] == s[i + k];
    }
  }

  /** A non-empty slice whose every position holds a digit is a numeral. */
  lemma NumeralSlice(s: string, i: nat, j: nat)
    requires i < j <= |s|
    requires forall k :: i <= k < j ==> IsDigit(s[k])
    ensures IsNumeral(s[i..j])
  {
    forall k | 0 <= k < j - i
      ensures IsDigit(s[i..j][k])
    {
      assert s[i..j][k] == s[i + k];
    }
  }

  /** Cutting a slice in two at `k`. */
  lemma SliceConcat(s: string, i: nat, k: nat, j: nat)
    requires i <= k <= j <= |s|
    ensures s[i..j] == s[i..k] + s[k..j]
  {
  }

  /** A non-empty slice is its first element followed by the rest. */
  lemma SliceCons(s: string, i: nat, j: nat)
    requires i < j <= |s|
    ensures s[i..j] == [s[i]] + s[i + 1..j]
  {
    SliceConcat(s, i, i + 1, j);
  }

  /** A slice around position `c`: what comes before it, the element, what comes after. */
  lemma SliceAround(s: string, i: nat, c: nat, j: nat)
    requires i <= c < j <= |s|
    ensures s[i..j] == s[i..c] + [s[c]] + s[c + 1..j]
  {
    SliceConcat(s, i, c, j);
    SliceCons(s, c, j);
  }

  /** The last space-separated word of `flags`, one separator character, `tail`, when neither piece holds a space. */
  lemma LastWord(flags: string, sep: char, tail: string)
    requires ' ' !in flags && ' ' !in tail
    ensures sep == ' ' ==> Last(Split(flags + [sep] + tail, " ")) == tail
    ensures sep != ' ' ==> Last(Split(flags + [sep] + tail, " ")) == flags + [sep] + tail
    ensures ' ' !in Last(Split(flags + [sep] + tail, " "))
  {
    var m := flags + [sep] + tail;
    if sep == ' ' {
      SplitAtChar(flags, ' ', tail);
      SplitNoChar(tail, ' ');
    } else {
      assert ' ' !in m;
      SplitNoChar(m, ' ');
    }
  }

  /** `xs[a:b]` for non-negative bounds: both bounds are clamped to the length. */
  function PySlice<T>(xs: seq<T>, a: nat, b: nat): (r: seq<T>)
    ensures |r| <= |xs|
    ensures forall x :: x in r ==> x in xs
  {
    var lo := if a < |xs| then a else |xs|;
    var hi := if b < |xs| then b else |xs|;
    if hi <= lo then [] else xs[lo..hi]
  }

  /** `xs.index(x)`, with `None` where Python raises `ValueError`. */
  function IndexOf<T(==)>(xs: seq<T>, x: T): (r: Option<nat>)
    ensures r.Some? ==> r.value < |xs| && xs[r.value] == x
    ensures r.Some? ==> forall k :: 0 <= k < r.value ==> xs[k] != x
    ensures r.None? ==> x !in xs
    decreases |xs|
  {
    if |xs| == 0 then None
    else if xs[0] == x then Some(0)
    else match IndexOf(xs[1..], x)
      case None => None
      case Some(k) => Some(k + 1)
  }

  // ---------------------------------------------------------------------------
  // Decimal numerals: int(), str() of an int, float() of a plain decimal

  function DigitValue(c: char): nat
    requires IsDigit(c)
  {
    c as int - '0' as int
  }

  function DigitChar(d: nat): (c: char)
    requires d < 10
    ensures IsDigit(c) && DigitValue(c) == d
  {
    ('0' as int + d) as char
  }

  /** The value of a run of decimal digits, as `int()` reads it (leading zeros included). */
  function DigitsValue(s: string): nat
    requires AllDigits(s)
    decreases |s|
  {
    if |s| == 0 then 0 else DigitsValue(s[..|s| - 1]) * 10 + DigitValue(s[|s| - 1])
  }

  /** `str(n)` for a non-negative integer. */
  function NatToString(n: nat): (r: string)
    ensures IsNumeral(r)
    ensures |r| > 1 ==> r[0] != '0'
    decreases n
  {
    if n < 10 then [DigitChar(n)] else NatToString(n / 10) + [DigitChar(n % 10)]
  }

  /** `str(i)` for any integer. */
  function IntToString(i: int): string {
    if i < 0 then "-" + NatToString(-i) else NatToString(i)
  }

  /** Reading back a printed natural number gives the number. */
  lemma {:induction false} NatToStringValue(n: nat)
    ensures DigitsValue(NatToString(n)) == n
    decreases n
  {
    if n >= 10 {
      NatToStringValue(n / 10);
      var s := NatToString(n);
      assert s[..|s| - 1] == NatToString(n / 10);
    }
  }

  /**
    `int(s)`: optional surrounding whitespace, an optional sign, then ASCII
    digits. `None` stands for the `ValueError` Python raises. Underscore
    digit separators and non-ASCII digits, which Python also accepts, are
    not modelled.
   */
  function PyInt(s: string): (r: Option<int>)
    ensures r.Some? ==> |Strip(s)| > 0
  {
    var t := Strip(s);
    if |t| > 0 && (t[0] == '-' || t[0] == '+') then
      if IsNumeral(t[1..]) then
        Some(if t[0] == '-' then -(DigitsValue(t[1..]) as int) else DigitsValue(t[1..]))
      else None
    else if IsNumeral(t) then Some(DigitsValue(t))
    else None
  }

  /** `int(str(i)) == i`. */
  lemma PyIntOfIntToString(i: int)
    ensures PyInt(IntToString(i)) == Some(i)
  {
    if i < 0 {
      NegativeBack(-i);
    } else {
      NaturalBack(i);
    }
  }

  lemma NaturalBack(n: nat)
    ensures PyInt(NatToString(n)) == Some(n)
  {
    var s := NatToString(n);
    assert IsDigit(s[0]) && IsDigit(s[|s| - 1]);
    StripNoEdge(s);
    NatToStringValue(n);
  }

  lemma NegativeBack(n: nat)
    ensures PyInt("-" + NatToString(n)) == Some(-(n as int))
  {
    var t := NatToString(n);
    var s := "-" + t;
    assert s[1..] == t && IsDigit(t[|t| - 1]) && s[|s| - 1] == t[|t| - 1];
    StripNoEdge(s);
    NatToStringValue(n);
  }

  /**
    `float(s)` for plain decimals: optional surrounding whitespace, an optional
    sign, digits with at most one point and at least one digit. `None` stands
    for the `ValueError` Python raises.
   */
  function PyFloat(s: string): (r: Option<real>)
  {
    var t := Strip(s);
    var signed := |t| > 0 && (t[0] == '-' || t[0] == '+');
    var body := if signed then t[1..] else t;
    var whole := Before(body, ".");
    var frac := if |whole| < |body| then body[|whole| + 1..] else "";
    if AllDigits(whole) && AllDigits(frac) && |whole| + |frac| > 0 then
      var v := DecimalValue(whole, frac);
      Some(if signed && t[0] == '-' then -v else v)
    else None
  }

  /** An unsigned, already stripped decimal reads as the value of its two halves. */
  lemma PyFloatUnsigned(s: string, whole: string, frac: string)
    requires |s| > 0 && Strip(s) == s && IsDigit(s[0])
    requires Before(s, ".") == whole && IsNumeral(whole) && AllDigits(frac)
    requires |whole| < |s| ==> s[|whole| + 1..] == frac
    requires |whole| == |s| ==> frac == ""
    ensures PyFloat(s) == Some(DecimalValue(whole, frac))
  {
  }

  /** A plain numeral reads back as its value. */
  lemma PyFloatWhole(whole: string)
    requires IsNumeral(whole)
    ensures PyFloat(whole) == Some(DecimalValue(whole, ""))
  {
    StripNoSpace(whole);
    NotContainsHead(whole, ".");
    PyFloatUnsigned(whole, whole, "");
  }

  /** The decimal text `whole.frac` reads back as its exact value. */
  lemma PyFloatFraction(whole: string, frac: string)
    requires IsNumeral(whole) && IsNumeral(frac)
    ensures PyFloat(whole + "." + frac) == Some(DecimalValue(whole, frac))
  {
    var s := whole + "." + frac;
    assert s[0] == whole[0] && s[|s| - 1] == frac[|frac| - 1];
    StripNoEdge(s);
    NotContainsHead(whole, ".");
    BeforeFirst(whole, ".", frac);
    assert s[|whole| + 1..] == frac;
    PyFloatUnsigned(s, whole, frac);
  }

  /**
    A slice holding digits up to `a`, then optionally a point and more digits
    up to `f`, reads as that decimal number.
   */
  lemma PyFloatSlice(s: string, i: nat, a: nat, f: nat)
    requires i < a <= f <= |s|
    requires forall k :: i <= k < a ==> IsDigit(s[k])
    requires f > a ==> f > a + 1 && s[a] == '.' && forall k :: a < k < f ==> IsDigit(s[k])
    ensures PyFloat(s[i..f]) == Some(DecimalValue(s[i..a], if f > a then s[a + 1..f] else ""))
  {
    if f > a {
      PyFloatSliceFraction(s, i, a, f);
    } else {
      PyFloatSliceWhole(s, i, a, f);
    }
  }

  lemma PyFloatSliceWhole(s: string, i: nat, a: nat, f: nat)
    requires i < a == f <= |s|
    requires forall k :: i <= k < a ==> IsDigit(s[k])
    ensures PyFloat(s[i..f]) == Some(DecimalValue(s[i..a], ""))
  {
    NumeralSlice(s, i, a);
    PyFloatWhole(s[i..a]);
  }

  lemma PyFloatSliceFraction(s: string, i: nat, a: nat, f: nat)
    requires i < a && a + 1 < f <= |s| && s[a] == '.'
    requires forall k :: i <= k < a ==> IsDigit(s[k])
    requires forall k :: a < k < f ==> IsDigit(s[k])
    ensures PyFloat(s[i..f]) == Some(DecimalValue(s[i..a], s[a + 1..f]))
  {
    NumeralSlice(s, i, a);
    NumeralSlice(s, a + 1, f);
    DotSlice(s, i, a, f);
    PyFloatDot(s[i..f], s[i..a], s[a + 1..f]);
  }

  /** Any text spelled `whole.frac` reads as the exact value of its two halves. */
  lemma PyFloatDot(t: string, whole: string, frac: string)
    requires IsNumeral(whole) && IsNumeral(frac) && t == whole + "." + frac
    ensures PyFloat(t) == Some(DecimalValue(whole, frac))
  {
    PyFloatFraction(whole, frac);
  }

  /** A slice with a point at `a` is the text before it, the point, and the text after it. */
  lemma DotSlice(s: string, i: nat, a: nat, f: nat)
    requires i <= a < f <= |s| && s[a] == '.'
    ensures s[i..f] == s[i..a] + "." + s[a + 1..f]
  {
    SliceConcat(s, i, a, f);
    SliceCons(s, a, f);
  }

  /** `s.lower()` for ASCII letters. */
  function Lower(s: string): (r: string)
    ensures |r| == |s|
    ensures forall k :: 0 <= k < |s| ==> !IsUpper(r[k])
  {
    seq(|s|, k requires 0 <= k < |s| => if IsUpper(s[k]) then (s[k] as int + 32) as char else s[k])
  }

  /** Lower-casing a stripped text keeps it stripped, and lower-casing it again changes nothing. */
  lemma LowerStripped(s: string)
    ensures Strip(Lower(Strip(s))) == Lower(Strip(s))
    ensures Lower(Lower(Strip(s))) == Lower(Strip(s))
  {
    var t := Strip(s);
    var l := Lower(t);
    if |t| > 0 {
      assert !IsSpace(l[0]) && !IsSpace(l[|l| - 1]);
    }
    StripNoEdge(l);
  }

  function Pow10(n: nat): (p: nat)
    ensures p >= 1
  {
    if n == 0 then 1 else 10 * Pow10(n - 1)
  }

  /** The value of the digits after a decimal point, read from the right so that each step only divides by ten. */
  function FracValue(frac: string): (v: real)
    requires AllDigits(frac)
    ensures 0.0 <= v < 1.0
    decreases |frac|
  {
    if |frac| == 0 then 0.0 else (DigitValue(frac[0]) as real + FracValue(frac[1..])) / 10.0
  }

  /** The exact value of the decimal `whole.frac`, as `float()` would read it before rounding. */
  function DecimalValue(whole: string, frac: string): (v: real)
    requires AllDigits(whole) && AllDigits(frac)
    ensures v >= 0.0
  {
    DigitsValue(whole) as real + FracValue(frac)
  }
}

=== FILE: utils.dfy ===
/**
  The two shared helpers of the package: flattening a parameter dictionary
  into FFmpeg arguments, and deciding whether a device index is usable.
 */
module Utils {
  import opened Results
  import opened Text
  import opened Py

  /** Keys whose list value is spliced into the arguments verbatim, without the key. */
  predicate IsSpliced(key: string) {
    key == "-clones" || StartsWith(key, "-core")
  }

  /** What a single dictionary entry adds to the argument list. */
  function EntryArgs(e: Entry): seq<Value> {
    if IsSpliced(e.key) then (if e.val.List? then e.val.items else [])
    else [Str(e.key), Str(PyStr(e.val))]
  }

  /** `dict2Args`: the entries' contributions, in key order. */
  function Dict2Args(d: Dict): (args: seq<Value>)
    decreases |d|
  {
    if |d| == 0 then [] else EntryArgs(d[0]) + Dict2Args(d[1..])
  }

  /** Flattening distributes over joining two dictionaries' entry lists. */
  lemma {:induction false} Dict2ArgsAppend(a: Dict, b: Dict)
    ensures Dict2Args(a + b) == Dict2Args(a) + Dict2Args(b)
    decreases |a|
  {
    if |a| == 0 {
      assert a + b == b;
    } else {
      assert (a + b)[1..] == a[1..] + b;
      Dict2ArgsAppend(a[1..], b);
      calc {
        Dict2Args(a + b);
        EntryArgs(a[0]) + Dict2Args(a[1..] + b);
        EntryArgs(a[0]) + (Dict2Args(a[1..]) + Dict2Args(b));
        Dict2Args(a) + Dict2Args(b);
      }
    }
  }

  /** A dictionary without spliced keys flattens to alternating key, `str(value)` pairs. */
  lemma {:induction false} Dict2ArgsOrdinary(d: Dict)
    requires forall k :: 0 <= k < |d| ==> !IsSpliced(d[k].key)
    ensures |Dict2Args(d)| == 2 * |d|
    ensures forall k :: 0 <= k < |d| ==>
      Dict2Args(d)[2 * k] == Str(d[k].key) && Dict2Args(d)[2 * k + 1] == Str(PyStr(d[k].val))
    decreases |d|
  {
    if |d| > 0 {
      Dict2ArgsOrdinary(d[1..]);
      var r := Dict2Args(d);
      forall k | 1 <= k < |d|
        ensures r[2 * k] == Str(d[k].key) && r[2 * k + 1] == Str(PyStr(d[k].val))
      {
        assert d[1..][k - 1] == d[k];
        assert r[2 * k] == Dict2Args(d[1..])[2 * (k - 1)];
        assert r[2 * k + 1] == Dict2Args(d[1..])[2 * (k - 1) + 1];
      }
    }
  }

  /** A spliced key contributes its list's elements and nothing else; any other value contributes nothing. */
  lemma Dict2ArgsSpliced(key: string, v: Value, rest: Dict)
    requires IsSpliced(key)
    ensures v.List? ==> Dict2Args([Entry(key, v)] + rest) == v.items + Dict2Args(rest)
    ensures !v.List? ==> Dict2Args([Entry(key, v)] + rest) == Dict2Args(rest)
  {
    assert ([Entry(key, v)] + rest)[1..] == rest;
  }

  /** Number of entries that contribute a key/value pair. */
  function OrdinaryCount(d: Dict): nat
    decreases |d|
  {
    if |d| == 0 then 0 else (if IsSpliced(d[0].key) then 0 else 1) + OrdinaryCount(d[1..])
  }

  /** Total length of the lists held by spliced keys. */
  function SplicedItems(d: Dict): nat
    decreases |d|
  {
    if |d| == 0 then 0
    else (if IsSpliced(d[0].key) && d[0].val.List? then |d[0].val.items| else 0) + SplicedItems(d[1..])
  }

  /** The argument count is two per ordinary key plus the spliced lists' lengths. */
  lemma {:induction false} Dict2ArgsLength(d: Dict)
    ensures |Dict2Args(d)| == 2 * OrdinaryCount(d) + SplicedItems(d)
    decreases |d|
  {
    if |d| > 0 {
      Dict2ArgsLength(d[1..]);
    }
  }

  // ---------------------------------------------------------------------------

  /**
    `validate_device_index`: any integer is accepted; a string is accepted when
    it is numeric or a minus sign followed by numeric text (spaces are kept,
    so they make it invalid); anything else is rejected. Numeric text is
    ASCII digits here (see `IsNumeric`), and on such text the check agrees
    with `int()` on unpadded, unsigned-or-minus text.
   */
  function ValidateDeviceIndex(index: Value): (ok: bool)
    ensures IsInt(index) ==> ok
    ensures !IsInt(index) && !index.Str? ==> !ok
    ensures index.Str? ==>
      (ok <==> PyInt(index.s).Some? && Strip(index.s) == index.s && !StartsWith(index.s, "+"))
  {
    if IsInt(index) then true
    else if index.Str? then
      var s := index.s;
      var r := IsNumeric(s) || (StartsWith(s, "-") && IsNumeric(s[1..]));
      StripNoEdgeIf(s, r);
      r
    else false
  }

  lemma StripNoEdgeIf(s: string, r: bool)
    requires r <==> IsNumeric(s) || (StartsWith(s, "-") && IsNumeric(s[1..]))
    ensures r ==> Strip(s) == s
  {
    if r { StripNoEdge(s); }
  }

  /** Every printed integer is an accepted index, and reads back as that integer. */
  lemma ValidateDeviceIndexPrinted(i: int)
    ensures ValidateDeviceIndex(Str(IntToString(i)))
    ensures PyInt(IntToString(i)) == Some(i)
  {
    PyIntOfIntToString(i);
  }

  /** Blank text, a lone minus sign and a space-padded numeral are all rejected. */
  lemma ValidateDeviceIndexRejects()
    ensures !ValidateDeviceIndex(Str(""))
    ensures !ValidateDeviceIndex(Str("-"))
    ensures !ValidateDeviceIndex(Str(" 1"))
  {
    assert !IsNumeral("-"[1..]);
    assert !IsDigit(" 1"[0]);
  }
}
